=== FILE: README.md ===
# farahub-core: the module composition engine, in Dafny

farahub-core is the core module of a multi-tenant platform. A **workspace** subscribes to
**modules**, and each module may depend on others. Every request then works on:

- the workspace's *current modules*: the union of the dependency closures of its current
  subscriptions;
- the application modules those names resolve to;
- the database schemas those modules contribute;
- the hooks they register for one another.

This project models that engine as pure functions over finite data:

- the module catalogue is a sequence of module documents;
- the subscription ledger is a sequence of subscriptions;
- option trees are JSON values.

It also models the controller rules built on the engine:

- granting modules to a workspace;
- the list endpoints and their paging;
- the options, taskbar and settings endpoints;
- the access summary;
- switching the current workspace;
- adding an owner.

Module layout (one Dafny module per file):

| file | module | models |
|---|---|---|
| wrappers.dfy | Wrappers, Ids | `Option`, `Result`, identifiers and instants |
| seqs.dfy | Seqs | `map`, `filter`, `flatten`, `uniq`, `uniqBy` on sequences |
| text.dfy | Text | truthiness, ASCII lower-casing, `\s` removal, `split`/`join` |
| options.dfy | Options | lodash `get` / `setWith` on a JSON tree, `getOption(s)`, `setOptions` |
| lifecycle.dfy | Lifecycle | the `preSave` → `save` → `postSave` protocol |
| modules.dfy | Modules | `Module.getHereditary`, `Module.createOrUpdate` |
| ledger.dfy | Ledger | `getCurrentModules`, `hasCurrentModule` |
| multimap.dfy | MultiMaps | name → values accumulation used by the schema and hook merges |
| composition.dfy | Composition | `resolveModulesHereditary`, `createConnection`, `getInjections`, `inject` |
| fixtures.dfy | Fixtures | the core module's own schema map and hook map, and a plugin's hooks |
| workspaces.dfy | Workspaces | `createNew`, `addMember`, membership queries, storage capacity |
| users.dfy | Users | `fullName`, `setCurrentWorkspace` |
| granting.dfy | Granting | `_createWorkspaceSubscription` and the `subscribe` batch |
| listing.dfy | Listing | the module, workspace and user-workspace lists |
| settings.dfy | Settings | options, taskbar, quotes and settings endpoints |
| access.dfy | Access | `getAccess`, `setAsCurrent` |
| owners.dfy | Owners | `addOwner` |

Modelling choices that matter when reading the contracts:

- **Acyclicity.** `getHereditary` has no cycle check. A catalogue is valid when ids are unique
  and a rank map strictly decreases along every dependency edge (`Modules.ValidCatalog`). The
  closure terminates on that measure.
- **Missing documents.** `Doc.resolve` of an id that is not stored yields `null`, and the next
  property access throws. Those paths are `Failure` results (`LoadError`, `UpsertError`, ...).
- **Unique indexes.** The module schema makes `identifier` required and unique, and the workspace
  schema makes `identifier` and (sparse) `hostname` unique. `save()` refuses a document that breaks
  them (`Modules.SaveCheck`, `Workspaces.IndexCheck`), and the call throws after its pre-save hooks.
- **The ledger window.** Which subscriptions are "current" or "active" is decided by framework
  code. It is a parameter `isCurrent: Subscription -> bool`.
- **Concurrency.** `Promise.all` fan-outs are sequential, in array order. Properties of the
  closure are stated as sets and multisets, so they do not depend on that order.
- **Hooks and handlers.** A hook handler is opaque. `inject` calls it through a parameter
  `call(handler, index)` that returns a `Result`. Schemas and handlers are type parameters.
- **Randomness, the clock and the file system are parameters.** These are:
  - the candidate slugs of `uniqueSlug()`;
  - `now`;
  - the used space measured on disk;
  - whether a registered application module has an `onSubscribe` hook, and whether it
    succeeds.

## Model

| member | source | states |
|---|---|---|
| Modules.Find | src/models/Module.js:22 | `Doc.resolve` by id: the found module is stored with that id; nothing is found exactly when no stored module has it |
| Modules.Hereditary | src/models/Module.js:14-31 | the closure starts with the module itself, lies in the catalogue, is closed under dependencies and holds every direct dependency; `[self]` when there are none; it fails only on an unstored id, never when all dependencies are stored |
| Modules.HereditaryOfAll | src/models/Module.js:17-27 | the dependencies' closures together are stored, dependency-closed and hold every listed dependency; empty for no dependencies; fail only on an unstored id |
| Modules.HereditaryIsLeast | src/models/Module.js:14-31 | the closure is the least dependency-closed set holding the module: it lies inside every such set |
| Modules.DependencyClosureContained | src/models/Module.js:19-26 | each dependency's whole closure, counted with repetitions, is contained in the module's closure (no deduplication) |
| Modules.HereditaryOfAllContains | src/models/Module.js:19-26 | each listed dependency is stored, and its closure is a sub-multiset of the combined closure |
| Modules.AssignFields | src/models/Module.js:54-120 | `name`/`description`/`readme` become `{fa-IR: v}` only for a truthy `v`; `monthlyCost` is cleared, then set only for a non-zero value; every picked field (`micro`, `maintenance`, `hourlyCostFactorPercent` and the three discounts) is copied when present and kept when absent; the identifier is lower-cased; dependencies and categories are replaced only by a non-empty list; id, permissions, pins, home path and creation time are kept |
| Modules.AssignFieldsIdempotent | src/models/Module.js:54-120 | applying the same body twice equals applying it once |
| Modules.Store | src/models/Module.js:126 | saving puts the document in the collection, keeps every document with another id, adds nothing else, and grows the collection by at most one |
| Modules.StoreReadBack | src/models/Module.js:126 | after saving, a lookup by the document's id finds it, and a lookup by any other id finds what it found before |
| Modules.StoreReadsBack | src/models/Module.js:126 | the read-back of `StoreReadBack` for every id at once |
| Modules.StoreUnique | src/models/Module.js:126 | saving keeps ids unique |
| Modules.StoreOnly | src/models/Module.js:126 | with unique ids, the saved document is the only one with its id: an update replaces the stored document |
| Modules.CreateOrUpdate | src/models/Module.js:43-136 | an unknown `moduleId` fails; an update assigns the body to the stored document, a create assigns it to a fresh empty document with the fresh id; after successful pre-save hooks, `save()` refuses an empty identifier or one another document holds (src/schemas/Module.js:9), and then the call fails with only pre-save and save run; otherwise the document is stored exactly when the pre-save hooks succeed, a lookup by its id reads it back and every other id reads as before; the run completes only when both hook rounds succeed and the save is admitted |
| Modules.SaveCheck | src/schemas/Module.js:9 | `save()` admits a document iff its identifier is non-empty (`required`) and no other document holds it (`unique`); an empty identifier is reported as such, a duplicate names the identifier and a holder that has it |
| Modules.IdentifierHolder | src/schemas/Module.js:9 | none iff no document with another id holds the identifier; otherwise a document with another id that holds it |
| Modules.StoreKeepsIdentifiersUnique | src/schemas/Module.js:9 | a save the checks admit keeps both `_id` and `identifier` unique |
| Modules.CreateOrUpdateKeepsIndexes | src/models/Module.js:122-129 | `createOrUpdate` on a catalogue with unique ids and identifiers leaves one with unique ids and identifiers |
| Modules.DuplicateIdentifierRefused | src/models/Module.js:77-129 | creating a module whose lower-cased identifier another document holds fails with a duplicate-identifier refusal naming that identifier |
| Lifecycle.RunSave | src/models/Module.js:122-129 | pre-save runs first; save runs exactly when pre-save succeeds, post-save exactly when the save also writes, in that order, each once; the run completes iff both hook rounds succeed and the save writes |
| Ledger.CurrentOf | src/models/Workspace.js:130 | the workspace's subscriptions the framework's selection (module type and current window) admits, all of them and nothing else |
| Ledger.ClosureIdentifiers | src/models/Workspace.js:132-142 | succeeds iff every subscribed closure loads; then it holds exactly the identifiers of the subscribed closures, all of them stored |
| Ledger.DedupSameMembers | src/models/Workspace.js:145 | `[...new Set(ids)]` keeps exactly the same identifiers |
| Ledger.SelectByIdentifier | src/models/Workspace.js:148 | `find({identifier: {$in: ids}})`: an ordered sub-collection whose identifiers are exactly the requested ones, holding every stored module with such an identifier |
| Ledger.CurrentModules | src/models/Workspace.js:126-155 | succeeds iff every current subscription's closure loads; then it is a sub-collection of the catalogue whose identifiers are exactly those in some closure, and it includes every stored module with such an identifier |
| Ledger.HasCurrentModule | src/models/Workspace.js:164-172 | true iff some identifier of a current closure equals the argument ignoring case |
| Composition.ResolveModules | src/models/Workspace.js:180-195 | an order-preserving subsequence of the application modules, holding exactly those whose name matches, ignoring case, a current identifier or a default module |
| Composition.ResolvedFromLedger | src/models/Workspace.js:180-195 | a name is matched iff it is a default module or some current closure has that identifier, ignoring case |
| Composition.MergeSchemas | src/models/Workspace.js:215-239 | one entry per schema name, holding under each name exactly the fragments contributed under it, in module order and, within a module, own schemas before injected ones |
| Composition.SchemaContributionsMembers | src/models/Workspace.js:216-238 | a module contributes a schema exactly when it is its own (not named `injects`) or it is injected into a module whose name is, exactly, among the resolved names |
| Composition.MergedSchemaMembers | src/models/Workspace.js:215-239 | the merged fragments under a name are exactly those some resolved module contributes |
| Composition.LoneModuleSchemas | src/models/Workspace.js:226-237 | a module resolved alone contributes only its own schemas and those it injects into itself |
| Composition.CreateConnection | src/models/Workspace.js:203-249 | given the resolved modules: no connection iff the database URL is missing or empty; otherwise it connects to that URL, the models under each name are exactly the contributions under that name in module order, and every registered schema comes from some resolved module's contribution |
| Composition.ConnectionRegistersContributions | src/models/Workspace.js:241-243 | every schema a resolved module contributes is registered under its name once a connection exists |
| Composition.ConnectWorkspace | src/models/Workspace.js:203-213 | from the stored state: a missing workspace document throws; a missing or empty URL answers `null` before any module is resolved; otherwise the resolution fails iff some current closure does not load, and succeeds with the connection over the resolved modules |
| Composition.GetOrCreateConnection | src/models/Workspace.js:256-258 | a cached connection wins; otherwise a new one, absent only without a database URL |
| Composition.GetInjections | src/models/Workspace.js:266-294 | one entry per hook name, holding under each key exactly the handlers registered under it, in module order |
| Composition.HookContributionsMembers | src/models/Workspace.js:273-286 | a module offers a handler under a key exactly when its (possibly computed) hooks map, under a target equal to the module's name ignoring case, has that key and handler |
| Composition.InjectionMembers | src/models/Workspace.js:266-294 | the handlers collected under a key are exactly those some resolved module registers |
| Composition.InjectionKeys | src/models/Workspace.js:277-284 | a key is collected exactly when some resolved module registers a handler under it |
| Composition.LoneModuleInjectionKeys | src/models/Workspace.js:277-284 | with one resolved module, the keys are exactly that module's keys for the target |
| Composition.RunHooks | src/models/Workspace.js:314-318 | succeeds iff every handler succeeds, with one result per handler in order, handler `i` called with index `i`; a failure is the first failing handler's |
| Composition.InjectFrom | src/models/Workspace.js:304-322 | given the keys and the exact-key handlers: `null` iff no key matches ignoring case; a TypeError iff one does but none exactly; with an exact key, success iff every handler succeeds, with one result per handler in order, and a rejection is the first rejecting handler's |
| Composition.Inject | src/models/Workspace.js:304-322 | as written: `null` iff no key equals the hook name ignoring case; a TypeError iff one does but none equals it exactly; otherwise it succeeds iff every handler under the exact key succeeds, with one result per handler in order, and a rejection is the first rejecting handler's |
| Composition.InjectIgnoringCase | src/models/Workspace.js:308-318 | corrected: `null` iff no key equals the hook name ignoring case; otherwise it succeeds iff every handler under the matching keys succeeds, with one result per handler in order, and a rejection is the first rejecting handler's |
| Composition.InjectThrowsOnCaseVariant | src/models/Workspace.js:308-318 | a key differing from the hook name only in case makes `inject` throw, while the corrected version finds handlers |
| Composition.InjectAgreesOnExactKey | src/models/Workspace.js:308-318 | when every case-insensitive match is exact, both versions give the same outcome |
| Composition.ExactKeyHandlers | src/models/Workspace.js:308-318 | when the only key matching ignoring case is the hook name itself, both lookups find the same handlers |
| SharedSchemas.CreateConnectionShared | src/models/Workspace.js:215-243 | as written, over the schema objects the loaded modules hold: no connection iff the URL is missing or empty; the objects' contents only grow; the same model names as the corrected merge, in the same order |
| SharedSchemas.AllTaggedPlain | src/models/Workspace.js:216-238 | the as-written loop meets the same contributions as the corrected merge, in the same order |
| SharedSchemas.MergeKeys | src/models/Workspace.js:219-234 | the loop lists the schema names in the order the corrected fold first meets them |
| SharedSchemas.InjectedFragmentLeaks | src/models/Workspace.js:219-233 | a first call resolving an owner and an injector agrees with the corrected merge; a later call resolving the owner alone still registers the injected fragment, which the corrected merge does not |
| Fixtures.UserSchemaWithAuthentication | src/schemas/index.js:9-22 | with `Authentication` resolved, the core's `User` schema is registered |
| Fixtures.UserSchemaWithoutAuthentication | src/schemas/index.js:14-17 | with the core resolved alone, no `User` schema is registered |
| Fixtures.InjectCaseMismatch | src/models/Workspace.js:308-318 | a plugin hook keyed `presave` and a call `inject('preSave')`: as written it throws, corrected it finds the handler |
| Options.GetOption | src/models/Workspace.js:68-70 | the value at the dotted path, or the default when the path is absent |
| Options.GetTopLevel | src/models/Workspace.js:68-70 | a key without dots reads the top-level field or the default |
| Options.GetOptions | src/models/Workspace.js:79-92 | one entry per requested key, each the key's option with its own default (`null` for a plain key), nothing else |
| Options.MissingOptionUsesDefault | src/models/Workspace.js:85-88 | an absent path answers the pair's default, and `null` for a plain key |
| Options.GetAfterSet | src/models/Workspace.js:116 | after a write along object nodes and non-reserved keys, the path reads back the value |
| Options.SetKeepsSiblings | src/models/Workspace.js:116 | a write leaves every path that diverges from it unchanged |
| Options.SetOverwrites | src/models/Workspace.js:115-117 | a second write to the same path replaces the first entirely |
| Options.BlockedSetIsNoOp | src/models/Workspace.js:116 | a write through a non-object root changes nothing |
| Options.SetManyAppend | src/models/Workspace.js:115-117 | writing `a` then `b` key by key is writing `a + b` |
| Options.SetManyKeepsUntouched | src/models/Workspace.js:113-119 | a path no written key touches reads as before |
| Options.SetManyKeepsObject | src/models/Workspace.js:113-119 | writes to an object leave an object |
| Options.LastWriteWins | src/models/Workspace.js:113-119 | a key written and not touched later reads back its value |
| Options.SetManyReadsBack | src/models/Workspace.js:113-119 | the `i`-th key reads back its value when no later key touches its path |
| Text.StripSpaces | src/models/Workspace.js:354 | exactly the non-whitespace characters, in order; a string without whitespace is unchanged |
| Text.UnderscoreSeparators | src/models/Workspace.js:362 | spaces and hyphens become underscores, every other character stays |
| Text.JoinSplit | src/controllers/WorkspaceController.js:182 | joining the comma-split parts gives back the query |
| Text.SplitJoin | src/controllers/WorkspaceController.js:182 | splitting a join of separator-free parts gives back the parts |
| Workspaces.FreshSlug | src/models/Workspace.js:345-353 | the first candidate slug not taken; none iff all are taken |
| Workspaces.WorkspaceIdentifier | src/models/Workspace.js:344-355 | the given identifier when truthy, else the slug, with all whitespace removed |
| Workspaces.DbName | src/models/Workspace.js:362 | same length, no hyphen or space left, every other character kept |
| Workspaces.DbNamesCollide | src/models/Workspace.js:362-363 | two identifiers differing by `-` against `_` share one database |
| Workspaces.DefaultWorkspaceOptions | src/models/Workspace.js:379-382 | exactly `locale: fa-IR` and `currency: IRR` |
| Workspaces.NewWorkspaceDoc | src/models/Workspace.js:354-382 | identifier, database URL from the identifier, hostname only when truthy, a string name as `{fa-IR: name}` (only when truthy), a name map as given, category, default options |
| Workspaces.CreateNew | src/models/Workspace.js:332-392 | a truthy given identifier is used without drawing slugs; otherwise the first free candidate; fails with no free slug iff no identifier is given and every candidate is taken; the save fails when the stripped identifier or the hostname is already stored (src/schemas/Workspace.js:10-11), succeeds otherwise, and a created workspace never repeats a stored identifier or hostname |
| Workspaces.IndexCheck | src/schemas/Workspace.js:10-11 | a new document passes iff its identifier is not stored and it has no hostname or a hostname not stored; an identifier clash is reported before a hostname clash |
| Workspaces.GivenIdentifierKept | src/models/Workspace.js:344-355 | a given identifier without whitespace is stored verbatim |
| Workspaces.AddMember | src/models/Workspace.js:402-443 | workspace, user and password as given; roles as given (none, one, or many); options are the defaults overridden key by key by the given ones; pins as given (else empty); home path only when truthy |
| Workspaces.MembershipOf | src/models/Workspace.js:26-28 | a membership of that workspace and user, absent iff there is none |
| Workspaces.MembershipsOf | src/models/Workspace.js:36-38 | exactly the workspace's memberships, in order |
| Workspaces.MembershipsOfUser | src/models/User.js:21-23 | exactly the user's memberships, in order |
| Workspaces.HasMember | src/models/Workspace.js:45-48 | true iff the user has a membership in the workspace |
| Workspaces.StorageCapacity | src/models/Workspace.js:449-455 | fails iff some subscription names no storage plan (reading `capacity` of `null`); zero for no subscriptions |
| Workspaces.StorageCapacityAppend | src/models/Workspace.js:454 | the capacity of two subscription lists is the sum of their capacities |
| Workspaces.StorageQuotes | src/controllers/WorkspaceController.js:238-242 | free plus used is capacity; free is negative iff more is used than available |
| Users.FullName | src/models/User.js:42-46 | `null` iff neither name is truthy; otherwise first name, one space, last name (a missing one empty) |
| Users.FullNameParts | src/models/User.js:43-45 | both names are read back on either side of the space |
| Users.SetCurrentWorkspace | src/models/User.js:31-34 | the current workspace becomes the given one; nothing else changes |
| Granting.ValidTill | src/controllers/WorkspacesController.js:85-94 | no end iff `lifetime`; otherwise from now, one year iff `annually`, six months iff `semi-annually`, two weeks iff `demo`, nothing added for any other period |
| Granting.GrantEach | src/controllers/WorkspacesController.js:79-112 | every entry written is a fresh `Module` subscription of the workspace; only modules with an `onSubscribe` are notified; a missing application module or a rejecting hook ends the series with that error |
| Granting.GrantEachTargets | src/controllers/WorkspacesController.js:82-94 | only closure modules that are not current are subscribed |
| Granting.GrantEachSeries | src/controllers/WorkspacesController.js:79-112 | the series stops at the first module that fails; every module it reaches that is not current gets a subscription, the failing one included (written before the application is asked, never rolled back); `onSubscribe` runs for exactly the new modules that define it; the error names the failing module |
| Granting.SeriesAdded | src/controllers/WorkspacesController.js:79-94 | the subscriptions written are one per reached module that is not current, in order, the failing module included |
| Granting.SeriesNotified | src/controllers/WorkspacesController.js:82-106 | `onSubscribe` runs for exactly the reached modules that are new and define it, in order |
| Granting.SeriesError | src/controllers/WorkspacesController.js:79-112 | an error comes from the last reached module, which is new and cannot be granted, and names it; without an error every module is reached |
| Granting.Processed | src/controllers/WorkspacesController.js:79-112 | how far the series reaches: through the first module that cannot be granted, or all modules when every one can |
| Granting.GrantEachCompletes | src/controllers/WorkspacesController.js:82-112 | the series completes iff every module is current or registered with an accepting hook, and then every closure module is current or newly subscribed |
| Granting.GrantClosure | src/controllers/WorkspacesController.js:74-113 | a closure load failure writes nothing and reports it; a missing workspace then fails before any write (`getCurrentModules` on `null`); a current-module load failure writes nothing and reports it; success implies the workspace exists and both loaded |
| Granting.ClosureToGrant | src/controllers/WorkspacesController.js:76 | an ordered subsequence of the closure keeping exactly one module per identifier: identifiers are pairwise different and each closure identifier is kept |
| Granting.IdsOf | src/controllers/WorkspacesController.js:82 | exactly the ids of the current modules |
| Granting.GrantMakesClosureCurrent | src/controllers/WorkspacesController.js:74-113 | after a completed grant, every module of the granted closure is current and the current modules still load |
| Granting.GrantRequest | src/controllers/WorkspacesController.js:298-306 | an unknown module id fails before writing; a missing workspace writes nothing and fails, as `WorkspaceMissing` once the module is found and its closure loads; a completed grant makes the module's closure current |
| Granting.Subscribe | src/controllers/WorkspacesController.js:283-317 | requests in order against the growing ledger; the old ledger stays a prefix; only fresh entries are added; the first failure stops the batch with its request; every request before it is stored and its closure current; when `findById` finds no workspace, nothing is written and a non-empty batch fails at its first request, with `WorkspaceMissing` when that module and its closure load |
| Listing.PerPage | src/controllers/ModulesController.js:100 | the page size when given and non-zero, otherwise 25 |
| Listing.SortKey | src/controllers/ModulesController.js:85 | the given sort when truthy, otherwise `-createdAt` |
| Listing.Page | src/controllers/ModulesController.js:99-103 | unpaged unless `page > -1`; a negative skip fails; otherwise at most one page of consecutive elements starting at `page * perPage` |
| Listing.PagesCoverList | src/controllers/ModulesController.js:99-103 | enough consecutive pages concatenate to the whole list |
| Listing.List | src/controllers/ModulesController.js:97-109 | the data is the page, and `total` counts the whole unpaged match |
| Listing.TotalIgnoresPaging | src/controllers/ModulesController.js:97 | `total` equals the length of the unpaged list |
| Listing.ListModules | src/controllers/ModulesController.js:72-109 | every listed module is stored and admitted by the search; `total` is bounded by the catalogue |
| Listing.PagedModuleList | src/controllers/ModulesController.js:72-109 | a paged module list is the unpaged one, paged, with the same `total` |
| Listing.UnpagedModuleList | src/controllers/ModulesController.js:72-83 | without paging, exactly the admitted modules are listed |
| Listing.DefaultModuleListHidesMicroAndMaintenance | src/controllers/ModulesController.js:72-76 | by default no micro and no in-maintenance module is listed |
| Listing.EmptyCategoriesListNothing | src/controllers/ModulesController.js:78-83 | an empty category list matches nothing |
| Listing.ListWorkspaces | src/controllers/WorkspacesController.js:143-173 | every listed workspace is stored and is not `admin` |
| Listing.PagedWorkspaceList | src/controllers/WorkspacesController.js:143-173 | a paged workspace list is the unpaged one, paged |
| Listing.UnpagedWorkspaceList | src/controllers/WorkspacesController.js:143-150 | without paging, exactly the workspaces other than `admin` |
| Listing.WorkspaceModules | src/controllers/WorkspaceController.js:123-159 | every listed module is stored and current, and has permissions when `whereHasPermissions` is set |
| Listing.PagedWorkspaceModules | src/controllers/WorkspaceController.js:123-159 | a paged list of the workspace's modules is the unpaged one, paged |
| Listing.UnpagedWorkspaceModules | src/controllers/WorkspaceController.js:127-133 | without paging, a current module is listed iff the permission filter admits it |
| Listing.UserWorkspaces | src/controllers/AuthenticatedController.js:128-178 | every listed workspace is stored and paired with the user's membership in it |
| Listing.PagedUserWorkspaces | src/controllers/AuthenticatedController.js:128-178 | a paged list of the user's workspaces is the unpaged one, paged |
| Listing.PageMap | src/controllers/AuthenticatedController.js:128-178 | paging commutes with pairing each workspace with its membership |
| Listing.UserWorkspacesHaveMemberships | src/controllers/AuthenticatedController.js:130-174 | no workspace is listed without a membership of the user |
| Settings.OptionsResponse | src/controllers/WorkspaceController.js:181-186 | with a non-empty `keys` query, an object with exactly the comma-separated keys; otherwise the whole options |
| Settings.OptionsResponseAgrees | src/controllers/WorkspaceController.js:182-184 | each requested key answers as `getOptions` does for it |
| Settings.MissingKeyAnswersNull | src/controllers/WorkspaceController.js:182-184 | a requested key that is not set answers `null` |
| Settings.UpdateWorkspaceOptions | src/controllers/WorkspaceController.js:208-218 | only the options change, and paths no body key touches read as before |
| Settings.UpdatedWorkspaceOptionReadsBack | src/controllers/WorkspaceController.js:211-213 | the last write to a path is what the updated workspace reads there |
| Settings.UpdateMemberOptions | src/controllers/MembershipController.js:59-73 | only the options change, and untouched paths read as before |
| Settings.UpdatedMemberOptionReadsBack | src/controllers/MembershipController.js:65-68 | the last write to a path is what the membership reads there |
| Settings.SetTaskbar | src/controllers/MembershipController.js:94-105 | the new pins are the truthy given pins, in order and with their multiplicity (each truthy pin occurs as often as given, a falsy one never); every other field of the membership (roles, password, options, home path) is unchanged |
| Seqs.FilterCount | src/controllers/MembershipController.js:94-105 | `filter` keeps every occurrence of a passing element and none of a failing one |
| Settings.TaskbarReplacesWholesale | src/controllers/MembershipController.js:100 | the old pins play no part in the result |
| Settings.WorkspaceQuotes | src/controllers/WorkspaceController.js:238-242 | fails iff a subscription names no plan; free space is capacity minus used space |
| Settings.UpdateSettings | src/controllers/WorkspaceController.js:263-277 | throws iff the workspace has no name map; the stored name gains `fa-IR` (other locales kept) exactly when the pre-save hooks succeed; otherwise the document is unchanged |
| Access.PermissionIdentifiers | src/controllers/AuthenticatedController.js:70 | one identifier per distinct permission id, each some permission's; every permission's identifier appears when ids determine documents |
| Access.AssignAll | src/controllers/AuthenticatedController.js:97-99 | a key is present iff some non-null source has it, and its value is the last such source's |
| Access.AccessResponse | src/controllers/AuthenticatedController.js:82-100 | as written: throws iff the `params` result is `null`; otherwise the fixed fields plus the merged params, injected keys winning |
| Access.AccessResponseGuarded | src/controllers/AuthenticatedController.js:93-100 | corrected: always answers; the fixed fields alone when the result is `null`, injected keys winning otherwise |
| Access.GuardedAgreesWhenInjected | src/controllers/AuthenticatedController.js:93-100 | the guard changes nothing when some module contributes `params` |
| Access.AccessWithoutParamsHook | src/controllers/AuthenticatedController.js:82-99 | without a `params` hook, `inject` answers `null`, the summary as written throws, and the guarded one answers the fixed part |
| Access.FindWorkspace | src/controllers/AuthenticatedController.js:206 | a stored workspace with the id, absent iff none has it |
| Seqs.FindByFirst | src/controllers/AuthenticatedController.js:206 | the workspace a lookup finds is the first stored one with the id: none before it has that id |
| Access.SetAsCurrentHandler | src/controllers/AuthenticatedController.js:202-218 | the handler alone crashes iff the workspace is missing, answers 404 iff it exists without the user's membership, else sets the current workspace |
| Access.SetAsCurrent | src/validators/SetCurrentWorkspaceValidator.js:38-47 | with the validator in front it never crashes: rejected iff no workspace, 404 iff no membership, else the user with only the current workspace changed |
| Owners.OwnerPins | src/controllers/WorkspacesController.js:353 | distinct pins, exactly those of some current module, ordered by first occurrence in the flattened lists (a pin listed before another first occurs before any occurrence of the other) |
| Seqs.DedupAppend | src/controllers/WorkspacesController.js:353 | `uniq` keeps first occurrences: an appended element survives iff it has not occurred before |
| Seqs.DedupFirstOrder | src/controllers/WorkspacesController.js:353 | `uniq` lists the elements in the order of their first occurrences |
| Seqs.FirstIndexAppend | src/controllers/WorkspacesController.js:353 | appending to a list moves no first occurrence, and a new element first occurs at the end |
| Seqs.FirstOrderAppend | src/controllers/WorkspacesController.js:353 | appending an element, and keeping it only when new, preserves first-occurrence order |
| Seqs.UniqByAppend | src/controllers/WorkspacesController.js:76 | `uniqBy` keeps first occurrences: an appended element survives iff its key is new |
| Owners.OwnerHomePath | src/controllers/WorkspacesController.js:354-355 | the first module's non-empty home path; absent iff no module has one |
| Owners.OwnerArgs | src/controllers/WorkspacesController.js:357-363 | no password, `showWalkthrough: false`, those pins and that home path |
| Owners.CurrentPins | src/controllers/WorkspacesController.js:351-353 | the owner's pins are exactly the pins of the workspace's current modules |
| Owners.CurrentHomePath | src/controllers/WorkspacesController.js:351-355 | the home path comes from some current module, and is missing only when none has one |
| Owners.AddOwner | src/controllers/WorkspacesController.js:336-368 | succeeds iff the current modules load; the owner membership has the `owner` role when it exists, `showWalkthrough` false and the other defaults, the current modules' pins and home path; the user's current workspace is set |

## Findings

| source | as written | input that shows it | evidently intended | confidence | as-written member | corrected member |
|---|---|---|---|---|---|---|
| src/models/Workspace.js:308-318 | the presence test compares hook keys lower-cased, but the handlers are then read with `injections[hookName]`, the exact key | a resolved module registers `presave` for the core module and the core calls `inject('preSave')`: the test passes, the lookup is `undefined`, `.map` throws a TypeError | read the handlers under the keys that matched ignoring case | medium, not executed | Composition.Inject, Fixtures.InjectCaseMismatch | Composition.InjectIgnoringCase |
| src/controllers/AuthenticatedController.js:82-99 | `...injectedParams` spreads the result of `inject('params')`, which is `null` when no resolved module registers a `params` hook | any workspace whose resolved modules register no `params` hook for the core module: spreading `null` into `Object.assign` throws a TypeError and the access summary fails | spread `injectedParams \|\| []`, as the workspace details handler does with `populationInjections` (src/controllers/WorkspacesController.js:246) | medium, not executed | Access.AccessResponse, Access.AccessWithoutParamsHook | Access.AccessResponseGuarded |
| src/models/Workspace.js:219-233 | the merge stores the first contributor's schema object itself (`schemas[schemaName] = schema`) and `.add`s later fragments into it, and mongoose's `Schema.add` changes that object in place; the object belongs to the loaded module, which the application keeps for every workspace | module `a` owns schema `n`, module `b` injects a fragment into `a` under `n`; a workspace resolving both connects, then a workspace resolving only `a` connects: its `n` model still has `b`'s fragment | each connection merges copies, so its models hold only what its own resolved modules contribute | medium, not executed | SharedSchemas.CreateConnectionShared, SharedSchemas.InjectedFragmentLeaks | Composition.CreateConnection |

## Left out

- Mongoose itself (queries, `populate`, `lean`, `select`, connections, `save`) is replaced by sequences and pure functions. `Lang.translate` and response shaping are left out.
- Express middleware, authentication, `Injection.register` and the validators are left out. The one exception is the `setAsCurrent` validator, which hides a handler crash (`Access.SetAsCurrent`). The taskbar sanitizer's `filter(Boolean)` is folded into `Settings.SetTaskbar`.
- `Injection.register` may rename the hook a controller asks for. Hook names are taken as the controller writes them.
- `subscriptionsOfType`, its type match and its time windows are framework code. They are the `isCurrent` parameter.
- Schema validation other than `identifier`'s `required` and the unique indexes (type casting, `Map` values) is not modelled. The model's field types already rule those inputs out.
- `getStorageUsedSpace` measures a folder on disk. It is the `used` parameter.
- `uniqueSlug()` is random. Its draws are the `candidates` list.
- `new Date()` is the `now` parameter. Date-fns calendar arithmetic is kept as year/month/week offsets (`Ledger.Till`).
- `Obj.expand` is framework code. The comma-separated key of the core hooks map is written out as two keys in `Fixtures.CoreHooks`.
- The handlers' own bodies (hook functions, `onSubscribe`) are opaque. Only their success or failure is modelled.
- Sockets, `MainController`, `explorer`, `create`, `details` and the module `details` endpoint are outside the engine and are not modelled.
- Unicode case folding is not modelled. `toLowerCase` is ASCII-only (`Text.Lower`).
- Array paths in lodash `setWith` and `get` are not modelled: numeric segments, array nodes, and bracket syntax. Paths are dot-separated object keys.
- `Membership.getOption` is not modelled. It calls `.get` on a plain-object field.
- Modules.Hereditary: the order after the head follows `Promise.all` completion order in the source. The model fixes dependency-declaration order. Containment is stated as sets and multisets, and the order is never promised.
- Composition.RunHooks: when several handlers reject, `Promise.all` reports the earliest rejection in time. The model reports the first in array order.
- Ledger.CurrentModules: the result comes out in catalogue order. The store's order is not promised by the source either.
- Listing.ListModules: the sort (`SortKey`) is not applied. The catalogue handed to a listing is taken to be in the requested order already. Category filters on populated documents are compared by id.
- Options.GetOptions: result keys are `OptionKey` values. The source's object key for a `[key, default]` pair is the array converted to a string.
- Settings.UpdateMemberOptions: the membership is given. The source's `membership(req.user)` can be `null`, and then the assignment throws. The same holds for `Settings.SetTaskbar`.
- Workspaces.NewWorkspaceDoc: the category id is stored as given. The source resolves it with `Doc.resolve` first, and an unknown category throws there.
- Owners.AddOwner: the user is an existing one. `User.createNew` for an unknown phone number is not part of this model. A workspace id naming no workspace (`findById` answering `null`) is not modelled.
- Access.PermissionIdentifiers: the permissions are an input. `membership.getPermissions` is not part of this model.
- Options.GetOption: lodash `get` first tries the whole key as one property (`isKey`). So an existing literal dotted key such as `a.b`, and inherited properties such as `constructor`, are read as one key. The model always splits at dots and answers the default for inherited names.
- Composition.GetInjections: the resolved modules are taken as given. Their resolution from the stored state is `Composition.ConnectWorkspace` for connections; `inject` resolves again on every call, and that resolution's failure is not part of `Composition.Inject`.
- Composition.MergeSchemas: schema objects are treated as values, and every call builds fresh lists. In the source, `.add` extends the first contributor's own Schema object in place, and that object is shared across calls. `SharedSchemas` models this store, and "## Findings" shows the leak.
- Composition.MergeSchemas: a schema name inherited by a plain object (`constructor`, `toString`, `valueOf`) is treated as a fresh key. In the source, `schemaName in schemas` is already true for it on `{}`, so `schemas[schemaName].add(schema)` looks up `.add` on the inherited function, finds none, and throws a TypeError (src/models/Workspace.js:218-219, 230-231). Keys are modelled as own properties only.
- Composition.GetInjections: a hook key inherited by a plain object (`toString`, `constructor`) is treated as a fresh key. In the source, `injections[key] || []` reads the inherited function, and spreading it throws because it is not iterable (src/models/Workspace.js:282). Keys are modelled as own properties only.
- Composition.CreateConnection: the resolved modules are taken as given, and the connection opens before they are resolved. The composed path from the stored workspace, with its two throws, is `Composition.ConnectWorkspace`. Schema objects are treated as values; their shared mutation is the finding modelled by `SharedSchemas`.
- Granting.GrantEach: `onSubscribe` receives `{workspace, period, subscription}`. Only the module identifier and the hook's success are modelled.

=== FILE: access.dfy ===
/** The authenticated user's endpoints (`AuthenticatedController`): the access summary
    merged from the modules' `params` hooks, and switching the current workspace. */
module Access {
  import opened Wrappers
  import opened Ids
  import Text
  import Seqs
  import MultiMaps
  import opened Options
  import opened Workspaces
  import opened Users
  import Composition

  /** A permission document as `getPermissions` returns it. */
  datatype PermissionRec = PermissionRec(id: ObjectId, identifier: string)

  /** Two permission entries with the same id are the same document. */
  ghost predicate IdsDetermineDocs(perms: seq<PermissionRec>) {
    forall i, j :: 0 <= i < |perms| && 0 <= j < |perms| && perms[i].id == perms[j].id ==> perms[i] == perms[j]
  }

  /** `map(uniqBy(permissions, 'id'), 'identifier')`: one identifier per distinct permission id. */
  function PermissionIdentifiers(perms: seq<PermissionRec>): (r: seq<string>)
    ensures |r| == |Seqs.KeySet(perms, (p: PermissionRec) => p.id)|
    ensures forall i :: 0 <= i < |r| ==> exists p :: p in perms && p.identifier == r[i]
    ensures IdsDetermineDocs(perms) ==> forall i :: 0 <= i < |perms| ==> perms[i].identifier in r
  {
    var u := Seqs.UniqBy(perms, (p: PermissionRec) => p.id);
    Seqs.DistinctKeysCount(u, (p: PermissionRec) => p.id);
    Seqs.SubseqMembers(u, perms);
    UniqueIdsCovered(perms, u);
    Seqs.Map(u, (p: PermissionRec) => p.identifier)
  }

  /** Every permission's id survives the deduplication; when ids name documents, so does the permission. */
  lemma UniqueIdsCovered(perms: seq<PermissionRec>, u: seq<PermissionRec>)
    requires Seqs.KeySet(u, (p: PermissionRec) => p.id) == Seqs.KeySet(perms, (p: PermissionRec) => p.id)
    requires forall i :: 0 <= i < |u| ==> u[i] in perms
    ensures IdsDetermineDocs(perms) ==> forall i :: 0 <= i < |perms| ==> perms[i] in u
  {
    if IdsDetermineDocs(perms) {
      forall i | 0 <= i < |perms| ensures perms[i] in u {
        var key := (p: PermissionRec) => p.id;
        assert key(perms[i]) in Seqs.KeySet(perms, key);
        var j :| 0 <= j < |u| && key(u[j]) == key(perms[i]);
        var l :| 0 <= l < |perms| && perms[l] == u[j];
      }
    }
  }

  /** The keys and values of a JSON object, as `Object.assign` reads them. */
  type Params = map<string, Json>

  /** Whether `k` is written by some source after index `i`. */
  ghost predicate OverriddenAfter(ps: seq<Option<Params>>, i: nat, k: string) {
    exists j :: i < j < |ps| && ps[j].Some? && k in ps[j].value
  }

  /** Whether some source writes `k`. */
  ghost predicate Written(ps: seq<Option<Params>>, k: string) {
    exists i :: 0 <= i < |ps| && ps[i].Some? && k in ps[i].value
  }

  /** Source `i` is the last one writing `k`. */
  ghost predicate LastWriter(ps: seq<Option<Params>>, i: nat, k: string) {
    i < |ps| && ps[i].Some? && k in ps[i].value && !OverriddenAfter(ps, i, k)
  }

  /** `Object.assign({}, ...sources)`: sources copied left to right, later keys overriding
      earlier ones; `null` and `undefined` sources are skipped. */
  function AssignAll(ps: seq<Option<Params>>): (r: Params)
    ensures forall k :: k in r <==> Written(ps, k)
    ensures forall i: nat, k :: LastWriter(ps, i, k) ==> k in r && r[k] == ps[i].value[k]
  {
    if |ps| == 0 then map[]
    else
      var acc := AssignAll(ps[..|ps| - 1]);
      var r := if ps[|ps| - 1].Some? then acc + ps[|ps| - 1].value else acc;
      AssignAllStep(ps, acc, r);
      r
  }

  /** One more source: its keys win, and the earlier result stands for every other key. */
  lemma AssignAllStep(ps: seq<Option<Params>>, acc: Params, r: Params)
    requires |ps| > 0
    requires forall k :: k in acc <==> Written(ps[..|ps| - 1], k)
    requires forall i: nat, k :: LastWriter(ps[..|ps| - 1], i, k) ==> k in acc && acc[k] == ps[i].value[k]
    requires r == if ps[|ps| - 1].Some? then acc + ps[|ps| - 1].value else acc
    ensures forall k :: k in r <==> Written(ps, k)
    ensures forall i: nat, k :: LastWriter(ps, i, k) ==> k in r && r[k] == ps[i].value[k]
  {
    forall k ensures k in r <==> Written(ps, k) {
      WrittenStep(ps, k);
    }
    forall i: nat, k | LastWriter(ps, i, k) ensures k in r && r[k] == ps[i].value[k] {
      if i < |ps| - 1 {
        LastWriterStep(ps, i, k);
      }
    }
  }

  /** A key is written by all sources iff the last writes it or the earlier ones do. */
  lemma WrittenStep(ps: seq<Option<Params>>, k: string)
    requires |ps| > 0
    ensures Written(ps, k) <==> (ps[|ps| - 1].Some? && k in ps[|ps| - 1].value) || Written(ps[..|ps| - 1], k)
  {
    var n := |ps| - 1;
    var init := ps[..n];
    if Written(ps, k) {
      var i :| 0 <= i < |ps| && ps[i].Some? && k in ps[i].value;
      if i < n { assert init[i] == ps[i]; }
    }
    if Written(init, k) {
      var i :| 0 <= i < n && init[i].Some? && k in init[i].value;
      assert ps[i] == init[i];
    }
  }

  /** The last writer of a key the final source does not write is its last writer among the earlier sources. */
  lemma LastWriterStep(ps: seq<Option<Params>>, i: nat, k: string)
    requires LastWriter(ps, i, k) && i < |ps| - 1
    ensures !(ps[|ps| - 1].Some? && k in ps[|ps| - 1].value)
    ensures LastWriter(ps[..|ps| - 1], i, k)
  {
    var n := |ps| - 1;
    var init := ps[..n];
    assert init[i] == ps[i];
    assert !OverriddenAfter(init, i, k) by {
      forall j | i < j < n && init[j].Some? ensures k !in init[j].value {
        assert ps[j] == init[j];
      }
    }
  }

  /** Why the access summary throws: spreading a `null` hook result into a call. */
  datatype AccessError = SpreadOfNull

  /** The fixed part of the access summary. */
  function AccessBase(roles: seq<Json>, permissions: seq<string>): Params {
    map["ok" := Bool(true), "roles" := Arr(roles), "permissions" := Arr(Seqs.Map(permissions, (p: string) => Str(p)))]
  }

  /** `getAccess` as written: `{ ok, roles, permissions, ...Object.assign({}, ...injectedParams) }`,
      where `injectedParams` is the `params` hook result, `null` when no module contributes one. */
  function AccessResponse(roles: seq<Json>, permissions: seq<string>, injected: Option<seq<Option<Params>>>): (r: Result<Params, AccessError>)
    ensures r.Failure? <==> injected.None?
    ensures r.Success? ==> forall k :: k in r.value <==> k in AccessBase(roles, permissions) || k in AssignAll(injected.value)
    ensures r.Success? ==> forall k :: k in AssignAll(injected.value) ==> r.value[k] == AssignAll(injected.value)[k]
    ensures r.Success? ==> forall k :: k in AccessBase(roles, permissions) && k !in AssignAll(injected.value) ==>
      r.value[k] == AccessBase(roles, permissions)[k]
  {
    match injected
    case None => Failure(SpreadOfNull)
    case Some(ps) => Success(AccessBase(roles, permissions) + AssignAll(ps))
  }

  /** The summary with the `null` result spread as an empty list, as the workspace listing
      does with `...(populationInjections || [])`. */
  function AccessResponseGuarded(roles: seq<Json>, permissions: seq<string>, injected: Option<seq<Option<Params>>>): (r: Params)
    ensures injected.None? ==> r == AccessBase(roles, permissions) && r["ok"] == Bool(true)
    ensures forall k :: k in AccessBase(roles, permissions) ==> k in r
    ensures injected.Some? ==> forall k :: k in AssignAll(injected.value) ==> k in r && r[k] == AssignAll(injected.value)[k]
  {
    AccessBase(roles, permissions) + AssignAll(injected.GetOr([]))
  }

  /** The guard changes nothing when some module contributes `params`. */
  lemma GuardedAgreesWhenInjected(roles: seq<Json>, permissions: seq<string>, injected: Option<seq<Option<Params>>>)
    requires injected.Some?
    ensures AccessResponse(roles, permissions, injected) == Success(AccessResponseGuarded(roles, permissions, injected))
  {
  }

  /** When no resolved module registers a `params` hook, `inject` answers `null` and the summary
      as written throws, while the guarded one answers the fixed part. */
  lemma AccessWithoutParamsHook<S, H, E>(resolved: seq<Composition.AppModule<S, H>>, target: string,
                                         call: (H, nat) -> Result<Option<Params>, E>,
                                         roles: seq<Json>, permissions: seq<string>)
    requires !Text.InIgnoringCase("params", MultiMaps.Keys(Composition.GetInjections(resolved, target)))
    ensures Composition.Inject(resolved, target, "params", call) == Success(None)
    ensures Composition.InjectIgnoringCase(resolved, target, "params", call) == Success(None)
    ensures AccessResponse(roles, permissions, None).Failure?
    ensures AccessResponseGuarded(roles, permissions, None) == AccessBase(roles, permissions)
  {
  }

  /** `Doc.resolve(id, Workspace)`: the stored workspace with that id, if any. */
  function FindWorkspace(wss: seq<WorkspaceRec>, id: ObjectId): (r: Option<WorkspaceRec>)
    ensures r.Some? ==> r.value in wss && r.value.id == id
    ensures r.None? <==> forall i :: 0 <= i < |wss| ==> wss[i].id != id
  {
    Seqs.FindBy(wss, (w: WorkspaceRec) => w.id, id)
  }


  /** How a `setAsCurrent` request ends: the updated user, a 404, the validator's rejection,
      or an exception passed to `next`. */
  datatype Outcome = Done(user: UserRec) | NotFound | Invalid | Crashed

  /** The `setAsCurrent` handler alone: `user.membership(workspace)` reads `workspace.id` before
      the `!workspace` test, so a missing workspace throws instead of answering 404. */
  function SetAsCurrentHandler(wss: seq<WorkspaceRec>, ms: seq<MembershipRec>, user: UserRec, wsId: ObjectId): (r: Outcome)
    ensures r.Crashed? <==> FindWorkspace(wss, wsId).None?
    ensures r.NotFound? <==> FindWorkspace(wss, wsId).Some? && !HasMember(ms, wsId, user.id)
    ensures r.Done? ==> r.user.currentWorkspace == Some(wsId) && r.user.id == user.id && HasMember(ms, wsId, user.id)
    ensures !r.Invalid?
  {
    match FindWorkspace(wss, wsId)
    case None => Crashed
    case Some(w) =>
      match MembershipOf(ms, w.id, user.id)
      case None => NotFound
      case Some(_) => Done(SetCurrentWorkspace(user, w.id))
  }

  /** The whole `setAsCurrent` route: the validator rejects an id naming no workspace before
      the handler runs, so the handler's crash cannot be reached. */
  function SetAsCurrent(wss: seq<WorkspaceRec>, ms: seq<MembershipRec>, user: UserRec, wsId: ObjectId): (r: Outcome)
    ensures !r.Crashed?
    ensures r.Invalid? <==> forall i :: 0 <= i < |wss| ==> wss[i].id != wsId
    ensures r.NotFound? <==> (exists i :: 0 <= i < |wss| && wss[i].id == wsId) && !HasMember(ms, wsId, user.id)
    ensures r.Done? <==> (exists i :: 0 <= i < |wss| && wss[i].id == wsId) && HasMember(ms, wsId, user.id)
    ensures r.Done? ==> r.user == user.(currentWorkspace := Some(wsId))
  {
    if FindWorkspace(wss, wsId).None? then Invalid
    else SetAsCurrentHandler(wss, ms, user, wsId)
  }
}

=== FILE: composition.dfy ===
/** Per-workspace composition of the application's code modules: which modules a
    workspace resolves to, the schemas its database connection registers, and
    the hook dispatch (`getInjections` / `inject`) between modules. */
module Composition {
  import opened Wrappers
  import opened Ids
  import Text
  import Seqs
  import MultiMaps
  import opened Modules
  import Ledger

  /** A module's `schemas` object: its own schemas by name, and under the key
      `injects` the schemas it contributes to other modules, by target module name. */
  datatype SchemaSet<S> = SchemaSet(named: seq<(string, S)>, injects: seq<(string, seq<(string, S)>)>)

  /** A hooks object: target module name, then hook key, then handler. */
  type HookTable<H> = seq<(string, seq<(string, H)>)>

  /** `module.hooks`: absent, a plain object, or a function building the object
      (`typeof hooks === "function"`). */
  datatype HookDecl<H> =
    | NoHooks
    | Static(table: HookTable<H>)
    | Computed(build: string -> Option<HookTable<H>>)

  /** A code module loaded by the application: its name, schemas, hooks, and whether it defines `onSubscribe`. */
  datatype AppModule<S, H> = AppModule(name: string, schemas: SchemaSet<S>, hooks: HookDecl<H>, hasOnSubscribe: bool)

  /** A database connection with the models registered on it, in registration order. */
  datatype Connection<S> = Connection(url: string, models: MultiMaps.MultiMap<S>)

  function Identifiers(ms: seq<ModuleRec>): (r: seq<string>)
    ensures |r| == |ms|
    ensures forall i :: 0 <= i < |ms| ==> r[i] == ms[i].identifier
  {
    Seqs.Map(ms, (m: ModuleRec) => m.identifier)
  }

  /** `workspace.resolveModulesHereditary(app)`: the application modules whose name
      matches, up to case, a current module's identifier or a default module name;
      application order is kept. */
  function ResolveModules<S, H>(app: seq<AppModule<S, H>>, current: seq<ModuleRec>, defaults: seq<string>): (r: seq<AppModule<S, H>>)
    ensures Seqs.Subseq(r, app)
    ensures forall i :: 0 <= i < |r| ==> Text.InIgnoringCase(r[i].name, Identifiers(current) + defaults)
    ensures forall i :: 0 <= i < |app| && Text.InIgnoringCase(app[i].name, Identifiers(current) + defaults) ==> app[i] in r
  {
    var names := Identifiers(current) + defaults;
    Seqs.Filter(app, (m: AppModule<S, H>) => Text.InIgnoringCase(m.name, names))
  }

  /** A name is wanted exactly when it is a default module or belongs, up to case,
      to the dependency closure of one of the workspace's current subscriptions. */
  lemma ResolvedFromLedger(c: Catalog, rank: map<ObjectId, nat>, subs: seq<Ledger.Subscription>,
                           defaults: seq<string>, name: string)
    requires ValidCatalog(c, rank)
    requires Ledger.CurrentModules(c, rank, subs).Success?
    ensures Text.InIgnoringCase(name, Identifiers(Ledger.CurrentModules(c, rank, subs).value) + defaults) <==>
      Text.InIgnoringCase(name, defaults) ||
      exists x :: Ledger.InSomeClosure(c, rank, subs, x) && Text.Lower(x) == Text.Lower(name)
  {
    var current := Ledger.CurrentModules(c, rank, subs).value;
    Text.InIgnoringCaseAppend(name, Identifiers(current), defaults);
    IdentifierMatch(current, name);
  }

  /** Matching a module identifier up to case, by position or by the identifier set. */
  lemma IdentifierMatch(current: seq<ModuleRec>, name: string)
    ensures Text.InIgnoringCase(name, Identifiers(current)) <==>
      exists x :: x in Ledger.IdentSet(current) && Text.Lower(x) == Text.Lower(name)
  {
    var ids := Identifiers(current);
    if Text.InIgnoringCase(name, ids) {
      var j :| 0 <= j < |ids| && Text.Lower(ids[j]) == Text.Lower(name);
      assert current[j].identifier in Ledger.IdentSet(current);
    }
    if exists x :: x in Ledger.IdentSet(current) && Text.Lower(x) == Text.Lower(name) {
      var x :| x in Ledger.IdentSet(current) && Text.Lower(x) == Text.Lower(name);
      var k :| 0 <= k < |current| && current[k].identifier == x;
      assert ids[k] == x;
    }
  }

  function Names<S, H>(ms: seq<AppModule<S, H>>): (r: seq<string>)
    ensures |r| == |ms|
    ensures forall i :: 0 <= i < |ms| ==> r[i] == ms[i].name
  {
    Seqs.Map(ms, (m: AppModule<S, H>) => m.name)
  }

  /** The schemas one module adds to a connection: its own (the key `injects` omitted), then
      the ones it injects into a module whose name is, exactly, among `names`. */
  function SchemaContributions<S, H>(m: AppModule<S, H>, names: seq<string>): seq<(string, S)> {
    Seqs.Filter(m.schemas.named, (p: (string, S)) => p.0 != "injects") +
    Seqs.Flatten(Seqs.Map(Seqs.Filter(m.schemas.injects, (t: (string, seq<(string, S)>)) => t.0 in names),
                          (t: (string, seq<(string, S)>)) => t.1))
  }

  /** All contributions, module by module, in resolution order. */
  function AllSchemaContributions<S, H>(resolved: seq<AppModule<S, H>>): seq<(string, S)> {
    Seqs.Flatten(Seqs.Map(resolved, (m: AppModule<S, H>) => SchemaContributions(m, Names(resolved))))
  }

  /** The `schemas` object `createConnection` builds: under each name the first schema
      contributed, extended (`.add`) by every later one, module by module in resolution order. */
  function MergeSchemas<S, H>(resolved: seq<AppModule<S, H>>): (r: MultiMaps.MultiMap<S>)
    ensures MultiMaps.UniqueKeys(r)
    ensures forall n :: MultiMaps.Get(r, n) == MultiMaps.ValuesOf(AllSchemaContributions(resolved), n)
  {
    var all := AllSchemaContributions(resolved);
    MultiMaps.AppendAllUnique([], all);
    var r := MultiMaps.AppendAll([], all);
    assert forall n :: MultiMaps.Get(r, n) == MultiMaps.ValuesOf(all, n) by {
      forall n ensures MultiMaps.Get(r, n) == MultiMaps.ValuesOf(all, n) {
        MultiMaps.AppendAllGet([], all, n);
      }
    }
    r
  }

  /** Module `m` contributes schema `s` under `n`: as one of its own, or injected into a resolved module. */
  ghost predicate ContributesSchema<S, H>(m: AppModule<S, H>, names: seq<string>, n: string, s: S) {
    ((n, s) in m.schemas.named && n != "injects") ||
    exists j :: 0 <= j < |m.schemas.injects| && m.schemas.injects[j].0 in names && (n, s) in m.schemas.injects[j].1
  }

  lemma SchemaContributionsMembers<S, H>(m: AppModule<S, H>, names: seq<string>, n: string, s: S)
    ensures (n, s) in SchemaContributions(m, names) <==> ContributesSchema(m, names, n, s)
  {
    var own := Seqs.Filter(m.schemas.named, (p: (string, S)) => p.0 != "injects");
    Seqs.SubseqMembers(own, m.schemas.named);
    Seqs.FlattenFilterMembers(m.schemas.injects, (t: (string, seq<(string, S)>)) => t.0 in names,
                              (t: (string, seq<(string, S)>)) => t.1, (n, s));
    if (n, s) in own {
      var k :| 0 <= k < |own| && own[k] == (n, s);
    }
    if (n, s) in m.schemas.named && n != "injects" {
      var k :| 0 <= k < |m.schemas.named| && m.schemas.named[k] == (n, s);
    }
  }

  /** A merged model holds schema `s` under `n` exactly when some resolved module contributes it. */
  lemma MergedSchemaMembers<S, H>(resolved: seq<AppModule<S, H>>, n: string, s: S)
    ensures s in MultiMaps.Get(MergeSchemas(resolved), n) <==>
      exists i :: 0 <= i < |resolved| && ContributesSchema(resolved[i], Names(resolved), n, s)
  {
    var per := Seqs.Map(resolved, (m: AppModule<S, H>) => SchemaContributions(m, Names(resolved)));
    MultiMaps.AppendAllGet([], AllSchemaContributions(resolved), n);
    MultiMaps.ValuesOfMembers(AllSchemaContributions(resolved), n, s);
    Seqs.FlattenMembers(per, (n, s));
    forall i | 0 <= i < |resolved|
      ensures (n, s) in per[i] <==> ContributesSchema(resolved[i], Names(resolved), n, s)
    {
      SchemaContributionsMembers(resolved[i], Names(resolved), n, s);
    }
  }

  /** A module loaded alone contributes only what it names itself or injects into itself. */
  lemma LoneModuleSchemas<S, H>(m: AppModule<S, H>, n: string, s: S)
    ensures s in MultiMaps.Get(MergeSchemas([m]), n) <==> ContributesSchema(m, [m.name], n, s)
  {
    MergedSchemaMembers([m], n, s);
    assert Names([m]) == [m.name];
  }

  /** `createConnection(app)`: no connection when the workspace has no database URL;
      otherwise one model per merged schema name. */
  function CreateConnection<S, H>(dbUrl: Option<string>, resolved: seq<AppModule<S, H>>): (r: Option<Connection<S>>)
    ensures r.None? <==> dbUrl.None? || !Text.Truthy(dbUrl.value)
    ensures r.Some? ==> r.value.url == dbUrl.value && MultiMaps.UniqueKeys(r.value.models)
    ensures r.Some? ==> forall n :: MultiMaps.Get(r.value.models, n) == MultiMaps.ValuesOf(AllSchemaContributions(resolved), n)
    ensures r.Some? ==> forall n, s :: s in MultiMaps.Get(r.value.models, n) ==>
      exists i :: 0 <= i < |resolved| && ContributesSchema(resolved[i], Names(resolved), n, s)
  {
    if dbUrl.None? || !Text.Truthy(dbUrl.value) then None
    else
      var models := MergeSchemas(resolved);
      assert forall n, s :: s in MultiMaps.Get(models, n) ==>
        exists i :: 0 <= i < |resolved| && ContributesSchema(resolved[i], Names(resolved), n, s) by {
        forall n, s | s in MultiMaps.Get(models, n)
          ensures exists i :: 0 <= i < |resolved| && ContributesSchema(resolved[i], Names(resolved), n, s)
        {
          MergedSchemaMembers(resolved, n, s);
        }
      }
      Some(Connection(dbUrl.value, models))
  }

  /** Every schema some resolved module contributes is registered under its name: the connection
      leaves no contribution out. */
  lemma ConnectionRegistersContributions<S, H>(dbUrl: Option<string>, resolved: seq<AppModule<S, H>>, i: nat, n: string, s: S)
    requires dbUrl.Some? && Text.Truthy(dbUrl.value)
    requires i < |resolved| && ContributesSchema(resolved[i], Names(resolved), n, s)
    ensures CreateConnection(dbUrl, resolved).Some?
    ensures s in MultiMaps.Get(CreateConnection(dbUrl, resolved).value.models, n)
  {
    MergedSchemaMembers(resolved, n, s);
  }

  /** `getOrCreateConnection(app)`: the application's cached connection for the workspace
      when there is one, otherwise a freshly built connection (which is not put in the cache). */
  function GetOrCreateConnection<S, H>(cache: map<ObjectId, Connection<S>>, ws: ObjectId, dbUrl: Option<string>,
                                       resolved: seq<AppModule<S, H>>): (r: Option<Connection<S>>)
    ensures ws in cache ==> r == Some(cache[ws])
    ensures ws !in cache ==> (r.None? <==> dbUrl.None? || !Text.Truthy(dbUrl.value))
    ensures ws !in cache && r.Some? ==> r.value.url == dbUrl.value
  {
    if ws in cache then Some(cache[ws]) else CreateConnection(dbUrl, resolved)
  }

  /** Why `createConnection` throws: its own workspace document is gone (`workspace.dbUrl` on
      `null`), or a current subscription's closure does not load while resolving the modules. */
  datatype ConnectError = WorkspaceMissing | ModulesUnresolved(cause: LoadError)

  /** `createConnection(app)` from the stored state: the workspace's `dbUrl` (`None` when the
      document is missing), the catalogue and its current subscriptions. A missing URL answers
      `null` before any module is resolved; otherwise the connection is opened and the modules
      resolved, whose failure is rethrown. */
  function ConnectWorkspace<S, H>(stored: Option<Option<string>>, c: Catalog, rank: map<ObjectId, nat>,
                                  subs: seq<Ledger.Subscription>, app: seq<AppModule<S, H>>, defaults: seq<string>)
    : (r: Result<Option<Connection<S>>, ConnectError>)
    requires ValidCatalog(c, rank)
    ensures r == Failure(WorkspaceMissing) <==> stored.None?
    ensures r.Failure? && r.error.ModulesUnresolved? <==>
      stored.Some? && stored.value.Some? && Text.Truthy(stored.value.value) && !Ledger.AllClosuresResolve(c, rank, subs)
    ensures r == Success(None) <==> stored.Some? && (stored.value.None? || !Text.Truthy(stored.value.value))
    ensures r.Success? && r.value.Some? ==>
      Ledger.AllClosuresResolve(c, rank, subs) &&
      r.value == CreateConnection(stored.value, ResolveModules(app, Ledger.CurrentModules(c, rank, subs).value, defaults))
  {
    match stored
    case None => Failure(WorkspaceMissing)
    case Some(dbUrl) =>
      if dbUrl.None? || !Text.Truthy(dbUrl.value) then Success(None)
      else
        match Ledger.CurrentModules(c, rank, subs)
        case Failure(e) => Failure(ModulesUnresolved(e))
        case Success(current) => Success(CreateConnection(dbUrl, ResolveModules(app, current, defaults)))
  }

  /** The hooks object of a module: a function is called with the module itself, a missing one is
      skipped. The module is passed as its name, the only part of it such a function is modelled to read. */
  function HooksOf<S, H>(m: AppModule<S, H>): Option<HookTable<H>> {
    match m.hooks
    case NoHooks => None
    case Static(t) => Some(t)
    case Computed(f) => f(m.name)
  }

  /** The `(hook key, handler)` pairs one module addresses to module `target`, matching target names up to case. */
  function HookContributions<S, H>(m: AppModule<S, H>, target: string): seq<(string, H)> {
    match HooksOf(m)
    case None => []
    case Some(t) =>
      Seqs.Flatten(Seqs.Map(Seqs.Filter(t, (e: (string, seq<(string, H)>)) => Text.SameIgnoringCase(e.0, target)),
                            (e: (string, seq<(string, H)>)) => e.1))
  }

  function AllHookContributions<S, H>(resolved: seq<AppModule<S, H>>, target: string): seq<(string, H)> {
    Seqs.Flatten(Seqs.Map(resolved, (m: AppModule<S, H>) => HookContributions(m, target)))
  }

  /** `workspace.getInjections(module)`: handlers by hook key, module by module in resolution order. */
  function GetInjections<S, H>(resolved: seq<AppModule<S, H>>, target: string): (r: MultiMaps.MultiMap<H>)
    ensures MultiMaps.UniqueKeys(r)
    ensures forall k :: MultiMaps.Get(r, k) == MultiMaps.ValuesOf(AllHookContributions(resolved, target), k)
  {
    var all := AllHookContributions(resolved, target);
    MultiMaps.AppendAllUnique([], all);
    var r := MultiMaps.AppendAll([], all);
    assert forall k :: MultiMaps.Get(r, k) == MultiMaps.ValuesOf(all, k) by {
      forall k ensures MultiMaps.Get(r, k) == MultiMaps.ValuesOf(all, k) {
        MultiMaps.AppendAllGet([], all, k);
      }
    }
    r
  }

  /** Module `m` registers handler `h` under hook key `k` for module `target`. */
  ghost predicate RegistersHook<S, H>(m: AppModule<S, H>, target: string, k: string, h: H) {
    HooksOf(m).Some? &&
    exists j :: 0 <= j < |HooksOf(m).value| && Text.SameIgnoringCase(HooksOf(m).value[j].0, target) &&
      (k, h) in HooksOf(m).value[j].1
  }

  lemma HookContributionsMembers<S, H>(m: AppModule<S, H>, target: string, k: string, h: H)
    ensures (k, h) in HookContributions(m, target) <==> RegistersHook(m, target, k, h)
  {
    if HooksOf(m).Some? {
      Seqs.FlattenFilterMembers(HooksOf(m).value, (e: (string, seq<(string, H)>)) => Text.SameIgnoringCase(e.0, target),
                                (e: (string, seq<(string, H)>)) => e.1, (k, h));
    }
  }

  /** A pair is among all contributions exactly when some resolved module registers it. */
  lemma AllHookContributionsMembers<S, H>(resolved: seq<AppModule<S, H>>, target: string, k: string, h: H)
    ensures (k, h) in AllHookContributions(resolved, target) <==>
      exists i :: 0 <= i < |resolved| && RegistersHook(resolved[i], target, k, h)
  {
    var per := Seqs.Map(resolved, (m: AppModule<S, H>) => HookContributions(m, target));
    Seqs.FlattenMembers(per, (k, h));
    forall i | 0 <= i < |resolved|
      ensures (k, h) in per[i] <==> RegistersHook(resolved[i], target, k, h)
    {
      HookContributionsMembers(resolved[i], target, k, h);
    }
  }

  /** Every handler `getInjections` lists under `k` was registered by a resolved module, and every registered one is listed. */
  lemma InjectionMembers<S, H>(resolved: seq<AppModule<S, H>>, target: string, k: string, h: H)
    ensures h in MultiMaps.Get(GetInjections(resolved, target), k) <==>
      exists i :: 0 <= i < |resolved| && RegistersHook(resolved[i], target, k, h)
  {
    MultiMaps.AppendAllGet([], AllHookContributions(resolved, target), k);
    MultiMaps.ValuesOfMembers(AllHookContributions(resolved, target), k, h);
    AllHookContributionsMembers(resolved, target, k, h);
  }

  /** Some pair of `kvs` carries key `k`, by position or by value. */
  lemma CarriesKey<V>(kvs: seq<(string, V)>, k: string)
    ensures (exists j :: 0 <= j < |kvs| && kvs[j].0 == k) <==> exists v :: (k, v) in kvs
  {
    if exists j :: 0 <= j < |kvs| && kvs[j].0 == k {
      var j :| 0 <= j < |kvs| && kvs[j].0 == k;
      assert (k, kvs[j].1) in kvs;
    }
    if exists v :: (k, v) in kvs {
      var v :| (k, v) in kvs;
      var j :| 0 <= j < |kvs| && kvs[j] == (k, v);
    }
  }

  /** A hook key is present exactly when some resolved module registers a handler under it. */
  lemma InjectionKeys<S, H>(resolved: seq<AppModule<S, H>>, target: string, k: string)
    ensures k in MultiMaps.Keys(GetInjections(resolved, target)) <==>
      exists i, h :: 0 <= i < |resolved| && RegistersHook(resolved[i], target, k, h)
  {
    var kvs := AllHookContributions(resolved, target);
    MultiMaps.AppendAllKeys([], kvs, k);
    assert MultiMaps.Keys<H>([]) == [];
    CarriesKey(kvs, k);
    forall h ensures (k, h) in kvs <==> exists i :: 0 <= i < |resolved| && RegistersHook(resolved[i], target, k, h) {
      AllHookContributionsMembers(resolved, target, k, h);
    }
  }

  /** A module loaded alone registers exactly the keys of its own hooks for the target. */
  lemma LoneModuleInjectionKeys<S, H>(m: AppModule<S, H>, target: string, k: string)
    ensures k in MultiMaps.Keys(GetInjections([m], target)) <==> exists h :: RegistersHook(m, target, k, h)
  {
    InjectionKeys([m], target, k);
    if exists h :: RegistersHook(m, target, k, h) {
      var h :| RegistersHook(m, target, k, h);
      assert RegistersHook([m][0], target, k, h);
    }
  }

  /** `Promise.all(handlers.map((render, index) => render({ ...args, key: index })))`,
      from position `from` on: every result in order, or the first rejection by position. */
  function RunHooks<H, O, E>(hs: seq<H>, call: (H, nat) -> Result<O, E>, from: nat): (r: Result<seq<O>, E>)
    requires from <= |hs|
    ensures r.Success? ==>
      (|r.value| == |hs| - from && forall j :: from <= j < |hs| ==> call(hs[j], j) == Success(r.value[j - from]))
    ensures r.Failure? ==>
      exists j :: from <= j < |hs| && call(hs[j], j) == Failure(r.error) && (forall l :: from <= l < j ==> call(hs[l], l).Success?)
    ensures r.Success? <==> forall j :: from <= j < |hs| ==> call(hs[j], j).Success?
    decreases |hs| - from
  {
    if from == |hs| then Success([])
    else
      var first := call(hs[from], from);
      if first.Failure? then Failure(first.error)
      else
        var rest := RunHooks(hs, call, from + 1);
        if rest.Failure? then Failure(rest.error)
        else Success([first.value] + rest.value)
  }

  /** Every handler in `hs` resolves when called with its position. */
  ghost predicate AllSucceed<H, O, E>(hs: seq<H>, call: (H, nat) -> Result<O, E>) {
    forall j :: 0 <= j < |hs| ==> call(hs[j], j).Success?
  }

  /** `outs` holds, in order, what each handler of `hs` resolved to. */
  ghost predicate Outputs<H, O, E>(hs: seq<H>, call: (H, nat) -> Result<O, E>, outs: seq<O>) {
    |outs| == |hs| && forall j :: 0 <= j < |hs| ==> call(hs[j], j) == Success(outs[j])
  }

  /** `e` is the rejection of the first handler of `hs`, by position, that rejects. */
  ghost predicate FirstRejection<H, O, E>(hs: seq<H>, call: (H, nat) -> Result<O, E>, e: E) {
    exists j :: 0 <= j < |hs| && call(hs[j], j) == Failure(e) && forall l :: 0 <= l < j ==> call(hs[l], l).Success?
  }

  /** Why `inject` rejects: `injections[hookName]` missing although a key matched up to case,
      or a handler's own rejection. */
  datatype InjectError<E> = TypeError | Rejected(reason: E)

  /** `inject` as written once the injections are gathered: `keys` are the hook keys, and `hs`
      what the exact lookup `injections[hookName]` finds. */
  function InjectFrom<H, O, E>(keys: seq<string>, hs: seq<H>, hookName: string,
                               call: (H, nat) -> Result<O, E>): (r: Result<Option<seq<O>>, InjectError<E>>)
    ensures r == Success(None) <==> !Text.InIgnoringCase(hookName, keys)
    ensures r == Failure(TypeError) <==> Text.InIgnoringCase(hookName, keys) && hookName !in keys
    ensures r.Success? && r.value.Some? ==> Outputs(hs, call, r.value.value)
    ensures hookName in keys ==> (r.Success? <==> AllSucceed(hs, call))
    ensures r.Failure? && r.error.Rejected? ==> FirstRejection(hs, call, r.error.reason)
  {
    if !Text.InIgnoringCase(hookName, keys) then Success(None)
    else if hookName !in keys then Failure(TypeError)
    else
      var run := RunHooks(hs, call, 0);
      if run.Failure? then Failure(Rejected(run.error)) else Success(Some(run.value))
  }

  /** `workspace.inject(module, hookName, args)` as written: the presence test ignores case,
      the lookup `injections[hookName]` does not. `None` stands for the `null` result. */
  function Inject<S, H, O, E>(resolved: seq<AppModule<S, H>>, target: string, hookName: string,
                              call: (H, nat) -> Result<O, E>): (r: Result<Option<seq<O>>, InjectError<E>>)
    ensures r == Success(None) <==> !Text.InIgnoringCase(hookName, MultiMaps.Keys(GetInjections(resolved, target)))
    ensures r == Failure(TypeError) <==>
      Text.InIgnoringCase(hookName, MultiMaps.Keys(GetInjections(resolved, target))) &&
      hookName !in MultiMaps.Keys(GetInjections(resolved, target))
    ensures r.Success? && r.value.Some? ==>
      Outputs(MultiMaps.Get(GetInjections(resolved, target), hookName), call, r.value.value)
    ensures hookName in MultiMaps.Keys(GetInjections(resolved, target)) ==>
      (r.Success? <==> AllSucceed(MultiMaps.Get(GetInjections(resolved, target), hookName), call))
    ensures r.Failure? && r.error.Rejected? ==>
      FirstRejection(MultiMaps.Get(GetInjections(resolved, target), hookName), call, r.error.reason)
  {
    var injections := GetInjections(resolved, target);
    InjectFrom(MultiMaps.Keys(injections), MultiMaps.Get(injections, hookName), hookName, call)
  }

  /** The handlers under every key equal to `hookName` up to case, in key order. */
  function HandlersIgnoringCase<H>(injections: MultiMaps.MultiMap<H>, hookName: string): seq<H> {
    Seqs.Flatten(Seqs.Map(Seqs.Filter(injections, (e: (string, seq<H>)) => Text.SameIgnoringCase(e.0, hookName)),
                          (e: (string, seq<H>)) => e.1))
  }

  /** `inject` as evidently intended: the handlers are gathered with the same case-insensitive
      match as the presence test, so a matching key can no longer make the lookup fail. */
  function InjectIgnoringCase<S, H, O, E>(resolved: seq<AppModule<S, H>>, target: string, hookName: string,
                                          call: (H, nat) -> Result<O, E>): (r: Result<Option<seq<O>>, E>)
    ensures r == Success(None) <==> !Text.InIgnoringCase(hookName, MultiMaps.Keys(GetInjections(resolved, target)))
    ensures r.Success? && r.value.Some? ==>
      Outputs(HandlersIgnoringCase(GetInjections(resolved, target), hookName), call, r.value.value)
    ensures Text.InIgnoringCase(hookName, MultiMaps.Keys(GetInjections(resolved, target))) ==>
      (r.Success? <==> AllSucceed(HandlersIgnoringCase(GetInjections(resolved, target), hookName), call))
    ensures r.Failure? ==>
      FirstRejection(HandlersIgnoringCase(GetInjections(resolved, target), hookName), call, r.error)
  {
    var injections := GetInjections(resolved, target);
    if !Text.InIgnoringCase(hookName, MultiMaps.Keys(injections)) then Success(None)
    else
      var run := RunHooks(HandlersIgnoringCase(injections, hookName), call, 0);
      if run.Failure? then Failure(run.error) else Success(Some(run.value))
  }

  /** A hook name that equals a registered key only up to case passes the presence test and
      fails the lookup: `inject` as written throws where the corrected one runs handlers. */
  lemma InjectThrowsOnCaseVariant<S, H, O, E>(resolved: seq<AppModule<S, H>>, target: string, key: string, hookName: string,
                                               call: (H, nat) -> Result<O, E>)
    requires key in MultiMaps.Keys(GetInjections(resolved, target))
    requires Text.SameIgnoringCase(key, hookName)
    requires hookName !in MultiMaps.Keys(GetInjections(resolved, target))
    ensures Inject(resolved, target, hookName, call) == Failure(TypeError)
    ensures InjectIgnoringCase(resolved, target, hookName, call) != Success(None)
  {
    var keys := MultiMaps.Keys(GetInjections(resolved, target));
    var j :| 0 <= j < |keys| && keys[j] == key;
    assert Text.InIgnoringCase(hookName, keys);
  }

  /** When the only key matching `hookName` up to case is `hookName` itself, the two agree. */
  lemma InjectAgreesOnExactKey<S, H, O, E>(resolved: seq<AppModule<S, H>>, target: string, hookName: string,
                                           call: (H, nat) -> Result<O, E>)
    requires var injections := GetInjections(resolved, target);
      forall j :: 0 <= j < |injections| && Text.SameIgnoringCase(injections[j].0, hookName) ==> injections[j].0 == hookName
    ensures Inject(resolved, target, hookName, call).Success? <==> InjectIgnoringCase(resolved, target, hookName, call).Success?
    ensures Inject(resolved, target, hookName, call).Success? ==>
      Inject(resolved, target, hookName, call).value == InjectIgnoringCase(resolved, target, hookName, call).value
  {
    var injections := GetInjections(resolved, target);
    if Text.InIgnoringCase(hookName, MultiMaps.Keys(injections)) {
      ExactKeyHandlers(injections, hookName);
    }
  }

  /** When the only key equal to `hookName` up to case is `hookName` itself, the lookups with
      and without case agree. */
  lemma ExactKeyHandlers<H>(injections: MultiMaps.MultiMap<H>, hookName: string)
    requires MultiMaps.UniqueKeys(injections)
    requires Text.InIgnoringCase(hookName, MultiMaps.Keys(injections))
    requires forall j :: 0 <= j < |injections| && Text.SameIgnoringCase(injections[j].0, hookName) ==> injections[j].0 == hookName
    ensures hookName in MultiMaps.Keys(injections)
    ensures HandlersIgnoringCase(injections, hookName) == MultiMaps.Get(injections, hookName)
  {
    MultiMaps.KeysIndex(injections);
    var j :| 0 <= j < |MultiMaps.Keys(injections)| && Text.Lower(MultiMaps.Keys(injections)[j]) == Text.Lower(hookName);
    assert injections[j].0 == hookName;
    var kept := Seqs.Filter(injections, (e: (string, seq<H>)) => Text.SameIgnoringCase(e.0, hookName));
    assert injections[j] in kept;
    assert |kept| == 1 && kept[0] == injections[j] by {
      KeptIsSingle(injections, hookName, j);
    }
    MultiMaps.GetFinds(injections, hookName, j);
    assert Seqs.Map(kept, (e: (string, seq<H>)) => e.1) == [injections[j].1];
    assert Seqs.Flatten([injections[j].1]) == injections[j].1;
  }

  /** With unique keys, only the entry at `j` has a key equal to `hookName` up to case
      when every such key is `hookName` itself. */
  lemma KeptIsSingle<H>(injections: MultiMaps.MultiMap<H>, hookName: string, j: nat)
    requires MultiMaps.UniqueKeys(injections)
    requires j < |injections| && injections[j].0 == hookName
    requires forall i :: 0 <= i < |injections| && Text.SameIgnoringCase(injections[i].0, hookName) ==> injections[i].0 == hookName
    ensures var kept := Seqs.Filter(injections, (e: (string, seq<H>)) => Text.SameIgnoringCase(e.0, hookName));
      |kept| == 1 && kept[0] == injections[j]
  {
    var kept := Seqs.Filter(injections, (e: (string, seq<H>)) => Text.SameIgnoringCase(e.0, hookName));
    assert injections[j] in kept;
    Seqs.SubseqMembers(kept, injections);
    forall a | 0 <= a < |kept| ensures kept[a] == injections[j] {
      assert kept[a] in kept;
      var i :| 0 <= i < |injections| && injections[i] == kept[a];
      assert injections[i].0 == hookName;
    }
    MultiMaps.SubseqUniqueKeys(kept, injections);
    MultiMaps.OneEntryPerKey(kept, hookName);
  }
}

=== FILE: fixtures.dfy ===
/** The core module's own declarations — its schemas and its hooks — and another module's
    hooks, with the facts the composition rules give about them. Schemas and hook handlers are
    represented by their names. */
module Fixtures {
  import opened Wrappers
  import Text
  import MultiMaps
  import opened Composition

  /** The core module's `schemas` object: four schemas of its own, and `User` and `Invoice`
      contributed to the `Authentication` and `Invoices` modules. */
  function CoreSchemas(): SchemaSet<string> {
    SchemaSet(
      [("Workspace", "Workspace"), ("Membership", "Membership"), ("Module", "Module"), ("StoragePlan", "StoragePlan")],
      [("Authentication", [("User", "User")]), ("Invoices", [("Invoice", "Invoice")])])
  }

  /** The core module's hooks object, built from the module (a function of it); the
      comma-separated key of `Obj.expand` appears as two keys. */
  function CoreHooks(name: string): Option<HookTable<string>> {
    Some([
      ("Core", [("workspaces.addOwner.preSave", "ownerName")]),
      ("Authentication", [
        ("main.register.preSave", "registrantName"),
        ("main.login.params", "sessionParams"),
        ("main.getSelf.params", "sessionParams")])])
  }

  function Core(): AppModule<string, string> {
    AppModule("Core", CoreSchemas(), Computed(CoreHooks), false)
  }

  /** A loaded module that declares nothing of its own. */
  function Bare(name: string): AppModule<string, string> {
    AppModule(name, SchemaSet([], []), NoHooks, false)
  }

  /** Once `Authentication` is resolved, the core's `User` schema is registered. */
  lemma UserSchemaWithAuthentication()
    ensures "User" in MultiMaps.Get(MergeSchemas([Core(), Bare("Authentication")]), "User")
  {
    var both := [Core(), Bare("Authentication")];
    MergedSchemaMembers(both, "User", "User");
    assert Names(both) == ["Core", "Authentication"];
    assert CoreSchemas().injects[0].0 in Names(both);
    assert ("User", "User") in CoreSchemas().injects[0].1;
    assert ContributesSchema(both[0], Names(both), "User", "User");
  }

  /** Alone, the core module offers `User` neither as its own schema nor to a resolved module. */
  lemma CoreAloneOffersNoUser()
    ensures !ContributesSchema(Core(), ["Core"], "User", "User")
  {
    assert ("User", "User") !in CoreSchemas().named;
    forall j | 0 <= j < |CoreSchemas().injects| ensures CoreSchemas().injects[j].0 !in ["Core"] {
    }
  }

  /** Without `Authentication` the `User` schema is left out of the connection. */
  lemma UserSchemaWithoutAuthentication()
    ensures "User" !in MultiMaps.Get(MergeSchemas([Core()]), "User")
  {
    LoneModuleSchemas(Core(), "User", "User");
    CoreAloneOffersNoUser();
  }

  /** A hooks object of another module keyed `presave` for the core module. */
  function Plugin(): AppModule<string, string> {
    AppModule("Invoices", SchemaSet([], []), Static([("Core", [("presave", "invoiceDefaults")])]), false)
  }

  /** The plugin registers `presave` for the core module, and nothing under `preSave`. */
  lemma PluginHookKeys()
    ensures RegistersHook(Plugin(), "Core", "presave", "invoiceDefaults")
    ensures forall h :: !RegistersHook(Plugin(), "Core", "preSave", h)
  {
    var table := [("Core", [("presave", "invoiceDefaults")])];
    assert HooksOf(Plugin()) == Some(table);
    assert Text.SameIgnoringCase("Core", table[0].0);
    forall h ensures !RegistersHook(Plugin(), "Core", "preSave", h) {
      assert ("preSave", h) !in table[0].1;
    }
  }

  /** The core module calls `inject('preSave')` while the plugin registered `presave`: the
      presence test passes, the lookup `injections['preSave']` is undefined, and `inject` as
      written throws a TypeError; the corrected one finds the handler. */
  lemma InjectCaseMismatch(call: (string, nat) -> Result<string, string>)
    ensures Inject([Plugin()], "Core", "preSave", call) == Failure(TypeError)
    ensures InjectIgnoringCase([Plugin()], "Core", "preSave", call) != Success(None)
  {
    PluginHookKeys();
    LoneModuleInjectionKeys(Plugin(), "Core", "presave");
    LoneModuleInjectionKeys(Plugin(), "Core", "preSave");
    assert Text.SameIgnoringCase("presave", "preSave");
    InjectThrowsOnCaseVariant([Plugin()], "Core", "presave", "preSave", call);
  }
}

=== FILE: granting.dfy ===
/** Granting modules to a workspace (`WorkspacesController._createWorkspaceSubscription`
    and the `subscribe` endpoint): one ledger entry per module of the dependency closure
    that the workspace does not already have, written in closure order, with no rollback. */
module Granting {
  import opened Wrappers
  import opened Ids
  import Text
  import Seqs
  import opened Modules
  import opened Ledger

  /** The end of a new subscription: none for `lifetime`; one year, six months or two weeks
      for `annually`, `semi-annually` and `demo`; any other period adds nothing to the start. */
  function ValidTill(period: string, now: Instant): (r: Option<Till>)
    ensures r.None? <==> period == "lifetime"
    ensures r.Some? ==> r.value.from == now
    ensures r.Some? ==> (r.value.years == 1 <==> period == "annually")
    ensures r.Some? ==> (r.value.months == 6 <==> period == "semi-annually")
    ensures r.Some? ==> (r.value.weeks == 2 <==> period == "demo")
    ensures r.Some? && period != "annually" && period != "semi-annually" && period != "demo" ==>
      r.value == Till(now, 0, 0, 0)
  {
    if period == "lifetime" then None
    else Some(Till(now,
                   if period == "annually" then 1 else 0,
                   if period == "semi-annually" then 6 else 0,
                   if period == "demo" then 2 else 0))
  }

  /** Why a grant stops: a closure that cannot be loaded, a workspace `findById` did not find
      (`getCurrentModules` called on `null`), a granted module the application does not have
      (`Module ... not found`), or a rejecting `onSubscribe`. */
  datatype GrantError =
    | LoadFailed(cause: LoadError)
    | WorkspaceMissing
    | AppModuleMissing(identifier: string)
    | OnSubscribeFailed(identifier: string)

  /** What a grant wrote and whose `onSubscribe` ran, in order, and how it ended. */
  datatype Grant = Grant(added: seq<Subscription>, notified: seq<string>, error: Option<GrantError>)

  /** The subscription written for module `id`. */
  function NewSubscription(ws: ObjectId, id: ObjectId, period: string, now: Instant): Subscription {
    Subscription(ws, id, "Module", now, ValidTill(period, now))
  }

  /** One ledger entry this grant may write: for workspace `ws`, a `Module` subscription starting now. */
  predicate FreshFor(s: Subscription, ws: ObjectId, period: string, now: Instant) {
    s.workspace == ws && s.kind == "Module" && s.validFrom == now && s.validTill == ValidTill(period, now)
  }

  /** The modules a grant subscribed. */
  ghost function AddedIds(r: Grant): set<ObjectId> {
    set i | 0 <= i < |r.added| :: r.added[i].subscribed
  }

  /** The series over the deduplicated closure `todo`. A module whose id is among `currentIds`
      is skipped; any other is subscribed first, then looked up in the application
      (`registered` gives whether it defines `onSubscribe`), whose hook then runs (`notifyOk`). */
  function GrantEach(todo: seq<ModuleRec>, currentIds: seq<ObjectId>, ws: ObjectId, period: string, now: Instant,
                     registered: string -> Option<bool>, notifyOk: string -> bool): (r: Grant)
    ensures forall i :: 0 <= i < |r.added| ==> FreshFor(r.added[i], ws, period, now)
    ensures forall i :: 0 <= i < |r.notified| ==> registered(r.notified[i]) == Some(true)
    ensures r.error.Some? && r.error.value.AppModuleMissing? ==> registered(r.error.value.identifier).None?
    ensures r.error.Some? && r.error.value.OnSubscribeFailed? ==> !notifyOk(r.error.value.identifier)
    ensures r.error.Some? ==> !r.error.value.LoadFailed? && !r.error.value.WorkspaceMissing?
  {
    if |todo| == 0 then Grant([], [], None)
    else
      var h := todo[0];
      var rest := GrantEach(todo[1..], currentIds, ws, period, now, registered, notifyOk);
      if h.id in currentIds then rest
      else
        var s := NewSubscription(ws, h.id, period, now);
        match registered(h.identifier)
        case None => Grant([s], [], Some(AppModuleMissing(h.identifier)))
        case Some(hasHook) =>
          if hasHook && !notifyOk(h.identifier) then Grant([s], [h.identifier], Some(OnSubscribeFailed(h.identifier)))
          else
            var notified := (if hasHook then [h.identifier] else []) + rest.notified;
            assert forall i :: 0 <= i < |notified| ==> registered(notified[i]) == Some(true) by {
              if hasHook {
                assert forall i :: 1 <= i < |notified| ==> notified[i] == rest.notified[i - 1];
              } else {
                assert notified == rest.notified;
              }
            }
            Grant([s] + rest.added, notified, rest.error)
  }

  /** The module may be granted: it is not current, and the application has it and accepts its `onSubscribe`. */
  predicate Grantable(h: ModuleRec, currentIds: seq<ObjectId>, registered: string -> Option<bool>, notifyOk: string -> bool) {
    h.id in currentIds ||
    (registered(h.identifier).Some? && (registered(h.identifier).value ==> notifyOk(h.identifier)))
  }

  /** Only modules of the closure that are not current get a subscription; each at most once
      when the closure has distinct ids. */
  lemma {:induction false} GrantEachTargets(todo: seq<ModuleRec>, currentIds: seq<ObjectId>, ws: ObjectId, period: string,
                                             now: Instant, registered: string -> Option<bool>, notifyOk: string -> bool)
    ensures AddedIds(GrantEach(todo, currentIds, ws, period, now, registered, notifyOk)) <= IdSet(todo)
    ensures forall x :: x in AddedIds(GrantEach(todo, currentIds, ws, period, now, registered, notifyOk)) ==> x !in currentIds
  {
    var r := GrantEach(todo, currentIds, ws, period, now, registered, notifyOk);
    if |todo| > 0 {
      var rest := GrantEach(todo[1..], currentIds, ws, period, now, registered, notifyOk);
      GrantEachTargets(todo[1..], currentIds, ws, period, now, registered, notifyOk);
      assert IdSet(todo) == {todo[0].id} + IdSet(todo[1..]) by {
        IdSetAppend([todo[0]], todo[1..]);
        assert [todo[0]] + todo[1..] == todo;
        assert [todo[0]][0].id == todo[0].id;
      }
      if todo[0].id !in currentIds && registered(todo[0].identifier).Some? &&
         !(registered(todo[0].identifier).value && !notifyOk(todo[0].identifier)) {
        AddedIdsCons(r, rest, NewSubscription(ws, todo[0].id, period, now));
      } else if todo[0].id !in currentIds {
        assert |r.added| == 1 && r.added[0].subscribed == todo[0].id;
        assert AddedIds(r) == {todo[0].id};
      }
    }
  }

  /** A grant that writes one more subscription in front of another's subscribed its module too. */
  lemma AddedIdsCons(r: Grant, rest: Grant, s: Subscription)
    requires r.added == [s] + rest.added
    ensures AddedIds(r) == {s.subscribed} + AddedIds(rest)
  {
    forall x | x in AddedIds(r) ensures x in {s.subscribed} + AddedIds(rest) {
      var i :| 0 <= i < |r.added| && r.added[i].subscribed == x;
      if i > 0 { assert r.added[i] == rest.added[i - 1]; }
    }
    forall x | x in AddedIds(rest) ensures x in AddedIds(r) {
      var i :| 0 <= i < |rest.added| && rest.added[i].subscribed == x;
      assert r.added[i + 1] == rest.added[i];
    }
    assert r.added[0] == s;
  }

  /** The series completes exactly when every module of the closure is grantable, and then every
      module of the closure is current or newly subscribed. */
  lemma {:induction false} GrantEachCompletes(todo: seq<ModuleRec>, currentIds: seq<ObjectId>, ws: ObjectId, period: string,
                                               now: Instant, registered: string -> Option<bool>, notifyOk: string -> bool)
    ensures GrantEach(todo, currentIds, ws, period, now, registered, notifyOk).error.None? <==>
      forall j :: 0 <= j < |todo| ==> Grantable(todo[j], currentIds, registered, notifyOk)
    ensures GrantEach(todo, currentIds, ws, period, now, registered, notifyOk).error.None? ==>
      forall j :: 0 <= j < |todo| ==> todo[j].id in currentIds || todo[j].id in AddedIds(GrantEach(todo, currentIds, ws, period, now, registered, notifyOk))
  {
    var r := GrantEach(todo, currentIds, ws, period, now, registered, notifyOk);
    if |todo| > 0 {
      var rest := GrantEach(todo[1..], currentIds, ws, period, now, registered, notifyOk);
      GrantEachCompletes(todo[1..], currentIds, ws, period, now, registered, notifyOk);
      assert forall j :: 1 <= j < |todo| ==> todo[j] == todo[1..][j - 1];
      if todo[0].id !in currentIds && Grantable(todo[0], currentIds, registered, notifyOk) {
        assert r.error == rest.error;
        AddedIdsCons(r, rest, NewSubscription(ws, todo[0].id, period, now));
      }
    }
  }

  /** How many modules of `todo` the series reaches: up to and including the first one that is
      not grantable, or all of them. */
  function Processed(todo: seq<ModuleRec>, currentIds: seq<ObjectId>, registered: string -> Option<bool>,
                     notifyOk: string -> bool): (n: nat)
    ensures n <= |todo|
    ensures forall j :: 0 <= j < n - 1 ==> Grantable(todo[j], currentIds, registered, notifyOk)
    ensures (n > 0 && !Grantable(todo[n - 1], currentIds, registered, notifyOk)) ||
      (n == |todo| && forall j :: 0 <= j < |todo| ==> Grantable(todo[j], currentIds, registered, notifyOk))
  {
    if |todo| == 0 then 0
    else if !Grantable(todo[0], currentIds, registered, notifyOk) then 1
    else
      var n := Processed(todo[1..], currentIds, registered, notifyOk);
      assert forall j :: 1 <= j < |todo| ==> todo[j] == todo[1..][j - 1];
      1 + n
  }

  /** The subscriptions the series writes for the modules it reaches: one per module not
      already current, in order. */
  function Writes(reached: seq<ModuleRec>, currentIds: seq<ObjectId>, ws: ObjectId, period: string, now: Instant)
    : (r: seq<Subscription>)
    ensures |r| <= |reached|
  {
    if |reached| == 0 then []
    else
      (if reached[0].id in currentIds then [] else [NewSubscription(ws, reached[0].id, period, now)]) +
      Writes(reached[1..], currentIds, ws, period, now)
  }

  /** The modules whose `onSubscribe` the series calls: those reached, not already current, and
      defining the hook, in order. */
  function Hooked(reached: seq<ModuleRec>, currentIds: seq<ObjectId>, registered: string -> Option<bool>): (r: seq<string>)
    ensures |r| <= |reached|
  {
    if |reached| == 0 then []
    else
      (if reached[0].id !in currentIds && registered(reached[0].identifier) == Some(true) then [reached[0].identifier] else []) +
      Hooked(reached[1..], currentIds, registered)
  }

  /** The series runs module by module and stops at the first failure: it writes a subscription
      for every module it reaches that is not current, the failing one included (it is written
      before the application is asked about it, and nothing is rolled back), calls `onSubscribe`
      of exactly those new modules that define it, and reports the failing module. */
  lemma GrantEachSeries(todo: seq<ModuleRec>, currentIds: seq<ObjectId>, ws: ObjectId, period: string,
                        now: Instant, registered: string -> Option<bool>, notifyOk: string -> bool)
    ensures var r := GrantEach(todo, currentIds, ws, period, now, registered, notifyOk);
      var n := Processed(todo, currentIds, registered, notifyOk);
      r.added == Writes(todo[..n], currentIds, ws, period, now) &&
      r.notified == Hooked(todo[..n], currentIds, registered)
    ensures var r := GrantEach(todo, currentIds, ws, period, now, registered, notifyOk);
      var n := Processed(todo, currentIds, registered, notifyOk);
      r.error.Some? ==>
        n > 0 && todo[n - 1].id !in currentIds && !Grantable(todo[n - 1], currentIds, registered, notifyOk) &&
        r.error.value.identifier == todo[n - 1].identifier
    ensures var r := GrantEach(todo, currentIds, ws, period, now, registered, notifyOk);
      r.error.None? ==> Processed(todo, currentIds, registered, notifyOk) == |todo|
  {
    SeriesAdded(todo, currentIds, ws, period, now, registered, notifyOk);
    SeriesNotified(todo, currentIds, ws, period, now, registered, notifyOk);
    SeriesError(todo, currentIds, ws, period, now, registered, notifyOk);
  }

  /** The subscriptions the series writes are those of the modules it reaches. */
  lemma {:induction false} SeriesAdded(todo: seq<ModuleRec>, currentIds: seq<ObjectId>, ws: ObjectId, period: string,
                                       now: Instant, registered: string -> Option<bool>, notifyOk: string -> bool)
    ensures var r := GrantEach(todo, currentIds, ws, period, now, registered, notifyOk);
      var n := Processed(todo, currentIds, registered, notifyOk);
      r.added == Writes(todo[..n], currentIds, ws, period, now)
  {
    if |todo| > 0 {
      var h := todo[0];
      var n := Processed(todo, currentIds, registered, notifyOk);
      var n' := Processed(todo[1..], currentIds, registered, notifyOk);
      SeriesAdded(todo[1..], currentIds, ws, period, now, registered, notifyOk);
      var reached := todo[..n];
      if Grantable(h, currentIds, registered, notifyOk) {
        assert n == 1 + n';
        assert reached[0] == h && reached[1..] == todo[1..][..n'];
      } else {
        assert n == 1;
        assert reached[0] == h && reached[1..] == [];
      }
      assert Writes(reached, currentIds, ws, period, now) ==
        (if h.id in currentIds then [] else [NewSubscription(ws, h.id, period, now)]) + Writes(reached[1..], currentIds, ws, period, now);
    }
  }

  /** The `onSubscribe` calls of the series are those of the modules it reaches. */
  lemma {:induction false} SeriesNotified(todo: seq<ModuleRec>, currentIds: seq<ObjectId>, ws: ObjectId, period: string,
                                          now: Instant, registered: string -> Option<bool>, notifyOk: string -> bool)
    ensures var r := GrantEach(todo, currentIds, ws, period, now, registered, notifyOk);
      var n := Processed(todo, currentIds, registered, notifyOk);
      r.notified == Hooked(todo[..n], currentIds, registered)
  {
    if |todo| > 0 {
      var h := todo[0];
      var n := Processed(todo, currentIds, registered, notifyOk);
      var n' := Processed(todo[1..], currentIds, registered, notifyOk);
      SeriesNotified(todo[1..], currentIds, ws, period, now, registered, notifyOk);
      var reached := todo[..n];
      if Grantable(h, currentIds, registered, notifyOk) {
        assert n == 1 + n';
        assert reached[0] == h && reached[1..] == todo[1..][..n'];
      } else {
        assert n == 1;
        assert reached[0] == h && reached[1..] == [];
      }
      assert Hooked(reached, currentIds, registered) ==
        (if h.id !in currentIds && registered(h.identifier) == Some(true) then [h.identifier] else []) +
        Hooked(reached[1..], currentIds, registered);
    }
  }

  /** The series fails exactly at the last module it reaches, and only when that module is new and
      cannot be granted; the error names it. */
  lemma {:induction false} SeriesError(todo: seq<ModuleRec>, currentIds: seq<ObjectId>, ws: ObjectId, period: string,
                                        now: Instant, registered: string -> Option<bool>, notifyOk: string -> bool)
    ensures var r := GrantEach(todo, currentIds, ws, period, now, registered, notifyOk);
      var n := Processed(todo, currentIds, registered, notifyOk);
      r.error.Some? ==>
        n > 0 && todo[n - 1].id !in currentIds && !Grantable(todo[n - 1], currentIds, registered, notifyOk) &&
        r.error.value.identifier == todo[n - 1].identifier
    ensures var r := GrantEach(todo, currentIds, ws, period, now, registered, notifyOk);
      r.error.None? ==> Processed(todo, currentIds, registered, notifyOk) == |todo|
  {
    if |todo| > 0 {
      var n := Processed(todo, currentIds, registered, notifyOk);
      var n' := Processed(todo[1..], currentIds, registered, notifyOk);
      SeriesError(todo[1..], currentIds, ws, period, now, registered, notifyOk);
      if Grantable(todo[0], currentIds, registered, notifyOk) {
        assert n == 1 + n';
        assert n' > 0 ==> todo[n - 1] == todo[1..][n' - 1];
      }
    }
  }

  /** `_createWorkspaceSubscription(workspace, module, period)` against the ledger as it stands:
      the closure deduplicated by identifier, the workspace's current modules read once, then
      the series. */
  function GrantClosure(c: Catalog, rank: map<ObjectId, nat>, ledger: seq<Subscription>, ws: ObjectId, wsFound: bool,
                        m: ModuleRec, period: string, now: Instant, isCurrent: Subscription -> bool,
                        registered: string -> Option<bool>, notifyOk: string -> bool): (r: Grant)
    requires ValidCatalog(c, rank) && m in c
    ensures forall i :: 0 <= i < |r.added| ==> FreshFor(r.added[i], ws, period, now)
    ensures forall i :: 0 <= i < |r.notified| ==> registered(r.notified[i]) == Some(true)
    ensures r.error.None? ==>
      wsFound && Hereditary(c, rank, m).Success? && CurrentModules(c, rank, CurrentOf(ledger, ws, isCurrent)).Success?
    ensures Hereditary(c, rank, m).Failure? ==> r == Grant([], [], Some(LoadFailed(Hereditary(c, rank, m).error)))
    ensures Hereditary(c, rank, m).Success? && !wsFound ==> r == Grant([], [], Some(WorkspaceMissing))
    ensures Hereditary(c, rank, m).Success? && wsFound && CurrentModules(c, rank, CurrentOf(ledger, ws, isCurrent)).Failure? ==>
      r == Grant([], [], Some(LoadFailed(CurrentModules(c, rank, CurrentOf(ledger, ws, isCurrent)).error)))
  {
    match Hereditary(c, rank, m)
    case Failure(e) => Grant([], [], Some(LoadFailed(e)))
    case Success(closure) =>
      if !wsFound then Grant([], [], Some(WorkspaceMissing))
      else
        match CurrentModules(c, rank, CurrentOf(ledger, ws, isCurrent))
        case Failure(e) => Grant([], [], Some(LoadFailed(e)))
        case Success(current) =>
          GrantEach(ClosureToGrant(closure), IdsOf(current), ws, period, now, registered, notifyOk)
  }

  /** `uniqBy(hereditary, 'identifier')`. */
  function ClosureToGrant(closure: seq<ModuleRec>): (r: seq<ModuleRec>)
    ensures Seqs.Subseq(r, closure)
    ensures forall i :: 0 <= i < |closure| ==> exists j :: 0 <= j < |r| && r[j].identifier == closure[i].identifier
    ensures Seqs.Distinct(Seqs.Map(r, (h: ModuleRec) => h.identifier))
  {
    var r := Seqs.UniqBy(closure, (h: ModuleRec) => h.identifier);
    assert forall i :: 0 <= i < |closure| ==> closure[i].identifier in Seqs.KeySet(closure, (h: ModuleRec) => h.identifier);
    r
  }

  /** `currentModules.map(curr => curr.id)`. */
  function IdsOf(ms: seq<ModuleRec>): (r: seq<ObjectId>)
    ensures forall x :: x in r <==> x in IdSet(ms)
  {
    var r := Seqs.Map(ms, (x: ModuleRec) => x.id);
    assert forall x :: x in IdSet(ms) ==> x in r by {
      forall x | x in IdSet(ms) ensures x in r {
        var i :| 0 <= i < |ms| && ms[i].id == x;
        assert r[i] == x;
      }
    }
    r
  }

  /** Appending subscriptions the filter admits extends the current list by exactly them. */
  lemma CurrentOfAppend(ledger: seq<Subscription>, added: seq<Subscription>, ws: ObjectId, isCurrent: Subscription -> bool)
    requires forall i :: 0 <= i < |added| ==> added[i].workspace == ws && isCurrent(added[i])
    ensures CurrentOf(ledger + added, ws, isCurrent) == CurrentOf(ledger, ws, isCurrent) + added
  {
    var p := (s: Subscription) => s.workspace == ws && isCurrent(s);
    Seqs.FilterAppend(ledger, added, p);
    Seqs.FilterAll(added, p);
  }

  /** Two stored modules with the same id are the same module. */
  lemma SameIdSameModule(c: Catalog, a: ModuleRec, b: ModuleRec)
    requires UniqueIds(c) && a in c && b in c && a.id == b.id
    ensures a == b
  {
    var i :| 0 <= i < |c| && c[i] == a;
    var j :| 0 <= j < |c| && c[j] == b;
  }

  /** A subscription to a stored module whose closure loads makes the module's identifier current. */
  lemma SubscribedModuleInClosure(c: Catalog, rank: map<ObjectId, nat>, subs: seq<Subscription>, k: nat, h: ModuleRec)
    requires ValidCatalog(c, rank) && DependenciesStored(c) && h in c
    requires k < |subs| && subs[k].subscribed == h.id
    ensures SubscribedClosure(c, rank, subs[k]) == Hereditary(c, rank, h)
    ensures InSomeClosure(c, rank, subs, h.identifier)
  {
    FindStored(c, h);
    var closure := Hereditary(c, rank, h).value;
    assert closure[0] == h;
    assert h.identifier in IdentSet(closure);
  }

  /** An identifier current before more subscriptions are appended stays current. */
  lemma InSomeClosurePrefix(c: Catalog, rank: map<ObjectId, nat>, a: seq<Subscription>, b: seq<Subscription>, x: string)
    requires ValidCatalog(c, rank)
    requires InSomeClosure(c, rank, a, x)
    ensures InSomeClosure(c, rank, a + b, x)
  {
    var i :| 0 <= i < |a| && SubscribedClosure(c, rank, a[i]).Success? &&
      x in IdentSet(SubscribedClosure(c, rank, a[i]).value);
    assert (a + b)[i] == a[i];
  }

  /** One module of the deduplicated closure is current once a successful grant's entries are
      appended: either it was current before, or the grant subscribed it. */
  lemma GrantedModuleCurrent(c: Catalog, rank: map<ObjectId, nat>, before: seq<Subscription>, added: seq<Subscription>,
                             current: seq<ModuleRec>, h: ModuleRec, inAdded: bool)
    requires ValidCatalog(c, rank) && DependenciesStored(c) && h in c
    requires CurrentModules(c, rank, before) == Success(current)
    requires inAdded ==> exists t :: 0 <= t < |added| && added[t].subscribed == h.id
    requires !inAdded ==> h.id in IdSet(current)
    ensures InSomeClosure(c, rank, before + added, h.identifier)
  {
    if inAdded {
      var t :| 0 <= t < |added| && added[t].subscribed == h.id;
      NewlySubscribedCurrent(c, rank, before, added, t, h);
    } else {
      AlreadyCurrentStays(c, rank, before, added, current, h);
    }
  }

  /** A module the grant subscribed is current after the append. */
  lemma NewlySubscribedCurrent(c: Catalog, rank: map<ObjectId, nat>, before: seq<Subscription>, added: seq<Subscription>,
                               t: nat, h: ModuleRec)
    requires ValidCatalog(c, rank) && DependenciesStored(c) && h in c
    requires t < |added| && added[t].subscribed == h.id
    ensures InSomeClosure(c, rank, before + added, h.identifier)
  {
    assert (before + added)[|before| + t] == added[t];
    SubscribedModuleInClosure(c, rank, before + added, |before| + t, h);
  }

  /** A module current before the grant stays current after the append. */
  lemma AlreadyCurrentStays(c: Catalog, rank: map<ObjectId, nat>, before: seq<Subscription>, added: seq<Subscription>,
                            current: seq<ModuleRec>, h: ModuleRec)
    requires ValidCatalog(c, rank) && h in c
    requires CurrentModules(c, rank, before) == Success(current)
    requires h.id in IdSet(current)
    ensures InSomeClosure(c, rank, before + added, h.identifier)
  {
    var k :| 0 <= k < |current| && current[k].id == h.id;
    Seqs.SubseqMembers(current, c);
    SameIdSameModule(c, current[k], h);
    assert h.identifier in IdentSet(current);
    InSomeClosurePrefix(c, rank, before, added, h.identifier);
  }

  /** After a grant that completes, every module of the granted module's closure is current in
      the workspace (for a window filter that admits the entries just written), and the
      workspace's current modules still load. */
  lemma {:induction false} GrantMakesClosureCurrent(c: Catalog, rank: map<ObjectId, nat>, ledger: seq<Subscription>, ws: ObjectId, wsFound: bool,
                                                     m: ModuleRec, period: string, now: Instant, isCurrent: Subscription -> bool,
                                                     registered: string -> Option<bool>, notifyOk: string -> bool)
    requires ValidCatalog(c, rank) && DependenciesStored(c) && m in c
    requires forall s :: FreshFor(s, ws, period, now) ==> isCurrent(s)
    requires GrantClosure(c, rank, ledger, ws, wsFound, m, period, now, isCurrent, registered, notifyOk).error.None?
    ensures var after := ledger + GrantClosure(c, rank, ledger, ws, wsFound, m, period, now, isCurrent, registered, notifyOk).added;
      ClosureCurrent(c, rank, CurrentOf(after, ws, isCurrent), m)
    ensures var after := ledger + GrantClosure(c, rank, ledger, ws, wsFound, m, period, now, isCurrent, registered, notifyOk).added;
      CurrentModules(c, rank, CurrentOf(after, ws, isCurrent)).Success?
  {
    var g := GrantClosure(c, rank, ledger, ws, wsFound, m, period, now, isCurrent, registered, notifyOk);
    var closure := Hereditary(c, rank, m).value;
    var before := CurrentOf(ledger, ws, isCurrent);
    var current := CurrentModules(c, rank, before).value;
    var todo := ClosureToGrant(closure);
    var ids := IdsOf(current);
    assert g == GrantEach(todo, ids, ws, period, now, registered, notifyOk);
    CurrentOfAppend(ledger, g.added, ws, isCurrent);
    GrantEachCompletes(todo, ids, ws, period, now, registered, notifyOk);
    GrantEachTargets(todo, ids, ws, period, now, registered, notifyOk);
    Seqs.SubseqMembers(todo, closure);
    forall i | 0 <= i < |closure| ensures InSomeClosure(c, rank, before + g.added, closure[i].identifier) {
      var j :| 0 <= j < |todo| && todo[j].identifier == closure[i].identifier;
      assert todo[j] in closure;
      var inAdded := todo[j].id in AddedIds(g);
      GrantedModuleCurrent(c, rank, before, g.added, current, todo[j], inAdded);
    }
    AddedClosuresLoad(c, rank, before, g.added, todo, closure, AddedIds(g));
  }

  /** Every subscription a grant wrote names a module of the closure, so its closure loads;
      the earlier ones load since the current modules did. */
  lemma AddedClosuresLoad(c: Catalog, rank: map<ObjectId, nat>, before: seq<Subscription>, added: seq<Subscription>,
                          todo: seq<ModuleRec>, closure: seq<ModuleRec>, ids: set<ObjectId>)
    requires ValidCatalog(c, rank) && DependenciesStored(c)
    requires CurrentModules(c, rank, before).Success?
    requires forall x :: x in closure ==> x in c
    requires forall x :: x in todo ==> x in closure
    requires ids == set i | 0 <= i < |added| :: added[i].subscribed
    requires ids <= IdSet(todo)
    ensures forall k :: 0 <= k < |before + added| ==> SubscribedClosure(c, rank, (before + added)[k]).Success?
  {
    forall k | 0 <= k < |before + added| ensures SubscribedClosure(c, rank, (before + added)[k]).Success? {
      if k >= |before| {
        var x := added[k - |before|].subscribed;
        assert x in ids;
        var j :| 0 <= j < |todo| && todo[j].id == x;
        assert todo[j] in closure;
        SubscribedModuleInClosure(c, rank, before + added, k, todo[j]);
      }
    }
  }

  /** Every module of `m`'s closure is current under `subs`. */
  ghost predicate ClosureCurrent(c: Catalog, rank: map<ObjectId, nat>, subs: seq<Subscription>, m: ModuleRec)
    requires ValidCatalog(c, rank) && m in c
  {
    Hereditary(c, rank, m).Success? &&
    forall i :: 0 <= i < |Hereditary(c, rank, m).value| ==>
      InSomeClosure(c, rank, subs, Hereditary(c, rank, m).value[i].identifier)
  }

  /** Later ledger entries never take a closure out of the current set. */
  lemma ClosureCurrentKept(c: Catalog, rank: map<ObjectId, nat>, ledger: seq<Subscription>, more: seq<Subscription>,
                           ws: ObjectId, isCurrent: Subscription -> bool, m: ModuleRec)
    requires ValidCatalog(c, rank) && m in c
    requires ClosureCurrent(c, rank, CurrentOf(ledger, ws, isCurrent), m)
    ensures ClosureCurrent(c, rank, CurrentOf(ledger + more, ws, isCurrent), m)
  {
    var p := (s: Subscription) => s.workspace == ws && isCurrent(s);
    Seqs.FilterAppend(ledger, more, p);
    var closure := Hereditary(c, rank, m).value;
    forall i | 0 <= i < |closure|
      ensures InSomeClosure(c, rank, CurrentOf(ledger + more, ws, isCurrent), closure[i].identifier)
    {
      InSomeClosurePrefix(c, rank, CurrentOf(ledger, ws, isCurrent), CurrentOf(more, ws, isCurrent), closure[i].identifier);
    }
  }

  /** The ledger's window filter admits every entry a grant with these arguments writes. */
  ghost predicate AdmitsFresh(ws: ObjectId, period: string, now: Instant, isCurrent: Subscription -> bool) {
    forall s :: FreshFor(s, ws, period, now) ==> isCurrent(s)
  }

  /** The first `k` requested modules are stored. */
  ghost predicate RequestsStored(c: Catalog, requested: seq<ObjectId>, k: nat)
    requires k <= |requested|
  {
    forall q :: 0 <= q < k ==> Find(c, requested[q]).Some?
  }

  /** The first `k` requested modules are stored and their closures are current under `subs`. */
  ghost predicate RequestsCurrent(c: Catalog, rank: map<ObjectId, nat>, subs: seq<Subscription>, requested: seq<ObjectId>, k: nat)
    requires ValidCatalog(c, rank) && k <= |requested|
  {
    forall q :: 0 <= q < k ==> Find(c, requested[q]).Some? && ClosureCurrent(c, rank, subs, Find(c, requested[q]).value)
  }

  /** Later ledger entries keep the requests handled so far current. */
  lemma RequestsCurrentKept(c: Catalog, rank: map<ObjectId, nat>, ledger: seq<Subscription>, more: seq<Subscription>,
                            ws: ObjectId, isCurrent: Subscription -> bool, requested: seq<ObjectId>, k: nat)
    requires ValidCatalog(c, rank) && k <= |requested|
    requires RequestsCurrent(c, rank, CurrentOf(ledger, ws, isCurrent), requested, k)
    ensures RequestsCurrent(c, rank, CurrentOf(ledger + more, ws, isCurrent), requested, k)
  {
    forall q | 0 <= q < k
      ensures ClosureCurrent(c, rank, CurrentOf(ledger + more, ws, isCurrent), Find(c, requested[q]).value)
    {
      ClosureCurrentKept(c, rank, ledger, more, ws, isCurrent, Find(c, requested[q]).value);
    }
  }

  /** A request whose closure became current joins those handled. */
  lemma RequestsCurrentExtend(c: Catalog, rank: map<ObjectId, nat>, subs: seq<Subscription>, requested: seq<ObjectId>, k: nat)
    requires ValidCatalog(c, rank) && k < |requested|
    requires RequestsCurrent(c, rank, subs, requested, k)
    requires Find(c, requested[k]).Some? && ClosureCurrent(c, rank, subs, Find(c, requested[k]).value)
    ensures RequestsCurrent(c, rank, subs, requested, k + 1)
  {
  }

  /** One request's entries appended to the ledger: the old ledger stays a prefix, every entry
      past it is fresh, and the handled requests stay current, joined by this one when it completed. */
  lemma AppendStep(c: Catalog, rank: map<ObjectId, nat>, ledger: seq<Subscription>, after: seq<Subscription>,
                   added: seq<Subscription>, ws: ObjectId, period: string, now: Instant, isCurrent: Subscription -> bool,
                   requested: seq<ObjectId>, k: nat, completed: bool)
    requires ValidCatalog(c, rank) && k < |requested|
    requires ledger <= after
    requires forall i :: |ledger| <= i < |after| ==> FreshFor(after[i], ws, period, now)
    requires forall i :: 0 <= i < |added| ==> FreshFor(added[i], ws, period, now)
    requires DependenciesStored(c) && AdmitsFresh(ws, period, now, isCurrent) ==>
      RequestsCurrent(c, rank, CurrentOf(after, ws, isCurrent), requested, k)
    requires RequestsStored(c, requested, k)
    requires completed ==> Find(c, requested[k]).Some?
    requires DependenciesStored(c) && AdmitsFresh(ws, period, now, isCurrent) && completed ==>
      ClosureCurrent(c, rank, CurrentOf(after + added, ws, isCurrent), Find(c, requested[k]).value)
    ensures ledger <= after + added
    ensures completed ==> RequestsStored(c, requested, k + 1)
    ensures forall i :: |ledger| <= i < |after + added| ==> FreshFor((after + added)[i], ws, period, now)
    ensures DependenciesStored(c) && AdmitsFresh(ws, period, now, isCurrent) ==>
      RequestsCurrent(c, rank, CurrentOf(after + added, ws, isCurrent), requested, k)
    ensures DependenciesStored(c) && AdmitsFresh(ws, period, now, isCurrent) && completed ==>
      RequestsCurrent(c, rank, CurrentOf(after + added, ws, isCurrent), requested, k + 1)
  {
    assert (after + added)[..|after|] == after;
    if DependenciesStored(c) && AdmitsFresh(ws, period, now, isCurrent) {
      RequestsCurrentKept(c, rank, after, added, ws, isCurrent, requested, k);
      if completed {
        RequestsCurrentExtend(c, rank, CurrentOf(after + added, ws, isCurrent), requested, k);
      }
    }
  }

  /** Why a `subscribe` batch stops. */
  datatype BatchError = RequestedMissing(id: ObjectId) | GrantFailed(cause: GrantError)

  /** What one request of the batch wrote, and whether it stopped the batch. */
  datatype Step = Step(added: seq<Subscription>, error: Option<BatchError>)

  /** One runner of the batch: `Doc.resolve(moduleId, Module)`, then the grant. `wsFound` says
      whether `Workspace.findById` found the workspace `ws`. */
  function GrantRequest(c: Catalog, rank: map<ObjectId, nat>, ledger: seq<Subscription>, ws: ObjectId, wsFound: bool, id: ObjectId,
                        period: string, now: Instant, isCurrent: Subscription -> bool,
                        registered: string -> Option<bool>, notifyOk: string -> bool): (r: Step)
    requires ValidCatalog(c, rank)
    ensures forall i :: 0 <= i < |r.added| ==> FreshFor(r.added[i], ws, period, now)
    ensures r.error.None? ==> Find(c, id).Some?
    ensures r.error.Some? && r.error.value.GrantFailed? ==> Find(c, id).Some?
    ensures r.error.Some? && r.error.value.RequestedMissing? ==> r.error.value.id == id && Find(c, id).None? && r.added == []
    ensures Find(c, id).None? ==> r.error == Some(RequestedMissing(id))
    ensures !wsFound ==> r.added == [] && r.error.Some?
    ensures !wsFound && Find(c, id).Some? && Hereditary(c, rank, Find(c, id).value).Success? ==>
      r.error == Some(GrantFailed(WorkspaceMissing))
    ensures DependenciesStored(c) && AdmitsFresh(ws, period, now, isCurrent) && r.error.None? ==>
      ClosureCurrent(c, rank, CurrentOf(ledger + r.added, ws, isCurrent), Find(c, id).value)
  {
    match Find(c, id)
    case None => Step([], Some(RequestedMissing(id)))
    case Some(m) =>
      var g := GrantClosure(c, rank, ledger, ws, wsFound, m, period, now, isCurrent, registered, notifyOk);
      assert DependenciesStored(c) && AdmitsFresh(ws, period, now, isCurrent) && g.error.None? ==>
        ClosureCurrent(c, rank, CurrentOf(ledger + g.added, ws, isCurrent), m) by {
        if DependenciesStored(c) && AdmitsFresh(ws, period, now, isCurrent) && g.error.None? {
          GrantMakesClosureCurrent(c, rank, ledger, ws, wsFound, m, period, now, isCurrent, registered, notifyOk);
        }
      }
      Step(g.added, if g.error.None? then None else Some(GrantFailed(g.error.value)))
  }

  /** The `subscribe` endpoint: the requested modules in request order, each granted against the
      ledger as the earlier grants left it. The first failure ends the batch; what was written
      stays. `done` is the number of requests handled in full. A workspace `findById` did not find
      (`wsFound` false) fails the first request once its module is resolved, before any write. */
  method Subscribe(c: Catalog, rank: map<ObjectId, nat>, ledger: seq<Subscription>, ws: ObjectId, wsFound: bool,
                   requested: seq<ObjectId>,
                   period: string, now: Instant, isCurrent: Subscription -> bool,
                   registered: string -> Option<bool>, notifyOk: string -> bool)
    returns (after: seq<Subscription>, err: Option<BatchError>, done: nat)
    requires ValidCatalog(c, rank)
    ensures ledger <= after
    ensures forall i :: |ledger| <= i < |after| ==> FreshFor(after[i], ws, period, now)
    ensures err.None? ==> done == |requested|
    ensures err.Some? ==> done < |requested|
    ensures err.Some? && err.value.RequestedMissing? ==>
      err.value.id == requested[done] && Find(c, requested[done]).None?
    ensures err.Some? && err.value.GrantFailed? ==> Find(c, requested[done]).Some?
    ensures RequestsStored(c, requested, done)
    ensures DependenciesStored(c) && AdmitsFresh(ws, period, now, isCurrent) ==>
      RequestsCurrent(c, rank, CurrentOf(after, ws, isCurrent), requested, done)
    ensures !wsFound ==> after == ledger && done == 0 && (err.None? <==> |requested| == 0)
    ensures !wsFound && |requested| > 0 && Find(c, requested[0]).Some? && Hereditary(c, rank, Find(c, requested[0]).value).Success? ==>
      err == Some(GrantFailed(WorkspaceMissing))
  {
    after := ledger;
    var k := 0;
    while k < |requested|
      invariant k <= |requested|
      invariant ledger <= after
      invariant forall i :: |ledger| <= i < |after| ==> FreshFor(after[i], ws, period, now)
      invariant RequestsStored(c, requested, k)
      invariant DependenciesStored(c) && AdmitsFresh(ws, period, now, isCurrent) ==>
        RequestsCurrent(c, rank, CurrentOf(after, ws, isCurrent), requested, k)
      invariant !wsFound ==> after == ledger && k == 0
    {
      var step := GrantRequest(c, rank, after, ws, wsFound, requested[k], period, now, isCurrent, registered, notifyOk);
      AppendStep(c, rank, ledger, after, step.added, ws, period, now, isCurrent, requested, k, step.error.None?);
      after := after + step.added;
      if step.error.Some? {
        return after, step.error, k;
      }
      k := k + 1;
    }
    return after, None, k;
  }
}

=== FILE: ledger.dfy ===
/** The subscription ledger and `Workspace.getCurrentModules` / `hasCurrentModule`:
    the deduplicated union of the dependency closures of a workspace's current
    module subscriptions. */
module Ledger {
  import opened Wrappers
  import opened Ids
  import Text
  import Seqs
  import opened Modules

  /** `validTill` as `add(now, { years, months, weeks })`; calendar arithmetic is kept symbolic. */
  datatype Till = Till(from: Instant, years: nat, months: nat, weeks: nat)

  /** One grant of a subscribable document to a workspace. `validTill` absent means "lifetime". */
  datatype Subscription = Subscription(
    workspace: ObjectId,
    subscribed: ObjectId,
    kind: string,
    validFrom: Instant,
    validTill: Option<Till>)

  /** `workspace.subscriptionsOfType('module', 'current')`: the workspace's subscriptions that
      `isCurrent` admits, in ledger order. `isCurrent` stands for the framework's whole selection,
      both the type match on `kind` (module subscriptions only) and the time window; the model does
      not read `kind` itself, so an `isCurrent` admitting another kind is outside the source's behaviour. */
  function CurrentOf(ledger: seq<Subscription>, ws: ObjectId, isCurrent: Subscription -> bool): (r: seq<Subscription>)
    ensures forall i :: 0 <= i < |r| ==> r[i].workspace == ws && isCurrent(r[i])
    ensures forall i :: 0 <= i < |ledger| && ledger[i].workspace == ws && isCurrent(ledger[i]) ==> ledger[i] in r
  {
    Seqs.Filter(ledger, (s: Subscription) => s.workspace == ws && isCurrent(s))
  }

  /** The identifiers of a list of modules. */
  ghost function IdentSet(ms: seq<ModuleRec>): set<string> {
    set i | 0 <= i < |ms| :: ms[i].identifier
  }

  /** Resolve the subscribed module, then `getHereditary()`. */
  function SubscribedClosure(c: Catalog, rank: map<ObjectId, nat>, s: Subscription): (r: Result<seq<ModuleRec>, LoadError>)
    requires ValidCatalog(c, rank)
    ensures r.Success? ==> forall i :: 0 <= i < |r.value| ==> r.value[i] in c
  {
    match Find(c, s.subscribed)
    case None => Failure(Unresolved(s.subscribed))
    case Some(m) => Hereditary(c, rank, m)
  }

  /** `x` is the identifier of a module in the closure of one of the subscriptions. */
  ghost predicate InSomeClosure(c: Catalog, rank: map<ObjectId, nat>, subs: seq<Subscription>, x: string)
    requires ValidCatalog(c, rank)
  {
    exists i :: 0 <= i < |subs| && SubscribedClosure(c, rank, subs[i]).Success? &&
      x in IdentSet(SubscribedClosure(c, rank, subs[i]).value)
  }

  ghost predicate AllClosuresResolve(c: Catalog, rank: map<ObjectId, nat>, subs: seq<Subscription>)
    requires ValidCatalog(c, rank)
  {
    forall i :: 0 <= i < |subs| ==> SubscribedClosure(c, rank, subs[i]).Success?
  }

  /** `modulesIds`: the closures' identifiers concatenated in subscription order, before deduplication. */
  function ClosureIdentifiers(c: Catalog, rank: map<ObjectId, nat>, subs: seq<Subscription>): (r: Result<seq<string>, LoadError>)
    requires ValidCatalog(c, rank)
    ensures r.Success? <==> AllClosuresResolve(c, rank, subs)
    ensures r.Success? ==> forall x :: x in r.value <==> InSomeClosure(c, rank, subs, x)
    ensures r.Success? ==> forall i :: 0 <= i < |r.value| ==> r.value[i] in IdentSet(c)
  {
    if |subs| == 0 then Success([])
    else
      var head := SubscribedClosure(c, rank, subs[0]);
      var tail := ClosureIdentifiers(c, rank, subs[1..]);
      assert forall i :: 1 <= i < |subs| ==> subs[i] == subs[1..][i - 1];
      if head.Failure? then Failure(head.error)
      else if tail.Failure? then Failure(tail.error)
      else
        var ids := Seqs.Map(head.value, (m: ModuleRec) => m.identifier);
        var r := ids + tail.value;
        assert forall x :: x in r <==> InSomeClosure(c, rank, subs, x) by {
        forall x ensures x in r <==> InSomeClosure(c, rank, subs, x) {
          if x in ids {
            var k :| 0 <= k < |ids| && ids[k] == x;
            assert x in IdentSet(head.value);
          }
          if x in IdentSet(head.value) {
            var k :| 0 <= k < |head.value| && head.value[k].identifier == x;
            assert ids[k] == x;
          }
          if InSomeClosure(c, rank, subs[1..], x) {
            var i :| 0 <= i < |subs[1..]| && SubscribedClosure(c, rank, subs[1..][i]).Success? &&
              x in IdentSet(SubscribedClosure(c, rank, subs[1..][i]).value);
            assert subs[1..][i] == subs[i + 1];
          }
          if InSomeClosure(c, rank, subs, x) && x !in IdentSet(head.value) {
            var i :| 0 <= i < |subs| && SubscribedClosure(c, rank, subs[i]).Success? &&
              x in IdentSet(SubscribedClosure(c, rank, subs[i]).value);
            assert i > 0;
            assert InSomeClosure(c, rank, subs[1..], x);
          }
        }
        }
        assert forall i :: 0 <= i < |ids| ==> ids[i] in IdentSet(c) by {
          forall i | 0 <= i < |ids| ensures ids[i] in IdentSet(c) {
            var k :| 0 <= k < |c| && c[k] == head.value[i];
          }
        }
        Success(r)
  }

  lemma DedupSameMembers(ids: seq<string>)
    ensures forall x :: x in Seqs.Dedup(ids) <==> x in ids
  {
    var u := Seqs.Dedup(ids);
    forall x | x in u ensures x in ids {
      var j :| 0 <= j < |u| && u[j] == x;
    }
    forall x | x in ids ensures x in u {
      var j :| 0 <= j < |ids| && ids[j] == x;
    }
  }

  /** The modules of `c` whose identifier is listed in `ids`. */
  function WithIdentifierIn(c: Catalog, ids: seq<string>): (r: seq<ModuleRec>)
    ensures Seqs.Subseq(r, c)
    ensures forall i :: 0 <= i < |r| ==> r[i].identifier in ids
    ensures forall i :: 0 <= i < |c| && c[i].identifier in ids ==> c[i] in r
  {
    Seqs.Filter(c, (m: ModuleRec) => m.identifier in ids)
  }

  lemma WithIdentifierInCovers(c: Catalog, ids: seq<string>)
    requires forall i :: 0 <= i < |ids| ==> ids[i] in IdentSet(c)
    ensures forall x :: x in IdentSet(WithIdentifierIn(c, ids)) <==> x in ids
  {
    var r := WithIdentifierIn(c, ids);
    forall x | x in IdentSet(r) ensures x in ids {
      var k :| 0 <= k < |r| && r[k].identifier == x;
    }
    forall x | x in ids ensures x in IdentSet(r) {
      var j :| 0 <= j < |ids| && ids[j] == x;
      var k :| 0 <= k < |c| && c[k].identifier == x;
      var t :| 0 <= t < |r| && r[t] == c[k];
      assert r[t].identifier == x;
    }
  }

  /** `Module.find({ identifier: { $in: uniq(ids) } })`: the stored modules whose identifier is listed, in collection order. */
  function SelectByIdentifier(c: Catalog, ids: seq<string>): (r: seq<ModuleRec>)
    requires forall i :: 0 <= i < |ids| ==> ids[i] in IdentSet(c)
    ensures Seqs.Subseq(r, c)
    ensures forall x :: x in IdentSet(r) <==> x in ids
    ensures forall i :: 0 <= i < |c| && c[i].identifier in ids ==> c[i] in r
  {
    var unique := Seqs.Dedup(ids);
    DedupSameMembers(ids);
    assert forall i :: 0 <= i < |unique| ==> unique[i] in IdentSet(c);
    WithIdentifierInCovers(c, unique);
    WithIdentifierIn(c, unique)
  }

  /** `workspace.getCurrentModules()`: the stored modules whose identifier belongs to the
      closure of some current subscription, each once, in collection order. */
  function CurrentModules(c: Catalog, rank: map<ObjectId, nat>, subs: seq<Subscription>): (r: Result<seq<ModuleRec>, LoadError>)
    requires ValidCatalog(c, rank)
    ensures r.Success? <==> AllClosuresResolve(c, rank, subs)
    ensures r.Success? ==> Seqs.Subseq(r.value, c)
    ensures r.Success? ==> forall x :: x in IdentSet(r.value) <==> InSomeClosure(c, rank, subs, x)
    ensures r.Success? ==> forall i :: 0 <= i < |c| && InSomeClosure(c, rank, subs, c[i].identifier) ==> c[i] in r.value
  {
    var ids := ClosureIdentifiers(c, rank, subs);
    if ids.Failure? then Failure(ids.error)
    else Success(SelectByIdentifier(c, ids.value))
  }

  /** Some module of `ms` has `identifier` up to case. */
  predicate AnyIdentifierMatches(ms: seq<ModuleRec>, identifier: string) {
    exists i :: 0 <= i < |ms| && Text.Lower(ms[i].identifier) == Text.Lower(identifier)
  }

  lemma AnyIdentifierMatchesSet(ms: seq<ModuleRec>, identifier: string)
    ensures AnyIdentifierMatches(ms, identifier) <==> exists x :: x in IdentSet(ms) && Text.Lower(x) == Text.Lower(identifier)
  {
    if AnyIdentifierMatches(ms, identifier) {
      var i :| 0 <= i < |ms| && Text.Lower(ms[i].identifier) == Text.Lower(identifier);
      assert ms[i].identifier in IdentSet(ms);
    }
  }

  /** `workspace.hasCurrentModule(identifier)`: some closure holds a module whose identifier
      equals `identifier` up to case. */
  function HasCurrentModule(c: Catalog, rank: map<ObjectId, nat>, subs: seq<Subscription>, identifier: string): (r: Result<bool, LoadError>)
    requires ValidCatalog(c, rank)
    ensures r.Success? <==> AllClosuresResolve(c, rank, subs)
    ensures r.Success? ==>
      (r.value <==> exists x :: InSomeClosure(c, rank, subs, x) && Text.Lower(x) == Text.Lower(identifier))
  {
    var current := CurrentModules(c, rank, subs);
    if current.Failure? then Failure(current.error)
    else
      AnyIdentifierMatchesSet(current.value, identifier);
      Success(AnyIdentifierMatches(current.value, identifier))
  }
}

=== FILE: lifecycle.dfy ===
/** The `inject('preSave') -> save() -> inject('postSave')` protocol shared by
    `Module.createOrUpdate` and the workspace settings update. A failing hook
    rejects the surrounding `await`, so nothing after it runs. */
module Lifecycle {

  datatype Step = PreSave | Save | PostSave

  /** What ran, and whether the whole sequence completed. */
  datatype SaveRun = SaveRun(steps: seq<Step>, completed: bool)

  /** The steps executed when the pre-save hooks succeed (`preOk`) or reject, when `save()` writes
      the document (`saveOk`) or refuses it, and likewise for the post-save hooks. */
  function RunSave(preOk: bool, saveOk: bool, postOk: bool): (r: SaveRun)
    ensures |r.steps| >= 1 && r.steps[0] == PreSave
    ensures Save in r.steps <==> preOk
    ensures PostSave in r.steps <==> preOk && saveOk
    ensures preOk ==> r.steps[1] == Save
    ensures preOk && saveOk ==> r.steps[2] == PostSave
    ensures r.completed <==> preOk && saveOk && postOk
    ensures forall i, j :: 0 <= i < j < |r.steps| ==> r.steps[i] != r.steps[j]
  {
    if !preOk then SaveRun([PreSave], false)
    else if !saveOk then SaveRun([PreSave, Save], false)
    else SaveRun([PreSave, Save, PostSave], postOk)
  }
}

=== FILE: listing.dfy ===
/** The list endpoints: the search each one runs, the `total` it reports, and the
    `skip(page * perPage).limit(perPage)` paging they share. The collection handed to a
    listing is already in the requested sort order. */
module Listing {
  import opened Wrappers
  import opened Ids
  import Text
  import Seqs
  import opened Modules
  import opened Workspaces

  /** `args.perPage || 25`: an absent or zero page size means 25. */
  function PerPage(perPage: Option<int>): (r: int)
    ensures r != 0
    ensures perPage.Some? && perPage.value != 0 ==> r == perPage.value
  {
    if perPage.Some? && perPage.value != 0 then perPage.value else 25
  }

  /** `args.sort ? args.sort : "-createdAt"`: newest first unless a sort is given. */
  function SortKey(sort: Option<string>): (r: string)
    ensures Text.Truthy(r)
    ensures sort.Some? && Text.Truthy(sort.value) ==> r == sort.value
  {
    if sort.Some? && Text.Truthy(sort.value) then sort.value else "-createdAt"
  }

  /** At most `take` elements of `s` starting at `skip`. */
  function Window<T>(s: seq<T>, skip: nat, take: nat): (r: seq<T>)
    ensures |r| == if skip >= |s| then 0 else if take < |s| - skip then take else |s| - skip
    ensures forall i :: 0 <= i < |r| ==> r[i] == s[skip + i]
  {
    if skip >= |s| then []
    else if take < |s| - skip then s[skip..skip + take]
    else s[skip..]
  }

  /** The store refuses a negative skip. */
  datatype PageError = NegativeSkip(skip: int)

  /** Paging as the store applies it. Only `page > -1` pages; the skip is `page * perPage`,
      and a negative limit returns as many documents as its absolute value. */
  function Page<T>(s: seq<T>, page: Option<int>, perPage: Option<int>): (r: Result<seq<T>, PageError>)
    ensures page.None? || page.value <= -1 ==> r == Success(s)
    ensures page.Some? && page.value > -1 ==> (r.Failure? <==> page.value * PerPage(perPage) < 0)
    ensures r.Success? ==> |r.value| <= |s|
    ensures r.Success? && page.Some? && page.value > -1 ==>
      forall i :: 0 <= i < |r.value| ==>
        page.value * PerPage(perPage) + i < |s| && r.value[i] == s[page.value * PerPage(perPage) + i]
    ensures r.Success? && page.Some? && page.value > -1 && PerPage(perPage) > 0 ==> |r.value| <= PerPage(perPage)
  {
    if page.None? || page.value <= -1 then Success(s)
    else
      var pp := PerPage(perPage);
      var skip := page.value * pp;
      if skip < 0 then Failure(NegativeSkip(skip))
      else Success(Window(s, skip, if pp < 0 then -pp else pp))
  }

  /** Adjacent windows join into one. */
  lemma WindowAppend<T>(s: seq<T>, a: nat, m: nat, n: nat)
    ensures Window(s, a, m) + Window(s, a + m, n) == Window(s, a, m + n)
  {
    var l, r, w := Window(s, a, m), Window(s, a + m, n), Window(s, a, m + n);
    assert |l + r| == |w|;
    forall i | 0 <= i < |w| ensures (l + r)[i] == w[i] {
      if i < |l| {
        assert (l + r)[i] == l[i];
      } else {
        assert (l + r)[i] == r[i - |l|];
      }
    }
  }

  /** Pages `0 .. n-1` of size `pp`, one after another. */
  function PagesUpTo<T>(s: seq<T>, pp: int, n: nat): seq<T>
    requires pp > 0
  {
    if n == 0 then []
    else PagesUpTo(s, pp, n - 1) + Page(s, Some(n - 1), Some(pp)).value
  }

  /** Consecutive pages join into the front of the list: no element is skipped or repeated. */
  lemma {:induction false} PagesUpToPrefix<T>(s: seq<T>, pp: int, n: nat)
    requires pp > 0
    ensures PagesUpTo(s, pp, n) == Window(s, 0, n * pp)
  {
    if n > 0 {
      PagesUpToPrefix(s, pp, n - 1);
      var before := (n - 1) * pp;
      assert before >= 0;
      assert Page(s, Some(n - 1), Some(pp)).value == Window(s, before, pp);
      WindowAppend(s, 0, before, pp);
      assert before + pp == n * pp;
    }
  }

  /** Enough pages give back the whole list. */
  lemma PagesCoverList<T>(s: seq<T>, pp: int, n: nat)
    requires pp > 0 && n * pp >= |s|
    ensures PagesUpTo(s, pp, n) == s
  {
    PagesUpToPrefix(s, pp, n);
    if |s| > 0 {
      assert Window(s, 0, n * pp) == s[0..];
    }
  }

  /** A list response: one page of the matching documents, and how many match in all. */
  datatype Listing<T> = Listing(data: seq<T>, total: nat)

  /** `total = await find(search).count()` next to the paged query. */
  function List<T>(matching: seq<T>, page: Option<int>, perPage: Option<int>): (r: Result<Listing<T>, PageError>)
    ensures r.Success? <==> Page(matching, page, perPage).Success?
    ensures r.Success? ==> r.value.data == Page(matching, page, perPage).value && r.value.total == |matching|
  {
    match Page(matching, page, perPage)
    case Failure(e) => Failure(e)
    case Success(data) => Success(Listing(data, |matching|))
  }

  /** `total` does not depend on paging: it is the length of the unpaged list. */
  lemma TotalIgnoresPaging<T>(matching: seq<T>, page: Option<int>, perPage: Option<int>)
    requires List(matching, page, perPage).Success?
    ensures List(matching, page, perPage).value.total == |List(matching, None, perPage).value.data|
  {
  }

  /** The query of the module list. Absent flags read as false; `categories` is `None` when
      the parameter is absent or empty, and an (even empty) id list otherwise. */
  datatype ModuleQuery = ModuleQuery(
    includeMicros: bool,
    includeInMaintenance: bool,
    categories: Option<seq<ObjectId>>,
    page: Option<int>,
    perPage: Option<int>)

  /** The list search: `micro: { $ne: true }` unless micro modules are asked for, likewise
      `maintenance`, and `categories: { $in: ... }` when categories are given. */
  predicate ModuleListed(q: ModuleQuery, m: ModuleRec) {
    (q.includeMicros || m.micro != Some(true)) &&
    (q.includeInMaintenance || m.maintenance != Some(true)) &&
    (q.categories.None? || exists i :: 0 <= i < |m.categories| && m.categories[i] in q.categories.value)
  }

  /** `ModulesController.list`. */
  function ListModules(c: Catalog, q: ModuleQuery): (r: Result<Listing<ModuleRec>, PageError>)
    ensures r.Success? ==> forall i :: 0 <= i < |r.value.data| ==> r.value.data[i] in c && ModuleListed(q, r.value.data[i])
    ensures r.Success? ==> r.value.total <= |c|
  {
    var matching := Seqs.Filter(c, (m: ModuleRec) => ModuleListed(q, m));
    Seqs.SubseqMembers(matching, c);
    List(matching, q.page, q.perPage)
  }

  /** Without paging, the module list holds exactly the stored modules the search admits, and `total` counts them. */
  lemma UnpagedModuleList(c: Catalog, q: ModuleQuery)
    requires q.page.None?
    ensures ListModules(c, q).Success?
    ensures forall m :: m in ListModules(c, q).value.data <==> m in c && ModuleListed(q, m)
    ensures ListModules(c, q).value.total == |ListModules(c, q).value.data|
  {
    var matching := Seqs.Filter(c, (m: ModuleRec) => ModuleListed(q, m));
    Seqs.SubseqMembers(matching, c);
    forall m | m in c && ModuleListed(q, m) ensures m in matching {
      var i :| 0 <= i < |c| && c[i] == m;
    }
  }

  /** A paged module list is the unpaged one, paged: the search does not depend on the page. */
  lemma PagedModuleList(c: Catalog, q: ModuleQuery)
    ensures ListModules(c, q.(page := None)).Success?
    ensures ListModules(c, q) == List(ListModules(c, q.(page := None)).value.data, q.page, q.perPage)
  {
    var all := q.(page := None);
    var matching := Seqs.Filter(c, (m: ModuleRec) => ModuleListed(q, m));
    Seqs.FilterExt(c, (m: ModuleRec) => ModuleListed(q, m), (m: ModuleRec) => ModuleListed(all, m));
    assert ListModules(c, all) == List(matching, None, q.perPage);
    assert ListModules(c, all).value.data == matching;
  }

  /** By default neither micro nor in-maintenance modules are listed. */
  lemma DefaultModuleListHidesMicroAndMaintenance(c: Catalog, page: Option<int>, perPage: Option<int>)
    requires ListModules(c, ModuleQuery(false, false, None, page, perPage)).Success?
    ensures var data := ListModules(c, ModuleQuery(false, false, None, page, perPage)).value.data;
      forall i :: 0 <= i < |data| ==> data[i].micro != Some(true) && data[i].maintenance != Some(true)
  {
  }

  /** An empty category list is still given (an array is truthy), and `$in: []` matches nothing. */
  lemma EmptyCategoriesListNothing(c: Catalog, micros: bool, maintenance: bool, page: Option<int>, perPage: Option<int>)
    requires ListModules(c, ModuleQuery(micros, maintenance, Some([]), page, perPage)).Success?
    ensures ListModules(c, ModuleQuery(micros, maintenance, Some([]), page, perPage)) == Success(Listing([], 0))
  {
    var q := ModuleQuery(micros, maintenance, Some([]), page, perPage);
    var matching := Seqs.Filter(c, (m: ModuleRec) => ModuleListed(q, m));
    assert |matching| == 0;
  }

  /** `WorkspacesController.list`: every workspace except `admin`. */
  function ListWorkspaces(wss: seq<WorkspaceRec>, page: Option<int>, perPage: Option<int>): (r: Result<Listing<WorkspaceRec>, PageError>)
    ensures r.Success? ==> forall i :: 0 <= i < |r.value.data| ==> r.value.data[i] in wss && r.value.data[i].identifier != "admin"
  {
    var matching := Seqs.Filter(wss, (w: WorkspaceRec) => w.identifier != "admin");
    Seqs.SubseqMembers(matching, wss);
    List(matching, page, perPage)
  }

  /** Without paging, every workspace but `admin` is listed. */
  lemma UnpagedWorkspaceList(wss: seq<WorkspaceRec>)
    ensures ListWorkspaces(wss, None, None).Success?
    ensures forall w :: w in ListWorkspaces(wss, None, None).value.data <==> w in wss && w.identifier != "admin"
  {
    var matching := Seqs.Filter(wss, (w: WorkspaceRec) => w.identifier != "admin");
    Seqs.SubseqMembers(matching, wss);
    forall w | w in wss && w.identifier != "admin" ensures w in matching {
      var i :| 0 <= i < |wss| && wss[i] == w;
    }
  }

  /** A paged workspace list is the unpaged one, paged. */
  lemma PagedWorkspaceList(wss: seq<WorkspaceRec>, page: Option<int>, perPage: Option<int>)
    ensures ListWorkspaces(wss, None, perPage).Success?
    ensures ListWorkspaces(wss, page, perPage) == List(ListWorkspaces(wss, None, perPage).value.data, page, perPage)
  {
  }

  /** `WorkspaceController.modules`: the stored modules among the workspace's current modules,
      restricted to those with a permission when `whereHasPermissions` is set. The flag is the
      truthiness of the raw query value: any non-empty string turns the filter on, `"false"`
      and `"0"` included. */
  function WorkspaceModules(c: Catalog, current: seq<ModuleRec>, whereHasPermissions: bool,
                            page: Option<int>, perPage: Option<int>): (r: Result<Listing<ModuleRec>, PageError>)
    ensures r.Success? ==> forall i :: 0 <= i < |r.value.data| ==>
      r.value.data[i] in c && r.value.data[i].id in IdSet(current) &&
      (whereHasPermissions ==> |r.value.data[i].permissions| > 0)
  {
    var ids := Seqs.Map(current, (m: ModuleRec) => m.id);
    var matching := Seqs.Filter(c, (m: ModuleRec) => m.id in ids && (whereHasPermissions ==> |m.permissions| > 0));
    Seqs.SubseqMembers(matching, c);
    assert forall i :: 0 <= i < |matching| ==> matching[i].id in IdSet(current) by {
      forall i | 0 <= i < |matching| ensures matching[i].id in IdSet(current) {
        var k :| 0 <= k < |ids| && ids[k] == matching[i].id;
      }
    }
    List(matching, page, perPage)
  }

  /** Without paging, a current module is listed unless the permission filter drops it. */
  lemma UnpagedWorkspaceModules(c: Catalog, current: seq<ModuleRec>, whereHasPermissions: bool, m: ModuleRec)
    requires m in c && m.id in IdSet(current)
    ensures WorkspaceModules(c, current, whereHasPermissions, None, None).Success?
    ensures m in WorkspaceModules(c, current, whereHasPermissions, None, None).value.data <==>
      (whereHasPermissions ==> |m.permissions| > 0)
  {
    var ids := Seqs.Map(current, (x: ModuleRec) => x.id);
    var k :| 0 <= k < |current| && current[k].id == m.id;
    assert ids[k] == m.id;
    var i :| 0 <= i < |c| && c[i] == m;
  }

  /** A paged list of a workspace's modules is the unpaged one, paged. */
  lemma PagedWorkspaceModules(c: Catalog, current: seq<ModuleRec>, whereHasPermissions: bool,
                              page: Option<int>, perPage: Option<int>)
    ensures WorkspaceModules(c, current, whereHasPermissions, None, perPage).Success?
    ensures WorkspaceModules(c, current, whereHasPermissions, page, perPage) ==
      List(WorkspaceModules(c, current, whereHasPermissions, None, perPage).value.data, page, perPage)
  {
  }

  /** `AuthenticatedController.workspaces`: the workspaces the user is a member of, each paired
      with the user's membership in it. */
  function UserWorkspaces(wss: seq<WorkspaceRec>, ms: seq<MembershipRec>, user: ObjectId,
                          page: Option<int>, perPage: Option<int>): (r: Result<Listing<(WorkspaceRec, Option<MembershipRec>)>, PageError>)
    ensures r.Success? ==> forall i :: 0 <= i < |r.value.data| ==>
      r.value.data[i].0 in wss && r.value.data[i].1 == MembershipOf(ms, r.value.data[i].0.id, user)
  {
    var mine := Seqs.Map(MembershipsOfUser(ms, user), (m: MembershipRec) => m.workspace);
    var matching := Seqs.Filter(wss, (w: WorkspaceRec) => w.id in mine);
    Seqs.SubseqMembers(matching, wss);
    match List(matching, page, perPage)
    case Failure(e) => Failure(e)
    case Success(l) =>
      Success(Listing(Seqs.Map(l.data, (w: WorkspaceRec) => (w, MembershipOf(ms, w.id, user))), l.total))
  }

  /** Every listed workspace comes with the user's membership in it: none is listed without one. */
  lemma UserWorkspacesHaveMemberships(wss: seq<WorkspaceRec>, ms: seq<MembershipRec>, user: ObjectId,
                                      page: Option<int>, perPage: Option<int>)
    requires UserWorkspaces(wss, ms, user, page, perPage).Success?
    ensures var data := UserWorkspaces(wss, ms, user, page, perPage).value.data;
      forall i :: 0 <= i < |data| ==> data[i].1.Some? && data[i].1.value.user == user && data[i].1.value.workspace == data[i].0.id
  {
    var mine := Seqs.Map(MembershipsOfUser(ms, user), (m: MembershipRec) => m.workspace);
    var matching := Seqs.Filter(wss, (w: WorkspaceRec) => w.id in mine);
    var paged := Page(matching, page, perPage).value;
    var data := UserWorkspaces(wss, ms, user, page, perPage).value.data;
    forall i | 0 <= i < |data| ensures data[i].1.Some? {
      assert data[i] == (paged[i], MembershipOf(ms, paged[i].id, user));
      PagedFromList(matching, page, perPage, i);
      assert paged[i].id in mine;
      MemberOfListedWorkspace(ms, user, paged[i].id);
    }
  }

  /** A paged list of the user's workspaces is the unpaged one, paged. */
  lemma PagedUserWorkspaces(wss: seq<WorkspaceRec>, ms: seq<MembershipRec>, user: ObjectId,
                            page: Option<int>, perPage: Option<int>)
    ensures UserWorkspaces(wss, ms, user, None, perPage).Success?
    ensures UserWorkspaces(wss, ms, user, page, perPage) ==
      List(UserWorkspaces(wss, ms, user, None, perPage).value.data, page, perPage)
  {
    var mine := Seqs.Map(MembershipsOfUser(ms, user), (m: MembershipRec) => m.workspace);
    var matching := Seqs.Filter(wss, (w: WorkspaceRec) => w.id in mine);
    var pair := (w: WorkspaceRec) => (w, MembershipOf(ms, w.id, user));
    assert UserWorkspaces(wss, ms, user, None, perPage).value.data == Seqs.Map(matching, pair);
    PageMap(matching, pair, page, perPage);
  }

  /** Paging commutes with a per-element map. */
  lemma PageMap<T, U>(s: seq<T>, f: T -> U, page: Option<int>, perPage: Option<int>)
    ensures Page(Seqs.Map(s, f), page, perPage).Success? <==> Page(s, page, perPage).Success?
    ensures Page(s, page, perPage).Success? ==>
      Page(Seqs.Map(s, f), page, perPage).value == Seqs.Map(Page(s, page, perPage).value, f)
  {
    if page.Some? && page.value > -1 && Page(s, page, perPage).Success? {
      var pp := PerPage(perPage);
      var skip := page.value * pp;
      var take := if pp < 0 then -pp else pp;
      var l, r := Window(Seqs.Map(s, f), skip, take), Seqs.Map(Window(s, skip, take), f);
      assert |l| == |r|;
      forall i | 0 <= i < |l| ensures l[i] == r[i] {
      }
    }
  }

  /** Each element of a page is an element of the list. */
  lemma PagedFromList<T>(s: seq<T>, page: Option<int>, perPage: Option<int>, i: nat)
    requires Page(s, page, perPage).Success? && i < |Page(s, page, perPage).value|
    ensures Page(s, page, perPage).value[i] in s
  {
    if page.Some? && page.value > -1 {
      assert Page(s, page, perPage).value[i] == s[page.value * PerPage(perPage) + i];
    }
  }

  /** A workspace named by one of the user's memberships has a membership of the user. */
  lemma MemberOfListedWorkspace(ms: seq<MembershipRec>, user: ObjectId, ws: ObjectId)
    requires ws in Seqs.Map(MembershipsOfUser(ms, user), (m: MembershipRec) => m.workspace)
    ensures MembershipOf(ms, ws, user).Some?
  {
    var mine := MembershipsOfUser(ms, user);
    var names := Seqs.Map(mine, (m: MembershipRec) => m.workspace);
    var k :| 0 <= k < |names| && names[k] == ws;
    Seqs.SubseqMembers(mine, ms);
    assert mine[k] in mine;
    var l :| 0 <= l < |ms| && ms[l] == mine[k];
  }
}

=== FILE: modules.dfy ===
/** Module documents (`core:modules`), the dependency closure `getHereditary`,
    and the field-assignment rules of `Module.createOrUpdate`. */
module Modules {
  import opened Wrappers
  import opened Ids
  import Text
  import Seqs
  import Lifecycle

  /** A localized text map such as `{ 'fa-IR': 'Accounting' }`. */
  type Localized = map<string, string>

  function FaIR(v: string): Localized {
    map["fa-IR" := v]
  }

  /** One stored module document. */
  datatype ModuleRec = ModuleRec(
    id: ObjectId,
    identifier: string,
    name: Option<Localized>,
    description: Option<Localized>,
    readme: Option<Localized>,
    /** `monthlyCost` as `{ IRR: amount }`, absent once cleared. */
    monthlyCost: Option<int>,
    micro: Option<bool>,
    maintenance: Option<bool>,
    hourlyCostFactorPercent: Option<int>,
    trimesterlyDiscount: Option<int>,
    semiannuallyDiscount: Option<int>,
    annuallyDiscount: Option<int>,
    dependencies: seq<ObjectId>,
    categories: seq<ObjectId>,
    permissions: seq<ObjectId>,
    defaultTabBarPins: seq<string>,
    defaultHomePath: Option<string>,
    createdAt: Instant)

  /** The module collection in its natural (insertion) order. */
  type Catalog = seq<ModuleRec>

  /** `Doc.resolve(id, Module)`: the document with that id, if stored. */
  function Find(c: Catalog, id: ObjectId): (r: Option<ModuleRec>)
    ensures r.Some? ==> r.value in c && r.value.id == id
    ensures r.None? <==> forall i :: 0 <= i < |c| ==> c[i].id != id
  {
    if |c| == 0 then None
    else if c[0].id == id then Some(c[0])
    else Find(c[1..], id)
  }

  /** `_id` is unique within a collection. */
  ghost predicate UniqueIds(c: Catalog) {
    forall i, j :: 0 <= i < |c| && 0 <= j < |c| && c[i].id == c[j].id ==> i == j
  }

  /** `rank` strictly decreases along every dependency edge: the dependency graph is acyclic.
      The source performs no cycle check, so termination of `getHereditary` rests on this. */
  ghost predicate Ranked(c: Catalog, rank: map<ObjectId, nat>) {
    forall i :: 0 <= i < |c| ==>
      c[i].id in rank &&
      forall d :: d in c[i].dependencies ==> d in rank && rank[d] < rank[c[i].id]
  }

  ghost predicate ValidCatalog(c: Catalog, rank: map<ObjectId, nat>) {
    UniqueIds(c) && Ranked(c, rank)
  }

  lemma FindStored(c: Catalog, m: ModuleRec)
    requires UniqueIds(c) && m in c
    ensures Find(c, m.id) == Some(m)
  {
    var i :| 0 <= i < |c| && c[i] == m;
    var f := Find(c, m.id).value;
    var j :| 0 <= j < |c| && c[j] == f;
  }

  /** Failures of the resolution steps the engine takes. */
  datatype LoadError = Unresolved(id: ObjectId)

  /** Every dependency named in the catalog is stored in it. */
  ghost predicate DependenciesStored(c: Catalog) {
    forall i, d :: 0 <= i < |c| && d in c[i].dependencies ==> Find(c, d).Some?
  }

  /** The ids of a list of modules. */
  ghost function IdSet(ms: seq<ModuleRec>): set<ObjectId> {
    set i | 0 <= i < |ms| :: ms[i].id
  }

  /** Every dependency of a listed module is itself listed. */
  ghost predicate DependencyClosed(ms: seq<ModuleRec>) {
    forall i, d :: 0 <= i < |ms| && d in ms[i].dependencies ==> d in IdSet(ms)
  }

  /** Two stored, dependency-closed lists concatenate to one, whose ids are both lists' ids. */
  lemma StoredClosedAppend(c: Catalog, a: seq<ModuleRec>, b: seq<ModuleRec>)
    requires forall i :: 0 <= i < |a| ==> a[i] in c
    requires forall i :: 0 <= i < |b| ==> b[i] in c
    requires DependencyClosed(a) && DependencyClosed(b)
    ensures forall i :: 0 <= i < |a + b| ==> (a + b)[i] in c
    ensures IdSet(a + b) == IdSet(a) + IdSet(b)
    ensures DependencyClosed(a + b)
  {
    IdSetAppend(a, b);
    assert forall i :: 0 <= i < |a| ==> (a + b)[i] == a[i];
    assert forall i :: |a| <= i < |a + b| ==> (a + b)[i] == b[i - |a|];
  }

  lemma IdSetAppend(a: seq<ModuleRec>, b: seq<ModuleRec>)
    ensures IdSet(a + b) == IdSet(a) + IdSet(b)
  {
    forall x | x in IdSet(a + b) ensures x in IdSet(a) + IdSet(b) {
      var i :| 0 <= i < |a + b| && (a + b)[i].id == x;
      if i >= |a| { assert b[i - |a|].id == x; }
    }
    forall x | x in IdSet(b) ensures x in IdSet(a + b) {
      var i :| 0 <= i < |b| && b[i].id == x;
      assert (a + b)[i + |a|].id == x;
    }
    forall x | x in IdSet(a) ensures x in IdSet(a + b) {
      var i :| 0 <= i < |a| && a[i].id == x;
      assert (a + b)[i].id == x;
    }
  }

  /** `module.getHereditary()`: the module followed by the closures of its dependencies.
      The source appends each dependency's closure as its promise settles; the model
      fixes the declaration order, and every property below is order-independent. */
  function Hereditary(c: Catalog, rank: map<ObjectId, nat>, m: ModuleRec): (r: Result<seq<ModuleRec>, LoadError>)
    requires ValidCatalog(c, rank) && m in c
    ensures r.Success? ==> |r.value| >= 1 && r.value[0] == m
    ensures r.Success? ==> forall i :: 0 <= i < |r.value| ==> r.value[i] in c
    ensures r.Success? ==> DependencyClosed(r.value)
    ensures r.Success? ==> forall d :: d in m.dependencies ==> d in IdSet(r.value)
    ensures r.Failure? ==> Find(c, r.error.id).None?
    ensures DependenciesStored(c) ==> r.Success?
    ensures |m.dependencies| == 0 ==> r == Success([m])
    decreases rank[m.id], 1, 0
  {
    var deps := HereditaryOfAll(c, rank, m.dependencies, rank[m.id]);
    if deps.Failure? then Failure(deps.error)
    else
      var v := [m] + deps.value;
      IdSetAppend([m], deps.value);
      assert [m][0].id == m.id;
      assert IdSet([m]) == {m.id};
      assert forall i :: 1 <= i < |v| ==> v[i] == deps.value[i - 1];
      assert |m.dependencies| == 0 ==> v == [m];
      Success(v)
  }

  /** The concatenated closures of a list of dependency ids, each strictly below `bound` in rank. */
  function HereditaryOfAll(c: Catalog, rank: map<ObjectId, nat>, deps: seq<ObjectId>, bound: nat): (r: Result<seq<ModuleRec>, LoadError>)
    requires ValidCatalog(c, rank)
    requires forall d :: d in deps ==> d in rank && rank[d] < bound
    ensures r.Success? ==> forall i :: 0 <= i < |r.value| ==> r.value[i] in c
    ensures r.Success? ==> DependencyClosed(r.value)
    ensures r.Success? ==> forall d :: d in deps ==> d in IdSet(r.value)
    ensures r.Failure? ==> Find(c, r.error.id).None?
    ensures DependenciesStored(c) && (forall d :: d in deps ==> Find(c, d).Some?) ==> r.Success?
    ensures |deps| == 0 ==> r == Success([])
    decreases bound, 0, |deps|
  {
    if |deps| == 0 then Success([])
    else
      var found := Find(c, deps[0]);
      if found.None? then Failure(Unresolved(deps[0]))
      else
        var dm := found.value;
        var i :| 0 <= i < |c| && c[i] == dm;
        assert DependenciesStored(c) ==> forall d :: d in dm.dependencies ==> Find(c, d).Some?;
        var head := Hereditary(c, rank, dm);
        if head.Failure? then Failure(head.error)
        else
          var tail := HereditaryOfAll(c, rank, deps[1..], bound);
          if tail.Failure? then Failure(tail.error)
          else
            var v := head.value + tail.value;
            StoredClosedAppend(c, head.value, tail.value);
            assert forall d :: d in deps ==> d == deps[0] || d in deps[1..];
            Success(v)
  }

  /** Ids of the dependencies of the stored module with id `x`, if any. */
  ghost predicate ClosedUnder(c: Catalog, s: set<ObjectId>) {
    forall x, d :: x in s && Find(c, x).Some? && d in Find(c, x).value.dependencies ==> d in s
  }

  /** The closure is the least set containing the module and closed under dependency edges:
      nothing outside what is reachable is ever added. */
  lemma {:induction false} HereditaryIsLeast(c: Catalog, rank: map<ObjectId, nat>, m: ModuleRec, s: set<ObjectId>)
    requires ValidCatalog(c, rank) && m in c
    requires m.id in s && ClosedUnder(c, s)
    requires Hereditary(c, rank, m).Success?
    ensures IdSet(Hereditary(c, rank, m).value) <= s
    decreases rank[m.id], 1, 0
  {
    FindStored(c, m);
    var deps := HereditaryOfAll(c, rank, m.dependencies, rank[m.id]);
    HereditaryOfAllIsLeast(c, rank, m.dependencies, rank[m.id], s);
    IdSetAppend([m], deps.value);
    assert [m][0].id == m.id;
    assert IdSet([m]) == {m.id};
  }

  lemma {:induction false} HereditaryOfAllIsLeast(c: Catalog, rank: map<ObjectId, nat>, deps: seq<ObjectId>, bound: nat, s: set<ObjectId>)
    requires ValidCatalog(c, rank)
    requires forall d :: d in deps ==> d in rank && rank[d] < bound
    requires forall d :: d in deps ==> d in s
    requires ClosedUnder(c, s)
    requires HereditaryOfAll(c, rank, deps, bound).Success?
    ensures IdSet(HereditaryOfAll(c, rank, deps, bound).value) <= s
    decreases bound, 0, |deps|
  {
    if |deps| > 0 {
      var dm := Find(c, deps[0]).value;
      var head := Hereditary(c, rank, dm);
      var tail := HereditaryOfAll(c, rank, deps[1..], bound);
      HereditaryIsLeast(c, rank, dm, s);
      HereditaryOfAllIsLeast(c, rank, deps[1..], bound, s);
      IdSetAppend(head.value, tail.value);
    }
  }

  /** The closure of every dependency is wholly contained in the closure of its dependent
      (as a multiset: duplicates reached along two routes are kept). */
  lemma {:induction false} DependencyClosureContained(c: Catalog, rank: map<ObjectId, nat>, m: ModuleRec, k: nat)
    requires ValidCatalog(c, rank) && m in c
    requires k < |m.dependencies|
    requires Hereditary(c, rank, m).Success?
    ensures Find(c, m.dependencies[k]).Some?
    ensures var dm := Find(c, m.dependencies[k]).value;
      Hereditary(c, rank, dm).Success? &&
      multiset(Hereditary(c, rank, dm).value) <= multiset(Hereditary(c, rank, m).value)
  {
    var deps := HereditaryOfAll(c, rank, m.dependencies, rank[m.id]);
    HereditaryOfAllContains(c, rank, m.dependencies, rank[m.id], k);
    assert Hereditary(c, rank, m).value == [m] + deps.value;
  }

  lemma {:induction false} HereditaryOfAllContains(c: Catalog, rank: map<ObjectId, nat>, deps: seq<ObjectId>, bound: nat, k: nat)
    requires ValidCatalog(c, rank)
    requires forall d :: d in deps ==> d in rank && rank[d] < bound
    requires k < |deps|
    requires HereditaryOfAll(c, rank, deps, bound).Success?
    ensures Find(c, deps[k]).Some?
    ensures var dm := Find(c, deps[k]).value;
      dm in c && Hereditary(c, rank, dm).Success? &&
      multiset(Hereditary(c, rank, dm).value) <= multiset(HereditaryOfAll(c, rank, deps, bound).value)
    decreases k
  {
    var dm0 := Find(c, deps[0]).value;
    var head := Hereditary(c, rank, dm0);
    var tail := HereditaryOfAll(c, rank, deps[1..], bound);
    assert HereditaryOfAll(c, rank, deps, bound).value == head.value + tail.value;
    if k > 0 {
      HereditaryOfAllContains(c, rank, deps[1..], bound, k - 1);
      assert deps[1..][k - 1] == deps[k];
    }
  }

  /** The request body of `createOrUpdate`; `None` is a key absent from the body. */
  datatype ModuleInput = ModuleInput(
    name: Option<string>,
    description: Option<string>,
    readme: Option<string>,
    monthlyCost: Option<int>,
    micro: Option<bool>,
    identifier: Option<string>,
    maintenance: Option<bool>,
    hourlyCostFactorPercent: Option<int>,
    trimesterlyDiscount: Option<int>,
    semiannuallyDiscount: Option<int>,
    annuallyDiscount: Option<int>,
    /** The ids of the resolved dependency documents. */
    dependencies: Option<seq<ObjectId>>,
    categories: Option<seq<ObjectId>>)

  /** `name`, `description`, `readme`: set to `{ 'fa-IR': v }` only for a truthy string. */
  function AssignText(current: Option<Localized>, v: Option<string>): Option<Localized> {
    if v.Some? && Text.Truthy(v.value) then Some(FaIR(v.value)) else current
  }

  /** A picked field: copied when the body has the key. */
  function Pick<T>(current: Option<T>, v: Option<T>): Option<T> {
    if v.Some? then v else current
  }

  /** A reference list: replaced by the given ids only when the list is non-empty. */
  function AssignRefs(current: seq<ObjectId>, v: Option<seq<ObjectId>>): seq<ObjectId> {
    if v.Some? && |v.value| > 0 then v.value else current
  }

  /** The field assignments of `createOrUpdate` on one document. The identifier goes
      through the schema's `lowercase` setter. */
  function AssignFields(m: ModuleRec, d: ModuleInput): (r: ModuleRec)
    ensures d.name.Some? && Text.Truthy(d.name.value) ==> r.name == Some(FaIR(d.name.value))
    ensures !(d.name.Some? && Text.Truthy(d.name.value)) ==> r.name == m.name
    ensures d.description.Some? && Text.Truthy(d.description.value) ==> r.description == Some(FaIR(d.description.value))
    ensures !(d.description.Some? && Text.Truthy(d.description.value)) ==> r.description == m.description
    ensures d.readme.Some? && Text.Truthy(d.readme.value) ==> r.readme == Some(FaIR(d.readme.value))
    ensures !(d.readme.Some? && Text.Truthy(d.readme.value)) ==> r.readme == m.readme
    ensures r.monthlyCost.Some? <==> d.monthlyCost.Some? && d.monthlyCost.value != 0
    ensures r.monthlyCost.Some? ==> r.monthlyCost == d.monthlyCost
    ensures d.identifier.Some? ==> r.identifier == Text.Lower(d.identifier.value)
    ensures d.identifier.None? ==> r.identifier == m.identifier
    ensures d.micro.Some? ==> r.micro == d.micro
    ensures d.micro.None? ==> r.micro == m.micro
    ensures d.maintenance.Some? ==> r.maintenance == d.maintenance
    ensures d.maintenance.None? ==> r.maintenance == m.maintenance
    ensures d.hourlyCostFactorPercent.Some? ==> r.hourlyCostFactorPercent == d.hourlyCostFactorPercent
    ensures d.hourlyCostFactorPercent.None? ==> r.hourlyCostFactorPercent == m.hourlyCostFactorPercent
    ensures d.trimesterlyDiscount.Some? ==> r.trimesterlyDiscount == d.trimesterlyDiscount
    ensures d.trimesterlyDiscount.None? ==> r.trimesterlyDiscount == m.trimesterlyDiscount
    ensures d.semiannuallyDiscount.Some? ==> r.semiannuallyDiscount == d.semiannuallyDiscount
    ensures d.semiannuallyDiscount.None? ==> r.semiannuallyDiscount == m.semiannuallyDiscount
    ensures d.annuallyDiscount.Some? ==> r.annuallyDiscount == d.annuallyDiscount
    ensures d.annuallyDiscount.None? ==> r.annuallyDiscount == m.annuallyDiscount
    ensures d.dependencies.Some? && |d.dependencies.value| > 0 ==> r.dependencies == d.dependencies.value
    ensures !(d.dependencies.Some? && |d.dependencies.value| > 0) ==> r.dependencies == m.dependencies
    ensures d.categories.Some? && |d.categories.value| > 0 ==> r.categories == d.categories.value
    ensures !(d.categories.Some? && |d.categories.value| > 0) ==> r.categories == m.categories
    ensures r.id == m.id && r.permissions == m.permissions && r.createdAt == m.createdAt
    ensures r.defaultTabBarPins == m.defaultTabBarPins && r.defaultHomePath == m.defaultHomePath
  {
    ModuleRec(
      m.id,
      if d.identifier.Some? then Text.Lower(d.identifier.value) else m.identifier,
      AssignText(m.name, d.name),
      AssignText(m.description, d.description),
      AssignText(m.readme, d.readme),
      if d.monthlyCost.Some? && d.monthlyCost.value != 0 then d.monthlyCost else None,
      Pick(m.micro, d.micro),
      Pick(m.maintenance, d.maintenance),
      Pick(m.hourlyCostFactorPercent, d.hourlyCostFactorPercent),
      Pick(m.trimesterlyDiscount, d.trimesterlyDiscount),
      Pick(m.semiannuallyDiscount, d.semiannuallyDiscount),
      Pick(m.annuallyDiscount, d.annuallyDiscount),
      AssignRefs(m.dependencies, d.dependencies),
      AssignRefs(m.categories, d.categories),
      m.permissions,
      m.defaultTabBarPins,
      m.defaultHomePath,
      m.createdAt)
  }

  /** Submitting the same body twice leaves the document as one submission did. */
  lemma AssignFieldsIdempotent(m: ModuleRec, d: ModuleInput)
    ensures AssignFields(AssignFields(m, d), d) == AssignFields(m, d)
  {
    if d.identifier.Some? {
      Text.LowerIdempotent(d.identifier.value);
    }
  }

  /** A fresh `new Module()`: no fields set, empty reference lists. */
  function NewModule(id: ObjectId, now: Instant): ModuleRec {
    ModuleRec(id, "", None, None, None, None, None, None, None, None, None, None, [], [], [], [], None, now)
  }

  /** `save()`: replaces the stored document with the same id, or appends a new one. */
  function Store(c: Catalog, m: ModuleRec): (r: Catalog)
    ensures m in r
    ensures |r| == |c| || |r| == |c| + 1
    ensures forall i :: 0 <= i < |c| && c[i].id != m.id ==> c[i] in r
    ensures forall i :: 0 <= i < |r| ==> r[i] == m || r[i] in c
  {
    if |c| == 0 then [m]
    else if c[0].id == m.id then [m] + c[1..]
    else [c[0]] + Store(c[1..], m)
  }

  /** After `save()`, looking the document up by its id finds it, and every other id finds
      what it found before. */
  lemma {:induction false} StoreReadBack(c: Catalog, m: ModuleRec, x: ObjectId)
    ensures Find(Store(c, m), m.id) == Some(m)
    ensures x != m.id ==> Find(Store(c, m), x) == Find(c, x)
  {
    var r := Store(c, m);
    if |c| > 0 && c[0].id != m.id {
      StoreReadBack(c[1..], m, x);
      assert r[1..] == Store(c[1..], m);
    } else if |c| > 0 {
      assert r[1..] == c[1..];
    }
  }

  lemma StoreReadsBack(c: Catalog, m: ModuleRec)
    ensures Find(Store(c, m), m.id) == Some(m)
    ensures forall x :: x != m.id ==> Find(Store(c, m), x) == Find(c, x)
  {
    StoreReadBack(c, m, m.id);
    forall x | x != m.id
      ensures Find(Store(c, m), x) == Find(c, x)
    {
      StoreReadBack(c, m, x);
    }
  }

  /** `save()` keeps ids unique. */
  lemma {:induction false} StoreUnique(c: Catalog, m: ModuleRec)
    requires UniqueIds(c)
    ensures UniqueIds(Store(c, m))
  {
    if |c| > 0 {
      assert UniqueIds(c[1..]);
      assert forall k :: 0 <= k < |c[1..]| ==> c[1..][k].id != c[0].id by {
        forall k | 0 <= k < |c[1..]| ensures c[1..][k].id != c[0].id {
          assert c[1..][k] == c[k + 1];
        }
      }
      if c[0].id != m.id {
        var rest := Store(c[1..], m);
        StoreUnique(c[1..], m);
        assert forall i :: 0 <= i < |rest| ==> rest[i].id != c[0].id by {
          forall i | 0 <= i < |rest| ensures rest[i].id != c[0].id {
            if rest[i] != m {
              var k :| 0 <= k < |c[1..]| && c[1..][k] == rest[i];
            }
          }
        }
        ConsUnique(c[0], rest);
      } else {
        ConsUnique(m, c[1..]);
      }
    }
  }

  /** Putting a document in front of a catalog keeps ids unique when its id is new there. */
  lemma ConsUnique(x: ModuleRec, rest: Catalog)
    requires UniqueIds(rest)
    requires forall i :: 0 <= i < |rest| ==> rest[i].id != x.id
    ensures UniqueIds([x] + rest)
  {
    var r := [x] + rest;
    assert forall i :: 1 <= i < |r| ==> r[i] == rest[i - 1];
  }

  /** With unique ids, the document `save()` stores is the only one with its id. */
  lemma StoreOnly(c: Catalog, m: ModuleRec)
    requires UniqueIds(c)
    ensures forall i :: 0 <= i < |Store(c, m)| && Store(c, m)[i].id == m.id ==> Store(c, m)[i] == m
  {
    StoreUnique(c, m);
    StoreReadBack(c, m, m.id);
    var r := Store(c, m);
    forall i | 0 <= i < |r| && r[i].id == m.id ensures r[i] == m {
      var j :| 0 <= j < |r| && r[j] == m;
    }
  }

  /** Documents are kept apart by the unique index on `identifier` as well as by `_id`. */
  ghost predicate UniqueIdentifiers(c: Catalog) {
    forall i, j :: 0 <= i < |c| && 0 <= j < |c| && c[i].identifier == c[j].identifier ==> i == j
  }

  /** Why `save()` refuses a module document: the schema's `required` validator rejects an empty
      identifier before anything is written, and the unique index rejects an identifier another
      document holds. */
  datatype SaveRefusal = IdentifierRequired | DuplicateIdentifier(identifier: string, holder: ObjectId)

  /** The first stored document, other than `m`'s own, that holds `m`'s identifier. */
  function IdentifierHolder(c: Catalog, m: ModuleRec): (r: Option<ObjectId>)
    ensures r.None? <==> forall i :: 0 <= i < |c| && c[i].id != m.id ==> c[i].identifier != m.identifier
    ensures r.Some? ==> r.value != m.id && exists i :: 0 <= i < |c| && c[i].id == r.value && c[i].identifier == m.identifier
  {
    if |c| == 0 then None
    else if c[0].id != m.id && c[0].identifier == m.identifier then Some(c[0].id)
    else
      assert forall i :: 1 <= i < |c| ==> c[i] == c[1..][i - 1];
      IdentifierHolder(c[1..], m)
  }

  /** The checks `save()` makes before it writes `m` over the catalog: validation, then the index. */
  function SaveCheck(c: Catalog, m: ModuleRec): (r: Option<SaveRefusal>)
    ensures r.None? <==> m.identifier != "" && forall i :: 0 <= i < |c| && c[i].id != m.id ==> c[i].identifier != m.identifier
    ensures r == Some(IdentifierRequired) <==> m.identifier == ""
    ensures r.Some? && r.value.DuplicateIdentifier? ==>
      r.value.identifier == m.identifier && r.value.holder != m.id &&
      exists i :: 0 <= i < |c| && c[i].id == r.value.holder && c[i].identifier == m.identifier
  {
    if m.identifier == "" then Some(IdentifierRequired)
    else
      match IdentifierHolder(c, m)
      case None => None
      case Some(holder) => Some(DuplicateIdentifier(m.identifier, holder))
  }

  /** A save the checks admit keeps both `_id` and `identifier` unique. */
  lemma StoreKeepsIdentifiersUnique(c: Catalog, m: ModuleRec)
    requires UniqueIds(c) && UniqueIdentifiers(c)
    requires SaveCheck(c, m).None?
    ensures UniqueIds(Store(c, m)) && UniqueIdentifiers(Store(c, m))
  {
    StoreUnique(c, m);
    StoreOnly(c, m);
    var r := Store(c, m);
    forall i, j | 0 <= i < |r| && 0 <= j < |r| && r[i].identifier == r[j].identifier ensures i == j {
      if r[i].id == m.id || r[j].id == m.id {
        assert r[i].id == r[j].id;
      } else {
        var p :| 0 <= p < |c| && c[p] == r[i];
        var q :| 0 <= q < |c| && c[q] == r[j];
        assert p == q;
      }
    }
  }

  /** Why `createOrUpdate` throws: an unknown `moduleId`, or a save refused after the pre-save hooks
      ran, so the post-save hooks never run. */
  datatype UpsertError = ModuleNotFound(id: ObjectId) | SaveRefused(reason: SaveRefusal, run: Lifecycle.SaveRun)

  /** The outcome of `createOrUpdate`: the catalog after it, the document, and the steps that ran. */
  datatype Upsert = Upsert(catalog: Catalog, doc: ModuleRec, run: Lifecycle.SaveRun)

  /** The document `createOrUpdate` assigns to: the stored one for `moduleId`, or `new Module()`. */
  function Base(c: Catalog, moduleId: Option<ObjectId>, freshId: ObjectId, now: Instant): Option<ModuleRec> {
    if moduleId.Some? then Find(c, moduleId.value) else Some(NewModule(freshId, now))
  }

  /** `Module.createOrUpdate(data, moduleId, { inject })`. An unknown `moduleId` makes the
      first assignment throw; `freshId` and `now` stand for `new Module()`'s id and timestamp.
      A pre-save or post-save hook that rejects is reported in `run`; a refused save is an error. */
  function CreateOrUpdate(c: Catalog, d: ModuleInput, moduleId: Option<ObjectId>, freshId: ObjectId, now: Instant,
                          preSaveOk: bool, postSaveOk: bool): (r: Result<Upsert, UpsertError>)
    ensures r.Failure? && r.error.ModuleNotFound? <==> moduleId.Some? && Find(c, moduleId.value).None?
    ensures r.Failure? <==>
      Base(c, moduleId, freshId, now).None? ||
      (preSaveOk && SaveCheck(c, AssignFields(Base(c, moduleId, freshId, now).value, d)).Some?)
    ensures r.Failure? && r.error.SaveRefused? ==>
      preSaveOk && Base(c, moduleId, freshId, now).Some? &&
      Some(r.error.reason) == SaveCheck(c, AssignFields(Base(c, moduleId, freshId, now).value, d)) &&
      r.error.run.steps == [Lifecycle.PreSave, Lifecycle.Save] && !r.error.run.completed
    ensures r.Success? && moduleId.Some? ==>
      r.value.doc == AssignFields(Find(c, moduleId.value).value, d)
    ensures r.Success? && moduleId.None? ==>
      r.value.doc == AssignFields(NewModule(freshId, now), d) && r.value.doc.id == freshId && r.value.doc.permissions == []
    ensures r.Success? ==> |r.value.run.steps| >= 1 && r.value.run.steps[0] == Lifecycle.PreSave
    ensures r.Success? ==> (Lifecycle.Save in r.value.run.steps <==> preSaveOk)
    ensures r.Success? ==> (Lifecycle.PostSave in r.value.run.steps <==> preSaveOk)
    ensures r.Success? ==> (r.value.run.completed <==> preSaveOk && postSaveOk)
    ensures r.Success? && preSaveOk ==> SaveCheck(c, r.value.doc).None? && r.value.doc.identifier != ""
    ensures r.Success? && preSaveOk ==> r.value.doc in r.value.catalog
    ensures r.Success? && preSaveOk ==> Find(r.value.catalog, r.value.doc.id) == Some(r.value.doc)
    ensures r.Success? && preSaveOk ==> forall x :: x != r.value.doc.id ==> Find(r.value.catalog, x) == Find(c, x)
    ensures r.Success? && !preSaveOk ==> r.value.catalog == c
  {
    var base := Base(c, moduleId, freshId, now);
    if base.None? then Failure(ModuleNotFound(moduleId.value))
    else
      var m := AssignFields(base.value, d);
      var refused := if preSaveOk then SaveCheck(c, m) else None;
      if refused.Some? then Failure(SaveRefused(refused.value, Lifecycle.RunSave(true, false, postSaveOk)))
      else
        var run := Lifecycle.RunSave(preSaveOk, true, postSaveOk);
        var saved := if preSaveOk then Store(c, m) else c;
        assert preSaveOk ==> Find(saved, m.id) == Some(m) && forall x :: x != m.id ==> Find(saved, x) == Find(c, x) by {
          if preSaveOk {
            StoreReadsBack(c, m);
          }
        }
        Success(Upsert(saved, m, run))
  }

  /** `createOrUpdate` keeps the catalog's two unique indexes: a save either writes a document the
      checks admit or leaves the catalog as it was. */
  lemma CreateOrUpdateKeepsIndexes(c: Catalog, d: ModuleInput, moduleId: Option<ObjectId>, freshId: ObjectId, now: Instant,
                                   preSaveOk: bool, postSaveOk: bool)
    requires UniqueIds(c) && UniqueIdentifiers(c)
    ensures CreateOrUpdate(c, d, moduleId, freshId, now, preSaveOk, postSaveOk).Success? ==>
      UniqueIds(CreateOrUpdate(c, d, moduleId, freshId, now, preSaveOk, postSaveOk).value.catalog) &&
      UniqueIdentifiers(CreateOrUpdate(c, d, moduleId, freshId, now, preSaveOk, postSaveOk).value.catalog)
  {
    var r := CreateOrUpdate(c, d, moduleId, freshId, now, preSaveOk, postSaveOk);
    if r.Success? && preSaveOk {
      StoreKeepsIdentifiersUnique(c, r.value.doc);
    }
  }

  /** Creating a module whose identifier, once lower-cased, another document already holds is
      refused by the index: nothing is stored and the post-save hooks do not run. */
  lemma DuplicateIdentifierRefused(c: Catalog, d: ModuleInput, freshId: ObjectId, now: Instant, postSaveOk: bool, k: nat)
    requires k < |c| && c[k].id != freshId && c[k].identifier != ""
    requires d.identifier.Some? && Text.Lower(d.identifier.value) == c[k].identifier
    ensures CreateOrUpdate(c, d, None, freshId, now, true, postSaveOk).Failure?
    ensures CreateOrUpdate(c, d, None, freshId, now, true, postSaveOk).error.SaveRefused?
    ensures CreateOrUpdate(c, d, None, freshId, now, true, postSaveOk).error.reason == DuplicateIdentifier(c[k].identifier, IdentifierHolder(c, AssignFields(NewModule(freshId, now), d)).value)
  {
    var m := AssignFields(NewModule(freshId, now), d);
    assert m.id == freshId && m.identifier == c[k].identifier;
  }
}

=== FILE: multimap.dfy ===
/** An insertion-ordered object of arrays, built by repeated
    `obj = { ...obj, [key]: [...(obj[key] || []), value] }`: a key keeps the position
    of its first insertion and its values accumulate in arrival order. */
module MultiMaps {
  import Seqs

  type MultiMap<V> = seq<(string, seq<V>)>

  /** No key occurs twice: what a JavaScript object guarantees. */
  predicate UniqueKeys<V>(mm: MultiMap<V>) {
    forall i, j :: 0 <= i < j < |mm| ==> mm[i].0 != mm[j].0
  }

  function Keys<V>(mm: MultiMap<V>): (r: seq<string>)
    ensures |r| == |mm|
  {
    if |mm| == 0 then [] else [mm[0].0] + Keys(mm[1..])
  }

  /** `obj[key] || []`: the array stored under the first occurrence of `k`. Keys are own
      properties only; names a plain object inherits (`constructor`, `toString`) are not modelled. */
  function Get<V>(mm: MultiMap<V>, k: string): seq<V> {
    if |mm| == 0 then []
    else if mm[0].0 == k then mm[0].1
    else Get(mm[1..], k)
  }

  /** With unique keys, a present key reads as the array stored at its position. */
  lemma {:induction false} GetFinds<V>(mm: MultiMap<V>, k: string, i: nat)
    requires UniqueKeys(mm)
    requires i < |mm| && mm[i].0 == k
    ensures Get(mm, k) == mm[i].1
  {
    if i > 0 {
      assert mm[1..][i - 1] == mm[i];
      GetFinds(mm[1..], k, i - 1);
    }
  }

  /** One `{ ...obj, [k]: [...(obj[k] || []), v] }` step. */
  function Append<V>(mm: MultiMap<V>, k: string, v: V): (r: MultiMap<V>)
    ensures Get(r, k) == Get(mm, k) + [v]
    ensures forall k' :: k' != k ==> Get(r, k') == Get(mm, k')
  {
    if |mm| == 0 then [(k, [v])]
    else if mm[0].0 == k then [(k, mm[0].1 + [v])] + mm[1..]
    else
      var rest := Append(mm[1..], k, v);
      assert ([mm[0]] + rest)[1..] == rest;
      [mm[0]] + rest
  }

  /** An existing key keeps its position; a new one is added at the end. */
  lemma {:induction false} AppendKeys<V>(mm: MultiMap<V>, k: string, v: V)
    ensures Keys(Append(mm, k, v)) == if k in Keys(mm) then Keys(mm) else Keys(mm) + [k]
  {
    if |mm| > 0 {
      assert Keys(mm) == [mm[0].0] + Keys(mm[1..]);
      if mm[0].0 == k {
        assert Append(mm, k, v)[1..] == mm[1..];
      } else {
        AppendKeys(mm[1..], k, v);
        assert Append(mm, k, v)[1..] == Append(mm[1..], k, v);
      }
    }
  }

  lemma {:induction false} KeysIndex<V>(mm: MultiMap<V>)
    ensures forall i :: 0 <= i < |mm| ==> Keys(mm)[i] == mm[i].0
  {
    if |mm| > 0 {
      KeysIndex(mm[1..]);
    }
  }

  /** Appending keeps an object's keys unique. */
  lemma AppendUnique<V>(mm: MultiMap<V>, k: string, v: V)
    requires UniqueKeys(mm)
    ensures UniqueKeys(Append(mm, k, v))
  {
    var r := Append(mm, k, v);
    AppendKeys(mm, k, v);
    KeysIndex(mm);
    KeysIndex(r);
    if k !in Keys(mm) {
      assert forall i :: 0 <= i < |mm| ==> r[i].0 == mm[i].0;
    }
  }

  /** The values `kvs` carries under key `k`, in order: the reference reading of the fold below. */
  function ValuesOf<V>(kvs: seq<(string, V)>, k: string): (r: seq<V>)
    ensures |r| <= |kvs|
    ensures r == Seqs.Map(Seqs.Filter(kvs, (p: (string, V)) => p.0 == k), (p: (string, V)) => p.1)
  {
    if |kvs| == 0 then []
    else
      var rest := ValuesOf(kvs[1..], k);
      if kvs[0].0 == k then
        var kept := Seqs.Filter(kvs[1..], (p: (string, V)) => p.0 == k);
        assert Seqs.Filter(kvs, (p: (string, V)) => p.0 == k) == [kvs[0]] + kept;
        assert Seqs.Map([kvs[0]] + kept, (p: (string, V)) => p.1) == [kvs[0].1] + Seqs.Map(kept, (p: (string, V)) => p.1);
        [kvs[0].1] + rest
      else rest
  }

  /** Append every pair of `kvs`, left to right. */
  function AppendAll<V>(mm: MultiMap<V>, kvs: seq<(string, V)>): MultiMap<V>
    decreases |kvs|
  {
    if |kvs| == 0 then mm
    else AppendAll(Append(mm, kvs[0].0, kvs[0].1), kvs[1..])
  }

  /** The fold gathers, under every key, exactly the values `kvs` carries for it, in order. */
  lemma {:induction false} AppendAllGet<V>(mm: MultiMap<V>, kvs: seq<(string, V)>, k: string)
    ensures Get(AppendAll(mm, kvs), k) == Get(mm, k) + ValuesOf(kvs, k)
    decreases |kvs|
  {
    if |kvs| > 0 {
      var mm1 := Append(mm, kvs[0].0, kvs[0].1);
      assert AppendAll(mm, kvs) == AppendAll(mm1, kvs[1..]);
      AppendAllGet(mm1, kvs[1..], k);
      var tail := ValuesOf(kvs[1..], k);
      if kvs[0].0 == k {
        var g, v := Get(mm, k), kvs[0].1;
        assert Get(mm1, k) == g + [v];
        assert ValuesOf(kvs, k) == [v] + tail;
        assert g + [v] + tail == g + ([v] + tail);
      } else {
        assert Get(mm1, k) == Get(mm, k);
        assert ValuesOf(kvs, k) == tail;
      }
    }
  }

  /** A key is present after the fold exactly when it was before or some pair carries it. */
  lemma {:induction false} AppendAllKeys<V>(mm: MultiMap<V>, kvs: seq<(string, V)>, k: string)
    ensures k in Keys(AppendAll(mm, kvs)) <==> k in Keys(mm) || exists i :: 0 <= i < |kvs| && kvs[i].0 == k
    decreases |kvs|
  {
    if |kvs| > 0 {
      var mm1 := Append(mm, kvs[0].0, kvs[0].1);
      AppendKeys(mm, kvs[0].0, kvs[0].1);
      AppendAllKeys(mm1, kvs[1..], k);
      assert forall i :: 1 <= i < |kvs| ==> kvs[i] == kvs[1..][i - 1];
      if exists i :: 0 <= i < |kvs| && kvs[i].0 == k {
        var i :| 0 <= i < |kvs| && kvs[i].0 == k;
        if i > 0 {
          assert kvs[1..][i - 1].0 == k;
        }
      }
    }
  }

  /** The fold keeps keys unique. */
  lemma {:induction false} AppendAllUnique<V>(mm: MultiMap<V>, kvs: seq<(string, V)>)
    requires UniqueKeys(mm)
    ensures UniqueKeys(AppendAll(mm, kvs))
    decreases |kvs|
  {
    if |kvs| > 0 {
      AppendUnique(mm, kvs[0].0, kvs[0].1);
      AppendAllUnique(Append(mm, kvs[0].0, kvs[0].1), kvs[1..]);
    }
  }

  /** Deleting entries keeps keys unique. */
  lemma {:induction false} SubseqUniqueKeys<V>(a: MultiMap<V>, b: MultiMap<V>)
    requires Seqs.Subseq(a, b) && UniqueKeys(b)
    ensures UniqueKeys(a)
    decreases |b|
  {
    if |a| > 0 {
      assert forall i :: 1 <= i < |b| ==> b[i] == b[1..][i - 1];
      if a[0] == b[0] && Seqs.Subseq(a[1..], b[1..]) {
        SubseqUniqueKeys(a[1..], b[1..]);
        Seqs.SubseqMembers(a[1..], b[1..]);
        forall j | 1 <= j < |a| ensures a[0].0 != a[j].0 {
          assert a[j] == a[1..][j - 1];
          assert a[j] in a[1..];
          assert a[j] in b[1..];
          var k :| 0 <= k < |b[1..]| && b[1..][k] == a[j];
        }
        assert forall i :: 1 <= i < |a| ==> a[i] == a[1..][i - 1];
      } else {
        SubseqUniqueKeys(a, b[1..]);
      }
    }
  }

  lemma FirstTwoKeysDiffer<V>(mm: MultiMap<V>)
    requires UniqueKeys(mm)
    ensures |mm| >= 2 ==> mm[0].0 != mm[1].0
  {
  }

  /** With unique keys, at most one entry carries a given key. */
  lemma OneEntryPerKey<V>(mm: MultiMap<V>, k: string)
    requires UniqueKeys(mm)
    requires forall i :: 0 <= i < |mm| ==> mm[i].0 == k
    ensures |mm| <= 1
  {
    FirstTwoKeysDiffer(mm);
  }

  /** `v` is among the values of `k` exactly when the pair `(k, v)` occurs. */
  lemma {:induction false} ValuesOfMembers<V>(kvs: seq<(string, V)>, k: string, v: V)
    ensures v in ValuesOf(kvs, k) <==> (k, v) in kvs
  {
    if |kvs| > 0 {
      ValuesOfMembers(kvs[1..], k, v);
      assert kvs == [kvs[0]] + kvs[1..];
    }
  }
}

=== FILE: options.dfy ===
/** The nested, dotted-path options store of workspaces and memberships:
    lodash `get(obj, path, default)` and `setWith(clone(obj), path, value, clone)`
    over a JSON document. */
module Options {
  import opened Wrappers
  import Text

  /** A JSON value as stored in a Mongo `Object` field. */
  datatype Json =
    | Null
    | Bool(b: bool)
    | Num(n: int)
    | Str(s: string)
    | Arr(items: seq<Json>)
    | Obj(fields: map<string, Json>)

  /** A parsed dotted path: `"a.b.c"` becomes `["a", "b", "c"]`. */
  type Path = seq<string>

  function PathOf(key: string): (p: Path)
    ensures |p| >= 1
  {
    Text.Split(key, '.')
  }

  /** The value found by walking `p` from `t`, or `None` where lodash would find `undefined`. */
  function Lookup(t: Json, p: Path): Option<Json>
    decreases |p|
  {
    if |p| == 0 then Some(t)
    else if t.Obj? && p[0] in t.fields then Lookup(t.fields[p[0]], p[1..])
    else None
  }

  /** `get(options, key, default)`. */
  function GetOption(t: Json, key: string, default: Json): (r: Json)
    ensures Lookup(t, PathOf(key)).Some? ==> r == Lookup(t, PathOf(key)).value
    ensures Lookup(t, PathOf(key)).None? ==> r == default
  {
    Lookup(t, PathOf(key)).GetOr(default)
  }

  /** A key without a dot names one top-level field. */
  lemma GetTopLevel(m: map<string, Json>, key: string, default: Json)
    requires '.' !in key
    ensures GetOption(Obj(m), key, default) == if key in m then m[key] else default
  {
    Text.SplitJoin([key], '.');
    assert PathOf(key) == [key];
    assert [key][1..] == [];
    if key in m {
      assert Lookup(Obj(m), [key]) == Lookup(m[key], []);
    }
  }

  /** Keys on which lodash `baseSet` stops without writing. */
  predicate Reserved(k: string) {
    k == "__proto__" || k == "constructor" || k == "prototype"
  }

  /** The node `setWith` descends into under key `k`: the existing value, or a fresh `{}`. */
  function Child(m: map<string, Json>, k: string): Json {
    if k in m then m[k] else Obj(map[])
  }

  /** `setWith(clone(t), p, v, clone)`: writes `v` at `p`, creating missing objects on the way.
      A non-object node on the way (or at the root) absorbs the write, and a reserved key stops it. */
  function SetPath(t: Json, p: Path, v: Json): Json
    requires |p| >= 1
    decreases |p|
  {
    match t
    case Obj(m) =>
      if Reserved(p[0]) then t
      else if |p| == 1 then Obj(m[p[0] := v])
      else Obj(m[p[0] := SetPath(Child(m, p[0]), p[1..], v)])
    case _ => t
  }

  /** Every node `SetPath` visits is an object and no key on `p` is reserved: the write lands. */
  predicate Settable(t: Json, p: Path)
    requires |p| >= 1
    decreases |p|
  {
    t.Obj? && !Reserved(p[0]) && (|p| > 1 ==> Settable(Child(t.fields, p[0]), p[1..]))
  }

  /** Neither path is a prefix of the other: they part at some position. */
  predicate Diverge(p: Path, q: Path)
    decreases |p|
  {
    |p| > 0 && |q| > 0 && (p[0] != q[0] || Diverge(p[1..], q[1..]))
  }

  /** After a write that lands, the path reads back the written value. */
  lemma {:induction false} GetAfterSet(t: Json, p: Path, v: Json)
    requires |p| >= 1
    requires Settable(t, p)
    ensures Lookup(SetPath(t, p, v), p) == Some(v)
    decreases |p|
  {
    if |p| > 1 {
      GetAfterSet(Child(t.fields, p[0]), p[1..], v);
    }
  }

  /** A write never disturbs a path that parts from it: sibling keys survive. */
  lemma {:induction false} SetKeepsSiblings(t: Json, p: Path, q: Path, v: Json)
    requires |p| >= 1
    requires Diverge(p, q)
    ensures Lookup(SetPath(t, p, v), q) == Lookup(t, q)
    decreases |p|
  {
    match t
    case Obj(m) =>
      if !Reserved(p[0]) && p[0] == q[0] {
        if |p| > 1 {
          SetKeepsSiblings(Child(m, p[0]), p[1..], q[1..], v);
          if p[0] !in m {
            assert Lookup(Obj(map[]), q[1..]) == None;
          }
        }
      }
    case _ =>
  }

  /** A second write to the same path replaces the first entirely. */
  lemma {:induction false} SetOverwrites(t: Json, p: Path, v1: Json, v2: Json)
    requires |p| >= 1
    ensures SetPath(SetPath(t, p, v1), p, v2) == SetPath(t, p, v2)
    decreases |p|, 1
  {
    if t.Obj? && !Reserved(p[0]) && |p| > 1 {
      SetOverwritesBelow(t.fields, p, v1, v2);
    }
  }

  /** The case where both writes descend into the same child. */
  lemma {:induction false} SetOverwritesBelow(m: map<string, Json>, p: Path, v1: Json, v2: Json)
    requires |p| > 1 && !Reserved(p[0])
    ensures SetPath(SetPath(Obj(m), p, v1), p, v2) == SetPath(Obj(m), p, v2)
    decreases |p|, 0
  {
    var k, rest := p[0], p[1..];
    var once := SetPath(Child(m, k), rest, v1);
    var m1 := m[k := once];
    assert SetPath(Obj(m), p, v1) == Obj(m1);
    assert Child(m1, k) == once;
    SetOverwrites(Child(m, k), rest, v1, v2);
    assert m1[k := SetPath(once, rest, v2)] == m[k := SetPath(Child(m, k), rest, v2)];
  }

  /** A write through a non-object node changes nothing at all. */
  lemma {:induction false} BlockedSetIsNoOp(t: Json, p: Path, v: Json)
    requires |p| >= 1
    requires !t.Obj?
    ensures SetPath(t, p, v) == t
  {
  }

  /** `Object.keys(data).forEach(key => options = setWith(clone(options), key, data[key], clone))`. */
  function SetMany(t: Json, data: seq<(string, Json)>): Json
    decreases |data|
  {
    if |data| == 0 then t
    else SetMany(SetPath(t, PathOf(data[0].0), data[0].1), data[1..])
  }

  lemma {:induction false} SetManyAppend(t: Json, a: seq<(string, Json)>, b: seq<(string, Json)>)
    ensures SetMany(t, a + b) == SetMany(SetMany(t, a), b)
    decreases |a|
  {
    if |a| == 0 {
      assert a + b == b;
    } else {
      var t1 := SetPath(t, PathOf(a[0].0), a[0].1);
      assert (a + b)[0] == a[0];
      assert (a + b)[1..] == a[1..] + b;
      assert SetMany(t, a + b) == SetMany(t1, a[1..] + b);
      SetManyAppend(t1, a[1..], b);
    }
  }

  /** Keys whose paths all part from `q` leave `q` untouched. */
  lemma {:induction false} SetManyKeepsUntouched(t: Json, data: seq<(string, Json)>, q: Path)
    requires forall i :: 0 <= i < |data| ==> Diverge(PathOf(data[i].0), q)
    ensures Lookup(SetMany(t, data), q) == Lookup(t, q)
    decreases |data|
  {
    if |data| > 0 {
      SetKeepsSiblings(t, PathOf(data[0].0), q, data[0].1);
      SetManyKeepsUntouched(SetPath(t, PathOf(data[0].0), data[0].1), data[1..], q);
    }
  }

  /** Writes into an object leave an object. */
  lemma {:induction false} SetManyKeepsObject(t: Json, data: seq<(string, Json)>)
    requires t.Obj?
    ensures SetMany(t, data).Obj?
    decreases |data|
  {
    if |data| > 0 {
      SetManyKeepsObject(SetPath(t, PathOf(data[0].0), data[0].1), data[1..]);
    }
  }

  /** The last write to a path wins: keys applied after it that part from it do not change it. */
  lemma LastWriteWins(t: Json, before: seq<(string, Json)>, key: string, v: Json, after: seq<(string, Json)>)
    requires Settable(SetMany(t, before), PathOf(key))
    requires forall i :: 0 <= i < |after| ==> Diverge(PathOf(after[i].0), PathOf(key))
    ensures Lookup(SetMany(t, before + [(key, v)] + after), PathOf(key)) == Some(v)
  {
    var mid := SetMany(t, before);
    SetManyAppend(t, before + [(key, v)], after);
    SetManyAppend(t, before, [(key, v)]);
    assert SetMany(mid, [(key, v)]) == SetPath(mid, PathOf(key), v);
    GetAfterSet(mid, PathOf(key), v);
    SetManyKeepsUntouched(SetPath(mid, PathOf(key), v), after, PathOf(key));
  }

  /** The `i`-th key of an update reads back its value when its write lands and no later key touches its path. */
  lemma SetManyReadsBack(t: Json, data: seq<(string, Json)>, i: nat)
    requires i < |data|
    requires Settable(SetMany(t, data[..i]), PathOf(data[i].0))
    requires forall j :: i < j < |data| ==> Diverge(PathOf(data[j].0), PathOf(data[i].0))
    ensures Lookup(SetMany(t, data), PathOf(data[i].0)) == Some(data[i].1)
  {
    var after := data[i + 1..];
    assert data == data[..i] + [(data[i].0, data[i].1)] + after;
    assert forall j :: 0 <= j < |after| ==> after[j] == data[i + 1 + j];
    LastWriteWins(t, data[..i], data[i].0, data[i].1, after);
  }

  /** A key of `getOptions`: a plain dotted path, or a `[path, default]` pair. */
  datatype OptionKey = Plain(path: string) | WithDefault(path: string, default: Json) {
    function Default(): Json {
      match this
      case Plain(_) => Null
      case WithDefault(_, d) => d
    }
  }

  /** `getOptions(keys)`: every key mapped to its option, with its own default or `null`. */
  function GetOptions(t: Json, keys: seq<OptionKey>): (r: map<OptionKey, Json>)
    ensures forall i :: 0 <= i < |keys| ==> keys[i] in r
    ensures forall k :: k in r ==> k in keys && r[k] == GetOption(t, k.path, k.Default())
  {
    if |keys| == 0 then map[]
    else GetOptions(t, keys[1..])[keys[0] := GetOption(t, keys[0].path, keys[0].Default())]
  }

  /** An absent path yields the key's own default: `null` for a plain key. */
  lemma MissingOptionUsesDefault(t: Json, keys: seq<OptionKey>, i: nat)
    requires i < |keys|
    requires Lookup(t, PathOf(keys[i].path)).None?
    ensures keys[i] in GetOptions(t, keys)
    ensures GetOptions(t, keys)[keys[i]] == keys[i].Default()
    ensures keys[i].Plain? ==> GetOptions(t, keys)[keys[i]] == Null
  {
  }
}

=== FILE: owners.dfy ===
/** `addOwner` of `WorkspacesController`: the new owner's membership takes its taskbar
    pins and home path from the workspace's current modules. */
module Owners {
  import opened Wrappers
  import opened Ids
  import Text
  import Seqs
  import opened Options
  import opened Modules
  import Ledger
  import opened Workspaces
  import opened Users

  /** `uniq(flatten(map(modules, 'defaultTabBarPins')))`. */
  function OwnerPins(current: seq<ModuleRec>): (r: seq<string>)
    ensures Seqs.Distinct(r)
    ensures Seqs.Subseq(r, Seqs.Flatten(Seqs.Map(current, (m: ModuleRec) => m.defaultTabBarPins)))
    ensures forall x :: x in r <==> exists i :: 0 <= i < |current| && x in current[i].defaultTabBarPins
    ensures Seqs.FirstOccurrenceOrder(r, Seqs.Flatten(Seqs.Map(current, (m: ModuleRec) => m.defaultTabBarPins)))
  {
    var all := Seqs.Flatten(Seqs.Map(current, (m: ModuleRec) => m.defaultTabBarPins));
    var r := Seqs.Dedup(all);
    Seqs.DedupFirstOrder(all);
    forall x ensures x in r <==> exists i :: 0 <= i < |current| && x in current[i].defaultTabBarPins {
      Seqs.FlattenMembers(Seqs.Map(current, (m: ModuleRec) => m.defaultTabBarPins), x);
    }
    r
  }

  /** A module home path counts when it is present and not empty (lodash `compact`). */
  predicate HasHomePath(m: ModuleRec) {
    m.defaultHomePath.Some? && Text.Truthy(m.defaultHomePath.value)
  }

  /** Module `i` is the first with a home path. */
  predicate FirstWithHomePath(current: seq<ModuleRec>, i: nat) {
    i < |current| && HasHomePath(current[i]) && forall j :: 0 <= j < i ==> !HasHomePath(current[j])
  }

  /** `compact(map(modules, 'defaultHomePath'))[0]`, or nothing when every module lacks one. */
  function OwnerHomePath(current: seq<ModuleRec>): (r: Option<string>)
    ensures r.None? <==> forall i :: 0 <= i < |current| ==> !HasHomePath(current[i])
    ensures r.Some? ==> exists i: nat :: FirstWithHomePath(current, i) && current[i].defaultHomePath == r
  {
    if |current| == 0 then None
    else if HasHomePath(current[0]) then current[0].defaultHomePath
    else
      var r := OwnerHomePath(current[1..]);
      assert forall i :: 1 <= i < |current| ==> current[i] == current[1..][i - 1];
      assert r.Some? ==> exists i: nat :: FirstWithHomePath(current, i) && current[i].defaultHomePath == r by {
        if r.Some? {
          var i: nat :| FirstWithHomePath(current[1..], i) && current[1..][i].defaultHomePath == r;
          assert FirstWithHomePath(current, i + 1);
        }
      }
      r
  }

  /** The arguments `addOwner` passes to `addMember`. */
  function OwnerArgs(current: seq<ModuleRec>): (r: MemberArgs)
    ensures r.password.None? && r.options == map["showWalkthrough" := Bool(false)]
    ensures r.tabBarPins == Some(OwnerPins(current)) && r.homePath == OwnerHomePath(current)
  {
    MemberArgs(None, map["showWalkthrough" := Bool(false)], Some(OwnerPins(current)), OwnerHomePath(current))
  }

  /** The module is one of the workspace's current modules: its identifier is in a
      current subscription's closure. */
  ghost predicate CurrentIn(c: Catalog, rank: map<ObjectId, nat>, subs: seq<Ledger.Subscription>, m: ModuleRec)
    requires ValidCatalog(c, rank)
  {
    m in c && Ledger.InSomeClosure(c, rank, subs, m.identifier)
  }

  /** The loaded current modules are exactly the catalogue entries in some closure. */
  lemma CurrentModulesAreCurrent(c: Catalog, rank: map<ObjectId, nat>, subs: seq<Ledger.Subscription>, m: ModuleRec)
    requires ValidCatalog(c, rank)
    requires Ledger.CurrentModules(c, rank, subs).Success?
    ensures m in Ledger.CurrentModules(c, rank, subs).value <==> CurrentIn(c, rank, subs, m)
  {
    var current := Ledger.CurrentModules(c, rank, subs).value;
    Seqs.SubseqMembers(current, c);
    if m in current {
      var i :| 0 <= i < |current| && current[i] == m;
      assert m.identifier in Ledger.IdentSet(current);
    }
  }

  /** The owner's pins are the pins of the current modules. */
  lemma CurrentPins(c: Catalog, rank: map<ObjectId, nat>, subs: seq<Ledger.Subscription>)
    requires ValidCatalog(c, rank)
    requires Ledger.CurrentModules(c, rank, subs).Success?
    ensures forall x :: x in OwnerPins(Ledger.CurrentModules(c, rank, subs).value) <==>
      exists m :: CurrentIn(c, rank, subs, m) && x in m.defaultTabBarPins
  {
    var current := Ledger.CurrentModules(c, rank, subs).value;
    forall x ensures x in OwnerPins(current) <==> exists m :: CurrentIn(c, rank, subs, m) && x in m.defaultTabBarPins {
      if x in OwnerPins(current) {
        var i :| 0 <= i < |current| && x in current[i].defaultTabBarPins;
        CurrentModulesAreCurrent(c, rank, subs, current[i]);
        assert CurrentIn(c, rank, subs, current[i]);
      }
      if exists m :: CurrentIn(c, rank, subs, m) && x in m.defaultTabBarPins {
        var m :| CurrentIn(c, rank, subs, m) && x in m.defaultTabBarPins;
        PinOfCurrentModule(c, rank, subs, m, x);
      }
    }
  }

  /** A pin of a current module is among the owner's pins. */
  lemma PinOfCurrentModule(c: Catalog, rank: map<ObjectId, nat>, subs: seq<Ledger.Subscription>, m: ModuleRec, x: string)
    requires ValidCatalog(c, rank)
    requires Ledger.CurrentModules(c, rank, subs).Success?
    requires CurrentIn(c, rank, subs, m) && x in m.defaultTabBarPins
    ensures x in OwnerPins(Ledger.CurrentModules(c, rank, subs).value)
  {
    var current := Ledger.CurrentModules(c, rank, subs).value;
    CurrentModulesAreCurrent(c, rank, subs, m);
    var i :| 0 <= i < |current| && current[i] == m;
  }

  /** The owner's home path is some current module's path, and is missing only when no current module has one. */
  lemma CurrentHomePath(c: Catalog, rank: map<ObjectId, nat>, subs: seq<Ledger.Subscription>)
    requires ValidCatalog(c, rank)
    requires Ledger.CurrentModules(c, rank, subs).Success?
    ensures var h := OwnerHomePath(Ledger.CurrentModules(c, rank, subs).value);
      (h.None? <==> forall m :: CurrentIn(c, rank, subs, m) ==> !HasHomePath(m)) &&
      (h.Some? ==> exists m :: CurrentIn(c, rank, subs, m) && HasHomePath(m) && m.defaultHomePath == h)
  {
    var current := Ledger.CurrentModules(c, rank, subs).value;
    if OwnerHomePath(current).Some? {
      HomePathFromCurrent(c, rank, subs);
    } else {
      NoHomePathInCurrent(c, rank, subs);
    }
  }

  lemma HomePathFromCurrent(c: Catalog, rank: map<ObjectId, nat>, subs: seq<Ledger.Subscription>)
    requires ValidCatalog(c, rank)
    requires Ledger.CurrentModules(c, rank, subs).Success?
    requires OwnerHomePath(Ledger.CurrentModules(c, rank, subs).value).Some?
    ensures var h := OwnerHomePath(Ledger.CurrentModules(c, rank, subs).value);
      exists m :: CurrentIn(c, rank, subs, m) && HasHomePath(m) && m.defaultHomePath == h
  {
    var current := Ledger.CurrentModules(c, rank, subs).value;
    var i: nat :| FirstWithHomePath(current, i) && current[i].defaultHomePath == OwnerHomePath(current);
    CurrentModulesAreCurrent(c, rank, subs, current[i]);
  }

  lemma NoHomePathInCurrent(c: Catalog, rank: map<ObjectId, nat>, subs: seq<Ledger.Subscription>)
    requires ValidCatalog(c, rank)
    requires Ledger.CurrentModules(c, rank, subs).Success?
    requires OwnerHomePath(Ledger.CurrentModules(c, rank, subs).value).None?
    ensures forall m :: CurrentIn(c, rank, subs, m) ==> !HasHomePath(m)
  {
    forall m | CurrentIn(c, rank, subs, m) ensures !HasHomePath(m) {
      NotAHomeModule(c, rank, subs, m);
    }
  }

  lemma NotAHomeModule(c: Catalog, rank: map<ObjectId, nat>, subs: seq<Ledger.Subscription>, m: ModuleRec)
    requires ValidCatalog(c, rank)
    requires Ledger.CurrentModules(c, rank, subs).Success?
    requires OwnerHomePath(Ledger.CurrentModules(c, rank, subs).value).None?
    requires CurrentIn(c, rank, subs, m)
    ensures !HasHomePath(m)
  {
    var current := Ledger.CurrentModules(c, rank, subs).value;
    CurrentModulesAreCurrent(c, rank, subs, m);
    assert m in current;
    var i :| 0 <= i < |current| && current[i] == m;
    assert !HasHomePath(current[i]);
  }

  /** `addOwner` for an existing user: load the current modules, add the membership with the
      `owner` role (absent when no such role exists), and make the workspace the user's current one. */
  function AddOwner(c: Catalog, rank: map<ObjectId, nat>, subs: seq<Ledger.Subscription>, ws: ObjectId,
                    user: UserRec, ownerRole: Option<ObjectId>): (r: Result<(MembershipRec, UserRec), LoadError>)
    requires ValidCatalog(c, rank)
    ensures r.Success? <==> Ledger.AllClosuresResolve(c, rank, subs)
    ensures r.Success? ==> r.value.0.workspace == ws && r.value.0.user == user.id && r.value.0.password.None?
    ensures r.Success? ==> r.value.0.roles == (if ownerRole.Some? then [ownerRole.value] else [])
    ensures r.Success? ==> "showWalkthrough" in r.value.0.options && r.value.0.options["showWalkthrough"] == Bool(false)
    ensures r.Success? ==> forall k :: k in DefaultMemberOptions() && k != "showWalkthrough" ==>
      k in r.value.0.options && r.value.0.options[k] == DefaultMemberOptions()[k]
    ensures r.Success? ==> Seqs.Distinct(r.value.0.tabBarPins)
    ensures r.Success? ==> forall x :: x in r.value.0.tabBarPins <==>
      exists m :: CurrentIn(c, rank, subs, m) && x in m.defaultTabBarPins
    ensures r.Success? ==> (r.value.0.homePath.None? <==> forall m :: CurrentIn(c, rank, subs, m) ==> !HasHomePath(m))
    ensures r.Success? && r.value.0.homePath.Some? ==>
      exists m :: CurrentIn(c, rank, subs, m) && HasHomePath(m) && m.defaultHomePath == r.value.0.homePath
    ensures r.Success? ==> r.value.1 == user.(currentWorkspace := Some(ws))
  {
    match Ledger.CurrentModules(c, rank, subs)
    case Failure(e) => Failure(e)
    case Success(current) =>
      var roles := if ownerRole.Some? then OneRole(ownerRole.value) else NoRoles;
      CurrentPins(c, rank, subs);
      CurrentHomePath(c, rank, subs);
      Success((AddMember(ws, user.id, roles, OwnerArgs(current)), SetCurrentWorkspace(user, ws)))
  }
}

=== FILE: seqs.dfy ===
/** Order-preserving sequence utilities: the model's versions of lodash `filter`,
    `uniq`, `uniqBy`, `flatten` and the `[...new Set(xs)]` idiom. */
module Seqs {
  import opened Wrappers

  /** `a` is obtained from `b` by deleting elements, keeping the order of the rest. */
  ghost predicate Subseq<T>(a: seq<T>, b: seq<T>)
    decreases |b|
  {
    |a| == 0 || (|b| > 0 && ((a[0] == b[0] && Subseq(a[1..], b[1..])) || Subseq(a, b[1..])))
  }

  lemma {:induction false} SubseqRefl<T>(a: seq<T>)
    ensures Subseq(a, a)
    decreases |a|
  {
    if |a| > 0 {
      SubseqRefl(a[1..]);
    }
  }

  /** Every element of a subsequence is an element of the sequence it came from. */
  lemma {:induction false} SubseqMembers<T>(a: seq<T>, b: seq<T>)
    requires Subseq(a, b)
    ensures forall x :: x in a ==> x in b
    decreases |b|
  {
    if |a| > 0 {
      if a[0] == b[0] && Subseq(a[1..], b[1..]) {
        SubseqMembers(a[1..], b[1..]);
        assert forall x :: x in a ==> x == a[0] || x in a[1..];
      } else {
        SubseqMembers(a, b[1..]);
      }
    }
  }

  /** No element occurs twice. */
  ghost predicate Distinct<T>(s: seq<T>) {
    forall i, j :: 0 <= i < j < |s| ==> s[i] != s[j]
  }

  /** `f` applied to every element, in order. */
  function Map<T, U>(s: seq<T>, f: T -> U): (r: seq<U>)
    ensures |r| == |s|
    ensures forall i :: 0 <= i < |s| ==> r[i] == f(s[i])
  {
    if |s| == 0 then [] else [f(s[0])] + Map(s[1..], f)
  }

  /** The elements satisfying `p`, in their original order (lodash `filter`). */
  function Filter<T>(s: seq<T>, p: T -> bool): (r: seq<T>)
    ensures |r| <= |s|
    ensures forall i :: 0 <= i < |r| ==> p(r[i])
    ensures forall i :: 0 <= i < |s| && p(s[i]) ==> s[i] in r
    ensures Subseq(r, s)
  {
    if |s| == 0 then []
    else
      var rest := Filter(s[1..], p);
      assert forall i :: 1 <= i < |s| ==> s[i] == s[1..][i - 1];
      if p(s[0]) then
        assert ([s[0]] + rest)[1..] == rest;
        [s[0]] + rest
      else rest
  }

  /** Filtering distributes over concatenation. */
  lemma {:induction false} FilterAppend<T>(a: seq<T>, b: seq<T>, p: T -> bool)
    ensures Filter(a + b, p) == Filter(a, p) + Filter(b, p)
  {
    if |a| == 0 {
      assert a + b == b;
    } else {
      assert (a + b)[0] == a[0];
      assert (a + b)[1..] == a[1..] + b;
      FilterAppend(a[1..], b, p);
    }
  }

  /** Filtering keeps every occurrence of an element that passes and none of one that does not. */
  lemma {:induction false} FilterCount<T>(s: seq<T>, p: T -> bool, x: T)
    ensures multiset(Filter(s, p))[x] == if p(x) then multiset(s)[x] else 0
  {
    if |s| > 0 {
      FilterCount(s[1..], p, x);
      assert s == [s[0]] + s[1..];
    }
  }

  /** Filters that agree on every element of `s` keep the same elements. */
  lemma {:induction false} FilterExt<T>(s: seq<T>, p: T -> bool, q: T -> bool)
    requires forall i :: 0 <= i < |s| ==> p(s[i]) == q(s[i])
    ensures Filter(s, p) == Filter(s, q)
  {
    if |s| > 0 {
      assert forall i :: 1 <= i < |s| ==> s[i] == s[1..][i - 1];
      FilterExt(s[1..], p, q);
    }
  }

  /** Filtering keeps a sequence whose every element passes. */
  lemma {:induction false} FilterAll<T>(s: seq<T>, p: T -> bool)
    requires forall i :: 0 <= i < |s| ==> p(s[i])
    ensures Filter(s, p) == s
  {
    if |s| > 0 {
      assert forall i :: 1 <= i < |s| ==> s[i] == s[1..][i - 1];
      FilterAll(s[1..], p);
    }
  }

  /** Concatenation of the inner sequences, in order (lodash `flatten` of arrays). */
  function Flatten<T>(ss: seq<seq<T>>): (r: seq<T>)
    ensures |r| == 0 <==> forall i :: 0 <= i < |ss| ==> |ss[i]| == 0
  {
    if |ss| == 0 then []
    else
      var rest := Flatten(ss[1..]);
      assert forall i :: 1 <= i < |ss| ==> ss[i] == ss[1..][i - 1];
      ss[0] + rest
  }

  lemma {:induction false} FlattenAppend<T>(ss: seq<seq<T>>, last: seq<T>)
    ensures Flatten(ss + [last]) == Flatten(ss) + last
  {
    if |ss| == 0 {
      assert ss + [last] == [last];
    } else {
      assert (ss + [last])[1..] == ss[1..] + [last];
      FlattenAppend(ss[1..], last);
    }
  }

  /** An element of the concatenation comes from one of the inner sequences, and back. */
  lemma {:induction false} FlattenMembers<T>(ss: seq<seq<T>>, x: T)
    ensures x in Flatten(ss) <==> exists i :: 0 <= i < |ss| && x in ss[i]
  {
    if |ss| > 0 {
      FlattenMembers(ss[1..], x);
      assert forall i :: 1 <= i < |ss| ==> ss[i] == ss[1..][i - 1];
      if x in Flatten(ss[1..]) {
        var i :| 0 <= i < |ss[1..]| && x in ss[1..][i];
        assert x in ss[i + 1];
      }
    }
  }

  /** An element of the inner sequences of the elements passing `p` comes from one such element, and back. */
  lemma FlattenFilterMembers<T, U>(s: seq<T>, p: T -> bool, f: T -> seq<U>, x: U)
    ensures x in Flatten(Map(Filter(s, p), f)) <==> exists j :: 0 <= j < |s| && p(s[j]) && x in f(s[j])
  {
    var kept := Filter(s, p);
    var per := Map(kept, f);
    FlattenMembers(per, x);
    SubseqMembers(kept, s);
    if x in Flatten(per) {
      var i :| 0 <= i < |per| && x in per[i];
      assert kept[i] in kept;
      var j :| 0 <= j < |s| && s[j] == kept[i];
      assert p(s[j]) && x in f(s[j]);
    }
    if exists j :: 0 <= j < |s| && p(s[j]) && x in f(s[j]) {
      var j :| 0 <= j < |s| && p(s[j]) && x in f(s[j]);
      var i :| 0 <= i < |kept| && kept[i] == s[j];
      assert x in per[i];
    }
  }

  /** The set of keys of the elements of `s`. */
  ghost function KeySet<T, K>(s: seq<T>, key: T -> K): set<K> {
    set i | 0 <= i < |s| :: key(s[i])
  }

  /** The keys of a non-empty sequence: the first element's, and the rest's. */
  lemma KeySetCons<T, K>(s: seq<T>, key: T -> K)
    requires |s| > 0
    ensures KeySet(s, key) == {key(s[0])} + KeySet(s[1..], key)
  {
    forall x | x in KeySet(s, key) ensures x in {key(s[0])} + KeySet(s[1..], key) {
      var i :| 0 <= i < |s| && key(s[i]) == x;
      if i > 0 { assert key(s[1..][i - 1]) == x; }
    }
    forall x | x in KeySet(s[1..], key) ensures x in KeySet(s, key) {
      var i :| 0 <= i < |s[1..]| && key(s[1..][i]) == x;
      assert key(s[i + 1]) == x;
    }
  }

  /** First-occurrence deduplication by `key`, skipping keys already in `seen`. */
  function UniqByFrom<T, K(==)>(s: seq<T>, key: T -> K, seen: set<K>): (r: seq<T>)
    ensures Subseq(r, s)
    ensures Distinct(Map(r, key))
    ensures forall i :: 0 <= i < |r| ==> key(r[i]) !in seen
    ensures KeySet(r, key) == KeySet(s, key) - seen
  {
    if |s| == 0 then []
    else
      var k := key(s[0]);
      KeySetCons(s, key);
      if k in seen then
        UniqByFrom(s[1..], key, seen)
      else
        var rest := UniqByFrom(s[1..], key, seen + {k});
        var r := [s[0]] + rest;
        assert r[1..] == rest;
        KeySetCons(r, key);
        assert Map(r, key)[1..] == Map(rest, key);
        r
  }

  /** Deduplicating a concatenation: the front is deduplicated first, and the back then skips
      the keys the front already had. */
  lemma {:induction false} UniqByFromAppend<T, K>(a: seq<T>, b: seq<T>, key: T -> K, seen: set<K>)
    ensures UniqByFrom(a + b, key, seen) == UniqByFrom(a, key, seen) + UniqByFrom(b, key, seen + KeySet(a, key))
    decreases |a|
  {
    if |a| == 0 {
      assert a + b == b;
      assert KeySet(a, key) == {};
      assert seen + KeySet(a, key) == seen;
    } else {
      var k := key(a[0]);
      assert (a + b)[0] == a[0];
      assert (a + b)[1..] == a[1..] + b;
      KeySetCons(a, key);
      if k in seen {
        UniqByFromAppend(a[1..], b, key, seen);
        assert seen + KeySet(a, key) == seen + KeySet(a[1..], key);
      } else {
        UniqByFromAppend(a[1..], b, key, seen + {k});
        assert seen + {k} + KeySet(a[1..], key) == seen + KeySet(a, key);
      }
    }
  }

  /** lodash `uniqBy`: keeps the first element of each key, in order. */
  function UniqBy<T, K(==)>(s: seq<T>, key: T -> K): (r: seq<T>)
    ensures Subseq(r, s)
    ensures Distinct(Map(r, key))
    ensures KeySet(r, key) == KeySet(s, key)
  {
    UniqByFrom(s, key, {})
  }

  /** An element appended is kept exactly when its key is new: `uniqBy` keeps first occurrences, in order. */
  lemma UniqByAppend<T, K>(s: seq<T>, x: T, key: T -> K)
    ensures UniqBy(s + [x], key) == UniqBy(s, key) + (if key(x) in KeySet(s, key) then [] else [x])
  {
    UniqByFromAppend(s, [x], key, {});
    assert {} + KeySet(s, key) == KeySet(s, key);
    assert [x][1..] == [];
  }

  /** lodash `uniq` and `[...new Set(s)]`: first occurrences, in order. */
  function Dedup<T(==)>(s: seq<T>): (r: seq<T>)
    ensures Subseq(r, s)
    ensures Distinct(r)
    ensures forall i :: 0 <= i < |s| ==> s[i] in r
    ensures forall i :: 0 <= i < |r| ==> r[i] in s
  {
    var r := UniqBy(s, (x: T) => x);
    assert Map(r, (x: T) => x) == r;
    SubseqMembers(r, s);
    assert forall i :: 0 <= i < |s| ==> s[i] in KeySet(s, (x: T) => x);
    assert forall x :: x in KeySet(r, (x: T) => x) ==> x in r;
    r
  }

  /** An element appended survives deduplication exactly when it has not occurred before. */
  lemma DedupAppend<T>(s: seq<T>, x: T)
    ensures Dedup(s + [x]) == Dedup(s) + (if x in s then [] else [x])
  {
    UniqByAppend(s, x, (y: T) => y);
    assert x in KeySet(s, (y: T) => y) <==> x in s by {
      if x in s {
        var i :| 0 <= i < |s| && s[i] == x;
      }
    }
  }

  /** The position of the first occurrence of `x` in `s`, or `|s|` when it does not occur. */
  function FirstIndex<T(==)>(s: seq<T>, x: T): (r: nat)
    ensures r <= |s|
    ensures r < |s| ==> s[r] == x
    ensures forall k :: 0 <= k < r ==> s[k] != x
  {
    if |s| == 0 then 0
    else if s[0] == x then 0
    else
      assert forall k :: 1 <= k < |s| ==> s[k] == s[1..][k - 1];
      1 + FirstIndex(s[1..], x)
  }

  /** Appending to `s` moves no first occurrence; a new element first occurs at the end. */
  lemma FirstIndexAppend<T>(s: seq<T>, x: T, y: T)
    ensures FirstIndex(s + [x], y) == if y in s then FirstIndex(s, y) else if y == x then |s| else |s| + 1
  {
    var i, j := FirstIndex(s + [x], y), FirstIndex(s, y);
    if y in s {
      var k :| 0 <= k < |s| && s[k] == y;
      assert (s + [x])[k] == y;
      assert (s + [x])[j] == y;
    } else if y == x {
      assert (s + [x])[|s|] == y;
    }
  }

  /** `r` lists elements of `s` in the order of their first occurrences in `s`. */
  ghost predicate FirstOccurrenceOrder<T>(r: seq<T>, s: seq<T>) {
    forall i, j :: 0 <= i < j < |r| ==> FirstIndex(s, r[i]) < FirstIndex(s, r[j])
  }

  /** Deduplication lists the elements in the order they first occur. */
  lemma {:induction false} DedupFirstOrder<T>(s: seq<T>)
    ensures FirstOccurrenceOrder(Dedup(s), s)
    decreases |s|
  {
    if |s| > 0 {
      var init, x := s[..|s| - 1], s[|s| - 1];
      assert init + [x] == s;
      DedupFirstOrder(init);
      DedupAppend(init, x);
      FirstOrderAppend(Dedup(init), init, x);
    }
  }

  /** Appending `x` to `s`, and to `r` when it is new, keeps `r` in first-occurrence order. */
  lemma FirstOrderAppend<T>(r: seq<T>, s: seq<T>, x: T)
    requires FirstOccurrenceOrder(r, s)
    requires forall k :: 0 <= k < |r| ==> r[k] in s
    ensures FirstOccurrenceOrder(r + (if x in s then [] else [x]), s + [x])
  {
    var r', s' := r + (if x in s then [] else [x]), s + [x];
    forall k | 0 <= k < |r'| ensures FirstIndex(s', r'[k]) == if k < |r| then FirstIndex(s, r[k]) else |s| {
      FirstIndexAppend(s, x, r'[k]);
      if k < |r| {
        assert r'[k] == r[k];
      }
    }
    assert forall k :: 0 <= k < |r| ==> FirstIndex(s, r[k]) < |s|;
  }

  /** The first element whose key is `k` (`find`, `findById`), if any. */
  function FindBy<T, K(==)>(s: seq<T>, key: T -> K, k: K): (r: Option<T>)
    ensures r.Some? ==> r.value in s && key(r.value) == k
    ensures r.None? <==> forall i :: 0 <= i < |s| ==> key(s[i]) != k
  {
    if |s| == 0 then None
    else if key(s[0]) == k then Some(s[0])
    else
      assert forall i :: 1 <= i < |s| ==> s[i] == s[1..][i - 1];
      FindBy(s[1..], key, k)
  }

  /** What `FindBy` finds is the first element with the key: every element before it has another. */
  lemma {:induction false} FindByFirst<T, K>(s: seq<T>, key: T -> K, k: K)
    requires FindBy(s, key, k).Some?
    ensures exists i :: 0 <= i < |s| && s[i] == FindBy(s, key, k).value && forall j :: 0 <= j < i ==> key(s[j]) != k
  {
    if key(s[0]) != k {
      FindByFirst(s[1..], key, k);
      var i :| 0 <= i < |s[1..]| && s[1..][i] == FindBy(s[1..], key, k).value && forall j :: 0 <= j < i ==> key(s[1..][j]) != k;
      assert s[i + 1] == FindBy(s, key, k).value;
    }
  }

  /** With pairwise different keys there are as many keys as elements. */
  lemma {:induction false} DistinctKeysCount<T, K>(s: seq<T>, key: T -> K)
    requires Distinct(Map(s, key))
    ensures |KeySet(s, key)| == |s|
  {
    if |s| > 0 {
      var tail := s[1..];
      assert Map(tail, key) == Map(s, key)[1..];
      DistinctKeysCount(tail, key);
      KeySetCons(s, key);
      assert key(s[0]) !in KeySet(tail, key) by {
        forall i | 0 <= i < |tail| ensures key(tail[i]) != key(s[0]) {
          assert Map(s, key)[i + 1] == key(tail[i]);
        }
      }
    }
  }
}

=== FILE: settings.dfy ===
/** The workspace and membership settings endpoints (`WorkspaceController`,
    `MembershipController`): reading and writing options, renaming a workspace,
    the storage quotes, and the taskbar pins. */
module Settings {
  import opened Wrappers
  import opened Ids
  import Text
  import Seqs
  import opened Options
  import opened Modules
  import opened Workspaces
  import Lifecycle
  import Ledger

  /** The `keys` query of the options endpoint as `getOptions` keys. */
  function PlainKeys(parts: seq<string>): (r: seq<OptionKey>)
    ensures |r| == |parts| && forall i :: 0 <= i < |parts| ==> r[i] == Plain(parts[i])
  {
    Seqs.Map(parts, (k: string) => Plain(k))
  }

  /** `GET options`: with a non-empty `keys` query, the comma-separated keys each with its
      option or `null`; otherwise the whole options object. */
  function OptionsResponse(options: Json, keys: Option<string>): (r: Json)
    ensures keys.None? || !Text.Truthy(keys.value) ==> r == options
    ensures keys.Some? && Text.Truthy(keys.value) ==>
      r.Obj? && forall k :: k in r.fields <==> k in Text.Split(keys.value, ',')
  {
    if keys.Some? && Text.Truthy(keys.value) then
      var parts := Text.Split(keys.value, ',');
      Obj(map k | k in parts :: GetOption(options, k, Null))
    else options
  }

  /** Each requested key answers as `getOptions` does for it, and the keys rejoin into the query. */
  lemma OptionsResponseAgrees(options: Json, keys: string, i: nat)
    requires Text.Truthy(keys) && i < |Text.Split(keys, ',')|
    ensures var parts := Text.Split(keys, ',');
      OptionsResponse(options, Some(keys)).fields[parts[i]] == GetOptions(options, PlainKeys(parts))[Plain(parts[i])] &&
      Text.Join(parts, ',') == keys
  {
    var parts := Text.Split(keys, ',');
    assert PlainKeys(parts)[i] == Plain(parts[i]);
    Text.JoinSplit(keys, ',');
  }

  /** A requested key that is not set answers `null`. */
  lemma MissingKeyAnswersNull(options: Json, keys: string, k: string)
    requires Text.Truthy(keys) && k in Text.Split(keys, ',')
    requires Lookup(options, PathOf(k)).None?
    ensures OptionsResponse(options, Some(keys)).fields[k] == Null
  {
  }

  /** `POST options` of a workspace: every body key written in order as a dotted path. */
  function UpdateWorkspaceOptions(w: WorkspaceRec, data: seq<(string, Json)>): (r: WorkspaceRec)
    ensures r.id == w.id && r.identifier == w.identifier && r.name == w.name && r.dbUrl == w.dbUrl
    ensures r.hostname == w.hostname && r.category == w.category
    ensures forall q :: (forall i :: 0 <= i < |data| ==> Diverge(PathOf(data[i].0), q)) ==> Lookup(r.options, q) == Lookup(w.options, q)
  {
    var r := w.(options := SetMany(w.options, data));
    assert forall q :: (forall i :: 0 <= i < |data| ==> Diverge(PathOf(data[i].0), q)) ==> Lookup(r.options, q) == Lookup(w.options, q) by {
      forall q | forall i :: 0 <= i < |data| ==> Diverge(PathOf(data[i].0), q) ensures Lookup(r.options, q) == Lookup(w.options, q) {
        SetManyKeepsUntouched(w.options, data, q);
      }
    }
    r
  }

  /** The last write to a path is what the updated workspace reads there. */
  lemma UpdatedWorkspaceOptionReadsBack(w: WorkspaceRec, data: seq<(string, Json)>, i: nat)
    requires i < |data|
    requires Settable(SetMany(w.options, data[..i]), PathOf(data[i].0))
    requires forall j :: i < j < |data| ==> Diverge(PathOf(data[j].0), PathOf(data[i].0))
    ensures GetOption(UpdateWorkspaceOptions(w, data).options, data[i].0, Null) == data[i].1
  {
    SetManyReadsBack(w.options, data, i);
  }

  /** `POST options` of a membership: the same dotted-path writes on the membership's options. */
  function UpdateMemberOptions(m: MembershipRec, data: seq<(string, Json)>): (r: MembershipRec)
    ensures r.workspace == m.workspace && r.user == m.user && r.roles == m.roles
    ensures r.tabBarPins == m.tabBarPins && r.homePath == m.homePath && r.password == m.password
    ensures forall q :: (forall i :: 0 <= i < |data| ==> Diverge(PathOf(data[i].0), q)) ==>
      Lookup(Obj(r.options), q) == Lookup(Obj(m.options), q)
  {
    SetManyKeepsObject(Obj(m.options), data);
    var r := m.(options := SetMany(Obj(m.options), data).fields);
    assert Obj(r.options) == SetMany(Obj(m.options), data);
    assert forall q :: (forall i :: 0 <= i < |data| ==> Diverge(PathOf(data[i].0), q)) ==>
      Lookup(Obj(r.options), q) == Lookup(Obj(m.options), q) by {
      forall q | forall i :: 0 <= i < |data| ==> Diverge(PathOf(data[i].0), q)
        ensures Lookup(Obj(r.options), q) == Lookup(Obj(m.options), q) {
        SetManyKeepsUntouched(Obj(m.options), data, q);
      }
    }
    r
  }

  /** The last write to a path is what the updated membership reads there. */
  lemma UpdatedMemberOptionReadsBack(m: MembershipRec, data: seq<(string, Json)>, i: nat)
    requires i < |data|
    requires Settable(SetMany(Obj(m.options), data[..i]), PathOf(data[i].0))
    requires forall j :: i < j < |data| ==> Diverge(PathOf(data[j].0), PathOf(data[i].0))
    ensures Lookup(Obj(UpdateMemberOptions(m, data).options), PathOf(data[i].0)) == Some(data[i].1)
  {
    SetManyKeepsObject(Obj(m.options), data);
    SetManyReadsBack(Obj(m.options), data, i);
  }

  /** `POST taskbar`: the falsy pins are dropped (the request sanitizer) and the rest replace
      the old pins wholesale. */
  function SetTaskbar(m: MembershipRec, pins: seq<string>): (r: MembershipRec)
    ensures r == m.(tabBarPins := r.tabBarPins)
    ensures Seqs.Subseq(r.tabBarPins, pins)
    ensures forall i :: 0 <= i < |r.tabBarPins| ==> Text.Truthy(r.tabBarPins[i])
    ensures forall i :: 0 <= i < |pins| && Text.Truthy(pins[i]) ==> pins[i] in r.tabBarPins
    ensures forall x :: multiset(r.tabBarPins)[x] == if Text.Truthy(x) then multiset(pins)[x] else 0
  {
    var kept := Seqs.Filter(pins, (p: string) => Text.Truthy(p));
    assert forall x :: multiset(kept)[x] == if Text.Truthy(x) then multiset(pins)[x] else 0 by {
      forall x ensures multiset(kept)[x] == if Text.Truthy(x) then multiset(pins)[x] else 0 {
        Seqs.FilterCount(pins, (p: string) => Text.Truthy(p), x);
      }
    }
    m.(tabBarPins := kept)
  }

  /** The old pins play no part: two memberships given the same pins end with the same pins. */
  lemma TaskbarReplacesWholesale(m1: MembershipRec, m2: MembershipRec, pins: seq<string>)
    ensures SetTaskbar(m1, pins).tabBarPins == SetTaskbar(m2, pins).tabBarPins
  {
  }

  /** `GET quotes`: the summed plan capacity, the used space measured on disk, and their difference. */
  function WorkspaceQuotes(plans: seq<StoragePlan>, subs: seq<Ledger.Subscription>, used: int): (r: Result<Quotes, ObjectId>)
    ensures r.Failure? <==> exists i :: 0 <= i < |subs| && PlanOf(plans, subs[i].subscribed).None?
    ensures r.Success? ==> r.value.used == used && r.value.free == r.value.capacity - used
    ensures |subs| == 0 ==> r == Success(Quotes(0, used, -used))
  {
    match StorageCapacity(plans, subs)
    case Failure(e) => Failure(e)
    case Success(capacity) => Success(StorageQuotes(capacity, used))
  }

  /** Why a settings update throws before anything runs: the workspace has no name map to set into. */
  datatype SettingsError = NoNameMap

  /** `POST settings`: `name['fa-IR']` is set in memory, then pre-save hooks, save, post-save
      hooks. The stored document changes only when the save ran. The save itself always writes:
      the name map is under no index or validator. */
  function UpdateSettings(w: WorkspaceRec, name: string, preOk: bool, postOk: bool): (r: Result<(WorkspaceRec, Lifecycle.SaveRun), SettingsError>)
    ensures r.Failure? <==> w.name.None?
    ensures r.Success? ==> r.value.1 == Lifecycle.RunSave(preOk, true, postOk)
    ensures r.Success? && preOk ==> r.value.0.name.Some? && "fa-IR" in r.value.0.name.value && r.value.0.name.value["fa-IR"] == name
    ensures r.Success? && preOk ==>
      forall k :: k in w.name.value && k != "fa-IR" ==> k in r.value.0.name.value && r.value.0.name.value[k] == w.name.value[k]
    ensures r.Success? && preOk ==> r.value.0.(name := w.name) == w
    ensures r.Success? && !preOk ==> r.value.0 == w
  {
    match w.name
    case None => Failure(NoNameMap)
    case Some(names) =>
      var run := Lifecycle.RunSave(preOk, true, postOk);
      Success((if Lifecycle.Save in run.steps then w.(name := Some(names["fa-IR" := name])) else w, run))
  }
}

=== FILE: sharedschemas.dfy ===
/** The schemas `createConnection` registers, as written. The schema objects it merges are the
    ones the loaded code modules hold, and the application keeps those modules across calls;
    `schemas[name].add(schema)` therefore extends the first contributor's own object in place.
    `Composition.CreateConnection` is the corrected reading, where every connection starts from
    the schemas as the modules were loaded. */
module SharedSchemas {
  import opened Wrappers
  import Text
  import Seqs
  import MultiMaps
  import opened Composition

  /** A schema object held by a loaded code module: the `pos`-th of module `owner`'s own schemas,
      or the `pos`-th schema `owner` injects under its `target`-th `injects` entry. */
  datatype SchemaRef = Own(owner: string, pos: nat) | Injected(owner: string, target: nat, pos: nat)

  /** One contribution to `schemas`: the name it is merged under, the object, and that object's
      content as the module was loaded. */
  datatype Tagged<S> = Tagged(name: string, ref: SchemaRef, loaded: S)

  /** What `.add` has made of the loaded objects so far; an object absent here is as loaded. */
  type Store<S> = map<SchemaRef, seq<S>>

  function Content<S>(store: Store<S>, t: Tagged<S>): seq<S> {
    if t.ref in store then store[t.ref] else [t.loaded]
  }

  function Plain<S>(t: Tagged<S>): (string, S) {
    (t.name, t.loaded)
  }

  /** `forOwn(omit(module.schemas, 'injects'), …)` from position `i` on. */
  function OwnFrom<S>(owner: string, named: seq<(string, S)>, i: nat): seq<Tagged<S>>
    requires i <= |named|
    decreases |named| - i
  {
    if i == |named| then []
    else
      (if named[i].0 != "injects" then [Tagged(named[i].0, Own(owner, i), named[i].1)] else []) +
      OwnFrom(owner, named, i + 1)
  }

  /** The schemas of one `injects` entry, each with its object. */
  function FragmentTagged<S>(owner: string, target: nat, frag: seq<(string, S)>): seq<Tagged<S>> {
    seq(|frag|, i requires 0 <= i < |frag| => Tagged(frag[i].0, Injected(owner, target, i), frag[i].1))
  }

  /** `forOwn(module.schemas['injects'], …)` from entry `t` on, keeping the entries whose target
      module is resolved. */
  function InjectedFrom<S>(owner: string, injects: seq<(string, seq<(string, S)>)>, names: seq<string>, t: nat): seq<Tagged<S>>
    requires t <= |injects|
    decreases |injects| - t
  {
    if t == |injects| then []
    else
      (if injects[t].0 in names then FragmentTagged(owner, t, injects[t].1) else []) +
      InjectedFrom(owner, injects, names, t + 1)
  }

  function ModuleTagged<S, H>(m: AppModule<S, H>, names: seq<string>): seq<Tagged<S>> {
    OwnFrom(m.name, m.schemas.named, 0) + InjectedFrom(m.name, m.schemas.injects, names, 0)
  }

  function AllTagged<S, H>(resolved: seq<AppModule<S, H>>): seq<Tagged<S>> {
    Seqs.Flatten(Seqs.Map(resolved, (m: AppModule<S, H>) => ModuleTagged(m, Names(resolved))))
  }

  /** The merge loop from `cs` on. `first` maps each name seen to its first contribution and
      `order` lists those names as first seen; a later contribution under a seen name extends
      the first one's object with the added object's current content. */
  function Merge<S>(store: Store<S>, first: map<string, Tagged<S>>, order: seq<string>, cs: seq<Tagged<S>>)
    : (r: (Store<S>, map<string, Tagged<S>>, seq<string>))
    ensures forall x :: x in store ==> x in r.0 && store[x] <= r.0[x]
    ensures forall n :: n in first ==> n in r.1 && r.1[n] == first[n]
    decreases |cs|
  {
    if |cs| == 0 then (store, first, order)
    else
      var c := cs[0];
      if c.name in first then
        var f := first[c.name];
        Merge(store[f.ref := Content(store, f) + Content(store, c)], first, order, cs[1..])
      else Merge(store, first[c.name := c], order + [c.name], cs[1..])
  }

  /** `forOwn(schemas, (value, key) => connection.model(key, value))`. */
  function Models<S>(store: Store<S>, first: map<string, Tagged<S>>, order: seq<string>): (r: MultiMaps.MultiMap<S>)
    ensures MultiMaps.Keys(r) == order
  {
    var r := Seqs.Map(order, (n: string) => (n, if n in first then Content(store, first[n]) else []));
    MultiMaps.KeysIndex(r);
    r
  }

  /** `createConnection(app)` as written, given the state the loaded schema objects are in: the
      connection, and the state the call leaves them in. */
  function CreateConnectionShared<S, H>(store: Store<S>, dbUrl: Option<string>, resolved: seq<AppModule<S, H>>)
    : (r: (Store<S>, Option<Connection<S>>))
    ensures r.1.None? <==> dbUrl.None? || !Text.Truthy(dbUrl.value)
    ensures r.1.None? ==> r.0 == store
    ensures forall x :: x in store ==> x in r.0 && store[x] <= r.0[x]
    ensures r.1.Some? ==>
      r.1.value.url == dbUrl.value && MultiMaps.Keys(r.1.value.models) == MultiMaps.Keys(MergeSchemas(resolved))
  {
    if dbUrl.None? || !Text.Truthy(dbUrl.value) then (store, None)
    else
      var cs := AllTagged(resolved);
      var m := Merge(store, map[], [], cs);
      assert m.2 == MultiMaps.Keys(MergeSchemas(resolved)) by {
        MergeKeys(store, map[], [], cs, []);
        AllTaggedPlain(resolved);
      }
      (m.0, Some(Connection(dbUrl.value, Models(m.0, m.1, m.2))))
  }

  /** The merge loop lists names in the order the corrected fold first meets them. */
  lemma {:induction false} MergeKeys<S>(store: Store<S>, first: map<string, Tagged<S>>, order: seq<string>,
                                        cs: seq<Tagged<S>>, mm: MultiMaps.MultiMap<S>)
    requires order == MultiMaps.Keys(mm)
    requires forall n :: n in first <==> n in order
    ensures Merge(store, first, order, cs).2 == MultiMaps.Keys(MultiMaps.AppendAll(mm, Seqs.Map(cs, Plain)))
    decreases |cs|
  {
    if |cs| > 0 {
      var c := cs[0];
      var kvs := Seqs.Map(cs, Plain);
      assert kvs[0] == (c.name, c.loaded) && kvs[1..] == Seqs.Map(cs[1..], Plain);
      var mm1 := MultiMaps.Append(mm, c.name, c.loaded);
      MultiMaps.AppendKeys(mm, c.name, c.loaded);
      if c.name in first {
        var f := first[c.name];
        MergeKeys(store[f.ref := Content(store, f) + Content(store, c)], first, order, cs[1..], mm1);
      } else {
        MergeKeys(store, first[c.name := c], order + [c.name], cs[1..], mm1);
      }
    }
  }

  /** `Plain` distributes over concatenation. */
  lemma PlainAppend<S>(a: seq<Tagged<S>>, b: seq<Tagged<S>>)
    ensures Seqs.Map(a + b, Plain) == Seqs.Map(a, Plain) + Seqs.Map(b, Plain)
  {
  }

  lemma {:induction false} OwnFromPlain<S>(owner: string, named: seq<(string, S)>, i: nat)
    requires i <= |named|
    ensures Seqs.Map(OwnFrom(owner, named, i), Plain) == Seqs.Filter(named[i..], (p: (string, S)) => p.0 != "injects")
    decreases |named| - i
  {
    if i < |named| {
      var head: seq<Tagged<S>> := if named[i].0 != "injects" then [Tagged(named[i].0, Own(owner, i), named[i].1)] else [];
      OwnFromPlain(owner, named, i + 1);
      PlainAppend(head, OwnFrom(owner, named, i + 1));
      assert named[i..][0] == named[i] && named[i..][1..] == named[i + 1..];
    }
  }

  lemma {:induction false} InjectedFromPlain<S>(owner: string, injects: seq<(string, seq<(string, S)>)>, names: seq<string>, t: nat)
    requires t <= |injects|
    ensures Seqs.Map(InjectedFrom(owner, injects, names, t), Plain) ==
      Seqs.Flatten(Seqs.Map(Seqs.Filter(injects[t..], (e: (string, seq<(string, S)>)) => e.0 in names),
                            (e: (string, seq<(string, S)>)) => e.1))
    decreases |injects| - t
  {
    if t < |injects| {
      var head := if injects[t].0 in names then FragmentTagged(owner, t, injects[t].1) else [];
      InjectedFromPlain(owner, injects, names, t + 1);
      PlainAppend(head, InjectedFrom(owner, injects, names, t + 1));
      assert Seqs.Map(FragmentTagged(owner, t, injects[t].1), Plain) == injects[t].1;
      assert injects[t..][0] == injects[t] && injects[t..][1..] == injects[t + 1..];
      var rest := Seqs.Filter(injects[t + 1..], (e: (string, seq<(string, S)>)) => e.0 in names);
      if injects[t].0 in names {
        var kept := [injects[t]] + rest;
        assert kept[0] == injects[t] && kept[1..] == rest;
        assert Seqs.Map(kept, (e: (string, seq<(string, S)>)) => e.1)[1..] ==
          Seqs.Map(rest, (e: (string, seq<(string, S)>)) => e.1);
      }
    }
  }

  /** Without the objects, a module's contributions are exactly the corrected ones, in order. */
  lemma ModuleTaggedPlain<S, H>(m: AppModule<S, H>, names: seq<string>)
    ensures Seqs.Map(ModuleTagged(m, names), Plain) == SchemaContributions(m, names)
  {
    OwnFromPlain(m.name, m.schemas.named, 0);
    InjectedFromPlain(m.name, m.schemas.injects, names, 0);
    PlainAppend(OwnFrom(m.name, m.schemas.named, 0), InjectedFrom(m.name, m.schemas.injects, names, 0));
    assert m.schemas.named[0..] == m.schemas.named;
    assert m.schemas.injects[0..] == m.schemas.injects;
  }

  lemma {:induction false} ModulesTaggedPlain<S, H>(ms: seq<AppModule<S, H>>, names: seq<string>)
    ensures Seqs.Map(Seqs.Flatten(Seqs.Map(ms, (m: AppModule<S, H>) => ModuleTagged(m, names))), Plain) ==
      Seqs.Flatten(Seqs.Map(ms, (m: AppModule<S, H>) => SchemaContributions(m, names)))
    decreases |ms|
  {
    if |ms| > 0 {
      var tagged := Seqs.Map(ms, (m: AppModule<S, H>) => ModuleTagged(m, names));
      var plain := Seqs.Map(ms, (m: AppModule<S, H>) => SchemaContributions(m, names));
      assert tagged[1..] == Seqs.Map(ms[1..], (m: AppModule<S, H>) => ModuleTagged(m, names));
      assert plain[1..] == Seqs.Map(ms[1..], (m: AppModule<S, H>) => SchemaContributions(m, names));
      ModulesTaggedPlain(ms[1..], names);
      ModuleTaggedPlain(ms[0], names);
      PlainAppend(tagged[0], Seqs.Flatten(tagged[1..]));
    }
  }

  /** The as-written loop meets the same contributions, in the same order, as the corrected
      merge; only the objects' contents differ. */
  lemma AllTaggedPlain<S, H>(resolved: seq<AppModule<S, H>>)
    ensures Seqs.Map(AllTagged(resolved), Plain) == AllSchemaContributions(resolved)
  {
    ModulesTaggedPlain(resolved, Names(resolved));
  }

  /** One step of the merge loop on a name not seen yet. */
  lemma MergeFresh<S>(store: Store<S>, first: map<string, Tagged<S>>, order: seq<string>, c: Tagged<S>, rest: seq<Tagged<S>>)
    requires c.name !in first
    ensures Merge(store, first, order, [c] + rest) == Merge(store, first[c.name := c], order + [c.name], rest)
  {
    assert ([c] + rest)[1..] == rest;
  }

  /** One step of the merge loop on a name already seen. */
  lemma MergeSeen<S>(store: Store<S>, first: map<string, Tagged<S>>, order: seq<string>, c: Tagged<S>, rest: seq<Tagged<S>>)
    requires c.name in first
    ensures Merge(store, first, order, [c] + rest) ==
      Merge(store[first[c.name].ref := Content(store, first[c.name]) + Content(store, c)], first, order, rest)
  {
    assert ([c] + rest)[1..] == rest;
  }

  lemma ConnectionShared<S, H>(store: Store<S>, url: string, resolved: seq<AppModule<S, H>>)
    requires Text.Truthy(url)
    ensures var m := Merge(store, map[], [], AllTagged(resolved));
      CreateConnectionShared(store, Some(url), resolved) == (m.0, Some(Connection(url, Models(m.0, m.1, m.2))))
  {
  }

  /** Module `a`, owning schema `n` as `x`. */
  function OwnerModule<S, H>(x: S): AppModule<S, H> {
    AppModule("a", SchemaSet([("n", x)], []), NoHooks, false)
  }

  /** Module `b`, injecting `y` into module `a` under schema name `n`. */
  function InjectorModule<S, H>(y: S): AppModule<S, H> {
    AppModule("b", SchemaSet([], [("a", [("n", y)])]), NoHooks, false)
  }

  lemma OwnerInjectorTagged<S, H>(x: S, y: S)
    ensures AllTagged([OwnerModule<S, H>(x), InjectorModule<S, H>(y)]) ==
      [Tagged("n", Own("a", 0), x), Tagged("n", Injected("b", 0, 0), y)]
    ensures AllTagged([OwnerModule<S, H>(x)]) == [Tagged("n", Own("a", 0), x)]
  {
    var a, b := OwnerModule<S, H>(x), InjectorModule<S, H>(y);
    var own := Tagged("n", Own("a", 0), x);
    var inj := Tagged("n", Injected("b", 0, 0), y);
    var noInjects: seq<(string, seq<(string, S)>)> := [];
    var noNamed: seq<(string, S)> := [];
    assert Names([a, b]) == ["a", "b"];
    assert Names([a]) == ["a"];
    assert OwnFrom("a", [("n", x)], 1) == [];
    assert OwnFrom("a", [("n", x)], 0) == [own];
    assert ModuleTagged(a, ["a", "b"]) == [own] by {
      assert InjectedFrom("a", noInjects, ["a", "b"], 0) == [];
    }
    assert ModuleTagged(a, ["a"]) == [own] by {
      assert InjectedFrom("a", noInjects, ["a"], 0) == [];
    }
    assert ModuleTagged(b, ["a", "b"]) == [inj] by {
      assert OwnFrom("b", noNamed, 0) == [];
      assert FragmentTagged("b", 0, [("n", y)]) == [inj];
      assert InjectedFrom("b", [("a", [("n", y)])], ["a", "b"], 1) == [];
      assert InjectedFrom("b", [("a", [("n", y)])], ["a", "b"], 0) == [inj];
    }
    assert Seqs.Map([a, b], (m: AppModule<S, H>) => ModuleTagged(m, ["a", "b"])) == [[own], [inj]];
    assert Seqs.Flatten([[own], [inj]]) == [own, inj] by {
      assert Seqs.Flatten([[inj]]) == [inj];
    }
    assert Seqs.Map([a], (m: AppModule<S, H>) => ModuleTagged(m, ["a"])) == [[own]];
  }

  /** The corrected merge: `x` extended by `y` with both modules, `x` alone with `a` only. */
  lemma OwnerInjectorMerged<S, H>(x: S, y: S)
    ensures MergeSchemas([OwnerModule<S, H>(x), InjectorModule<S, H>(y)]) == [("n", [x, y])]
    ensures MergeSchemas([OwnerModule<S, H>(x)]) == [("n", [x])]
  {
    var a, b := OwnerModule<S, H>(x), InjectorModule<S, H>(y);
    OwnerInjectorTagged<S, H>(x, y);
    AllTaggedPlain([a, b]);
    AllTaggedPlain([a]);
    assert AllSchemaContributions([a, b]) == [("n", x), ("n", y)];
    assert AllSchemaContributions([a]) == [("n", x)];
    var one := MultiMaps.Append([], "n", x);
    assert one == [("n", [x])];
    assert one[0].1 + [y] == [x, y] && one[1..] == [];
    assert MultiMaps.Append(one, "n", y) == [("n", [x, y])];
    assert [("n", x), ("n", y)][1..] == [("n", y)];
    assert MultiMaps.AppendAll([], [("n", x), ("n", y)]) == MultiMaps.AppendAll(one, [("n", y)]);
    assert MultiMaps.AppendAll(one, [("n", y)]) == MultiMaps.AppendAll([("n", [x, y])], []);
    assert MultiMaps.AppendAll([], [("n", x)]) == MultiMaps.AppendAll(one, []);
  }

  /** The first call extends `a`'s own object with `b`'s fragment. */
  lemma MergeOwnerInjector<S>(x: S, y: S)
    ensures var own := Tagged("n", Own("a", 0), x);
      Merge(map[], map[], [], [own, Tagged("n", Injected("b", 0, 0), y)]) ==
      (map[Own("a", 0) := [x, y]], map["n" := own], ["n"])
  {
    var own := Tagged("n", Own("a", 0), x);
    var inj := Tagged("n", Injected("b", 0, 0), y);
    var empty: Store<S> := map[];
    var none: map<string, Tagged<S>> := map[];
    MergeFresh(empty, none, [], own, [inj]);
    assert [own] + [inj] == [own, inj];
    assert none["n" := own] == map["n" := own] && [] + ["n"] == ["n"];
    MergeSeen(empty, map["n" := own], ["n"], inj, []);
    assert [inj] + [] == [inj];
    assert Content(empty, own) + Content(empty, inj) == [x, y];
    assert empty[Own("a", 0) := [x, y]] == map[Own("a", 0) := [x, y]];
  }

  /** The second call starts from the object the first one extended. */
  lemma MergeOwnerAgain<S>(x: S, y: S)
    ensures var own := Tagged("n", Own("a", 0), x);
      var store := map[Own("a", 0) := [x, y]];
      Merge(store, map[], [], [own]) == (store, map["n" := own], ["n"])
  {
    var own := Tagged("n", Own("a", 0), x);
    var store := map[Own("a", 0) := [x, y]];
    var none: map<string, Tagged<S>> := map[];
    MergeFresh(store, none, [], own, []);
    assert [own] + [] == [own];
    assert none["n" := own] == map["n" := own] && [] + ["n"] == ["n"];
  }

  /** A first workspace resolving modules `a` and `b` gets `n` as `x` extended by `y`, as the
      corrected merge says; but `a`'s own object now holds `y`, and a second workspace resolving
      `a` alone registers `y` too, where the corrected merge registers `x` only. */
  lemma InjectedFragmentLeaks<S, H>(x: S, y: S, url: string)
    requires Text.Truthy(url)
    ensures
      var firstCall := CreateConnectionShared(map[], Some(url), [OwnerModule<S, H>(x), InjectorModule<S, H>(y)]);
      var secondCall := CreateConnectionShared(firstCall.0, Some(url), [OwnerModule<S, H>(x)]);
      firstCall.1 == CreateConnection(Some(url), [OwnerModule<S, H>(x), InjectorModule<S, H>(y)]) &&
      secondCall.1 == Some(Connection(url, [("n", [x, y])])) &&
      CreateConnection(Some(url), [OwnerModule<S, H>(x)]) == Some(Connection(url, [("n", [x])]))
  {
    var a, b := OwnerModule<S, H>(x), InjectorModule<S, H>(y);
    var own := Tagged("n", Own("a", 0), x);
    var inj := Tagged("n", Injected("b", 0, 0), y);
    OwnerInjectorTagged<S, H>(x, y);
    OwnerInjectorMerged<S, H>(x, y);
    var m1 := Merge(map[], map[], [], [own, inj]);
    MergeOwnerInjector(x, y);
    ConnectionShared(map[], url, [a, b]);
    assert Models(m1.0, m1.1, m1.2) == [("n", [x, y])];
    var m2 := Merge(m1.0, map[], [], [own]);
    MergeOwnerAgain(x, y);
    ConnectionShared(m1.0, url, [a]);
    assert Models(m2.0, m2.1, m2.2) == [("n", [x, y])];
  }
}

=== FILE: text.dfy ===
/** String rules used by the composition engine: case folding for name matching,
    the whitespace class of JavaScript regular expressions, `split` / `join`. */
module Text {
  import Seqs

  /** JavaScript truthiness of a string: only the empty string is falsy. */
  predicate Truthy(s: string) {
    |s| > 0
  }

  /** Lower-casing of one character (`toLowerCase`), restricted to the ASCII letters. */
  function LowerChar(c: char): (r: char)
    ensures !('A' <= r <= 'Z')
    ensures !('A' <= c <= 'Z') ==> r == c
  {
    if 'A' <= c <= 'Z' then (c as int + 32) as char else c
  }

  /** `String(s).toLowerCase()`. */
  function Lower(s: string): (r: string)
    ensures |r| == |s|
    ensures forall i :: 0 <= i < |s| ==> r[i] == LowerChar(s[i])
  {
    if |s| == 0 then "" else [LowerChar(s[0])] + Lower(s[1..])
  }

  /** Case folding is idempotent, so a lower-cased list can be compared with a lower-cased name. */
  lemma LowerIdempotent(s: string)
    ensures Lower(Lower(s)) == Lower(s)
  {
  }

  /** Two strings match "case-insensitively" in the sense used throughout the source. */
  predicate SameIgnoringCase(a: string, b: string) {
    Lower(a) == Lower(b)
  }

  /** Membership of `Lower(name)` in the lower-cased list `names` (lodash `includes` after `map(.., toLower)`). */
  predicate InIgnoringCase(name: string, names: seq<string>) {
    exists i :: 0 <= i < |names| && Lower(names[i]) == Lower(name)
  }

  lemma InIgnoringCaseAppend(name: string, a: seq<string>, b: seq<string>)
    ensures InIgnoringCase(name, a + b) <==> InIgnoringCase(name, a) || InIgnoringCase(name, b)
  {
    if InIgnoringCase(name, a + b) {
      var j :| 0 <= j < |a + b| && Lower((a + b)[j]) == Lower(name);
      if j >= |a| {
        assert (a + b)[j] == b[j - |a|];
      }
    }
    if InIgnoringCase(name, b) {
      var j :| 0 <= j < |b| && Lower(b[j]) == Lower(name);
      assert (a + b)[|a| + j] == b[j];
    }
    if InIgnoringCase(name, a) {
      var j :| 0 <= j < |a| && Lower(a[j]) == Lower(name);
      assert (a + b)[j] == a[j];
    }
  }

  /** The characters matched by `\s` in a JavaScript regular expression. */
  predicate IsSpace(c: char) {
    c == ' ' || c == '\t' || c == '\n' || c == '\r' || c == '\U{000B}' || c == '\U{000C}'
    || c == '\U{00A0}' || c == '\U{1680}' || ('\U{2000}' <= c <= '\U{200A}')
    || c == '\U{2028}' || c == '\U{2029}' || c == '\U{202F}' || c == '\U{205F}'
    || c == '\U{3000}' || c == '\U{FEFF}'
  }

  /** `s.replace(/\s/g, '')`: every whitespace character removed, the rest kept in order. */
  function StripSpaces(s: string): (r: string)
    ensures forall i :: 0 <= i < |r| ==> !IsSpace(r[i])
    ensures |r| <= |s|
    ensures (forall i :: 0 <= i < |s| ==> !IsSpace(s[i])) ==> r == s
    ensures r == Seqs.Filter(s, (c: char) => !IsSpace(c))
  {
    if |s| == 0 then ""
    else if IsSpace(s[0]) then StripSpaces(s[1..])
    else [s[0]] + StripSpaces(s[1..])
  }

  /** `s.replace(/( )|(-)/g, '_')`: every space and hyphen becomes an underscore. */
  function UnderscoreSeparators(s: string): (r: string)
    ensures |r| == |s|
    ensures forall i :: 0 <= i < |s| ==> r[i] == (if s[i] == ' ' || s[i] == '-' then '_' else s[i])
  {
    if |s| == 0 then ""
    else [if s[0] == ' ' || s[0] == '-' then '_' else s[0]] + UnderscoreSeparators(s[1..])
  }

  /** `s.split(sep)` (and lodash `split(s, sep)`) for a one-character separator. */
  function Split(s: string, sep: char): (r: seq<string>)
    ensures |r| >= 1
    ensures forall i :: 0 <= i < |r| ==> sep !in r[i]
  {
    if |s| == 0 then [""]
    else
      var rest := Split(s[1..], sep);
      if s[0] == sep then [""] + rest
      else [[s[0]] + rest[0]] + rest[1..]
  }

  /** `parts.join(sep)`. */
  function Join(parts: seq<string>, sep: char): string {
    if |parts| == 0 then ""
    else if |parts| == 1 then parts[0]
    else parts[0] + [sep] + Join(parts[1..], sep)
  }

  /** Joining the pieces of a split gives back the original string. */
  lemma {:induction false} JoinSplit(s: string, sep: char)
    ensures Join(Split(s, sep), sep) == s
  {
    if |s| > 0 {
      var rest := Split(s[1..], sep);
      JoinSplit(s[1..], sep);
      if s[0] == sep {
        assert ([""] + rest)[1..] == rest;
        assert s == [s[0]] + s[1..];
      } else {
        var r := [[s[0]] + rest[0]] + rest[1..];
        if |rest| == 1 {
          assert r == [[s[0]] + rest[0]];
        } else {
          assert r[1..] == rest[1..];
          assert Join(rest, sep) == rest[0] + [sep] + Join(rest[1..], sep);
        }
      }
    }
  }

  /** Splitting a join of separator-free pieces gives back the pieces. */
  lemma {:induction false} SplitJoin(parts: seq<string>, sep: char)
    requires |parts| >= 1
    requires forall i :: 0 <= i < |parts| ==> sep !in parts[i]
    ensures Split(Join(parts, sep), sep) == parts
    decreases |parts|, |parts[0]|
  {
    if |parts[0]| > 0 {
      var tail := [parts[0][1..]] + parts[1..];
      assert Join(parts, sep) == [parts[0][0]] + Join(tail, sep) by {
        if |parts| == 1 {
        } else {
          assert tail[1..] == parts[1..];
        }
      }
      SplitJoin(tail, sep);
      assert Join(parts, sep)[1..] == Join(tail, sep);
      assert [parts[0][0]] + tail[0] == parts[0];
      assert [parts[0]] + tail[1..] == parts;
    } else if |parts| > 1 {
      assert Join(parts, sep) == [sep] + Join(parts[1..], sep);
      assert Join(parts, sep)[1..] == Join(parts[1..], sep);
      SplitJoin(parts[1..], sep);
      assert [""] + parts[1..] == parts;
    }
  }
}

=== FILE: users.dfy ===
/** User documents: the `fullName` virtual and the current-workspace pointer. */
module Users {
  import opened Wrappers
  import opened Ids
  import Text

  datatype UserRec = UserRec(
    id: ObjectId,
    firstName: Option<string>,
    lastName: Option<string>,
    currentWorkspace: Option<ObjectId>)

  /** A missing name reads as falsy, like `Boolean(undefined)`. */
  predicate Given(s: Option<string>) {
    s.Some? && Text.Truthy(s.value)
  }

  /** `join([firstName, lastName], ' ')` when either name is truthy, otherwise `null`;
      a missing name joins as the empty string. */
  function FullName(u: UserRec): (r: Option<string>)
    ensures r.None? <==> !Given(u.firstName) && !Given(u.lastName)
    ensures r.Some? ==> |r.value| == |u.firstName.GetOr("")| + 1 + |u.lastName.GetOr("")|
    ensures r.Some? ==> r.value[|u.firstName.GetOr("")|] == ' '
  {
    if Given(u.firstName) || Given(u.lastName) then
      Some(u.firstName.GetOr("") + " " + u.lastName.GetOr(""))
    else None
  }

  /** The two names can be read back from the full name around the separating space. */
  lemma FullNameParts(u: UserRec)
    requires FullName(u).Some?
    ensures FullName(u).value[..|u.firstName.GetOr("")|] == u.firstName.GetOr("")
    ensures FullName(u).value[|u.firstName.GetOr("")| + 1..] == u.lastName.GetOr("")
  {
    var f, l := u.firstName.GetOr(""), u.lastName.GetOr("");
    assert FullName(u).value == f + " " + l;
    assert (f + " " + l)[..|f|] == f;
    assert (f + " " + l)[|f| + 1..] == l;
  }

  /** `user.setCurrentWorkspace(workspace)` and `workspace.setAsUserCurrentWorkspace(user)`:
      only the current-workspace pointer changes. */
  function SetCurrentWorkspace(u: UserRec, ws: ObjectId): (r: UserRec)
    ensures r.currentWorkspace == Some(ws)
    ensures r.id == u.id && r.firstName == u.firstName && r.lastName == u.lastName
  {
    u.(currentWorkspace := Some(ws))
  }
}

=== FILE: workspaces.dfy ===
/** Workspace and membership documents: `Workspace.createNew`, `addMember`,
    the membership queries and the storage capacity of a workspace. */
module Workspaces {
  import opened Wrappers
  import opened Ids
  import Text
  import Seqs
  import opened Options
  import opened Modules
  import Ledger

  /** One stored workspace document. */
  datatype WorkspaceRec = WorkspaceRec(
    id: ObjectId,
    identifier: string,
    hostname: Option<string>,
    dbUrl: Option<string>,
    name: Option<Localized>,
    category: Option<ObjectId>,
    options: Json)

  /** `data.name`: a plain string, or an already localized map. */
  datatype NameInput = NameText(text: string) | NameMap(names: Localized)

  /** The fields `createNew` reads from its argument; `None` is a missing field. */
  datatype NewWorkspace = NewWorkspace(
    identifier: Option<string>,
    hostname: Option<string>,
    name: Option<NameInput>,
    category: Option<ObjectId>)

  const DbHost: string := "mongodb://127.0.0.1:27017/"

  /** The first candidate slug no stored workspace uses: the `uniqueSlug()` / `count` retry loop,
      with the random slugs supplied as a finite list. */
  method FreshSlug(candidates: seq<string>, taken: set<string>) returns (r: Option<string>)
    ensures r.Some? ==> r.value !in taken
    ensures r.Some? ==>
      exists i :: 0 <= i < |candidates| && candidates[i] == r.value && (forall j :: 0 <= j < i ==> candidates[j] in taken)
    ensures r.None? <==> forall i :: 0 <= i < |candidates| ==> candidates[i] in taken
  {
    var i := 0;
    while i < |candidates|
      invariant 0 <= i <= |candidates|
      invariant forall j :: 0 <= j < i ==> candidates[j] in taken
    {
      if candidates[i] !in taken {
        return Some(candidates[i]);
      }
      i := i + 1;
    }
    return None;
  }

  /** The stored identifier: the given one when truthy, otherwise the generated slug,
      with every `\s` character removed. */
  function WorkspaceIdentifier(given: Option<string>, slug: string): (r: string)
    ensures forall i :: 0 <= i < |r| ==> !Text.IsSpace(r[i])
    ensures given.Some? && Text.Truthy(given.value) ==> r == Text.StripSpaces(given.value)
    ensures !(given.Some? && Text.Truthy(given.value)) ==> r == Text.StripSpaces(slug)
  {
    Text.StripSpaces(if given.Some? && Text.Truthy(given.value) then given.value else slug)
  }

  /** The database name derived from an identifier: spaces and hyphens become underscores. */
  function DbName(identifier: string): (r: string)
    ensures |r| == |identifier|
    ensures forall i :: 0 <= i < |r| ==> r[i] != '-' && r[i] != ' '
    ensures forall i :: 0 <= i < |r| && identifier[i] != '-' && identifier[i] != ' ' ==> r[i] == identifier[i]
  {
    Text.UnderscoreSeparators(identifier)
  }

  /** Two identifiers that differ only by a `-` against a `_` share one database. */
  lemma DbNamesCollide(identifier: string, i: nat)
    requires i < |identifier| && identifier[i] == '-'
    ensures identifier != identifier[i := '_']
    ensures DbName(identifier) == DbName(identifier[i := '_'])
  {
    assert identifier[i := '_'][i] != identifier[i];
  }

  /** The options of a new workspace: Persian locale, Iranian rial. */
  function DefaultWorkspaceOptions(): (r: Json)
    ensures GetOption(r, "locale", Null) == Str("fa-IR")
    ensures GetOption(r, "currency", Null) == Str("IRR")
    ensures r.Obj? && r.fields.Keys == {"locale", "currency"}
  {
    var m := map["locale" := Str("fa-IR"), "currency" := Str("IRR")];
    assert '.' !in "locale" && '.' !in "currency";
    GetTopLevel(m, "locale", Null);
    GetTopLevel(m, "currency", Null);
    Obj(m)
  }

  /** The document `createNew` saves, given the slug the retry loop settled on. */
  function NewWorkspaceDoc(id: ObjectId, data: NewWorkspace, slug: string): (r: WorkspaceRec)
    ensures r.id == id
    ensures r.identifier == WorkspaceIdentifier(data.identifier, slug)
    ensures r.dbUrl == Some(DbHost + DbName(r.identifier))
    ensures r.hostname.Some? <==> data.hostname.Some? && Text.Truthy(data.hostname.value)
    ensures r.hostname.Some? ==> r.hostname == data.hostname
    ensures data.name.None? ==> r.name.None?
    ensures data.name.Some? && data.name.value.NameText? ==>
      (r.name.Some? <==> Text.Truthy(data.name.value.text)) &&
      (r.name.Some? ==> r.name.value == FaIR(data.name.value.text))
    ensures data.name.Some? && data.name.value.NameMap? ==> r.name == Some(data.name.value.names)
    ensures r.category == data.category
    ensures r.options == DefaultWorkspaceOptions()
  {
    var identifier := WorkspaceIdentifier(data.identifier, slug);
    var name :=
      match data.name
      case None => None
      case Some(NameText(t)) => if Text.Truthy(t) then Some(FaIR(t)) else None
      case Some(NameMap(m)) => Some(m);
    var r := WorkspaceRec(
      id, identifier,
      if data.hostname.Some? && Text.Truthy(data.hostname.value) then data.hostname else None,
      Some(DbHost + DbName(identifier)),
      name, data.category, DefaultWorkspaceOptions());
    r
  }

  /** Why `createNew` throws: the slug loop found no free slug, or `save()` hit one of the schema's
      unique indexes. `hostname` is `sparse`, so only workspaces that have one take part in its index.
      When both indexes clash, the identifier is reported. */
  datatype CreateError = NoFreeSlug | IdentifierTaken(identifier: string) | HostnameTaken(hostname: string)

  /** The unique-index check of `save()` for a new document against the stored identifiers and hostnames. */
  function IndexCheck(w: WorkspaceRec, taken: set<string>, takenHosts: set<string>): (r: Option<CreateError>)
    ensures r.None? <==> w.identifier !in taken && (w.hostname.Some? ==> w.hostname.value !in takenHosts)
    ensures w.identifier in taken ==> r == Some(IdentifierTaken(w.identifier))
    ensures w.identifier !in taken && w.hostname.Some? && w.hostname.value in takenHosts ==>
      r == Some(HostnameTaken(w.hostname.value))
  {
    if w.identifier in taken then Some(IdentifierTaken(w.identifier))
    else if w.hostname.Some? && w.hostname.value in takenHosts then Some(HostnameTaken(w.hostname.value))
    else None
  }

  /** `Workspace.createNew(data)`: the slug loop only runs when no truthy identifier is given; the
      document is then saved under the unique indexes on `identifier` and `hostname`. `taken` holds
      the stored identifiers and `takenHosts` the stored hostnames. */
  method CreateNew(id: ObjectId, data: NewWorkspace, candidates: seq<string>, taken: set<string>, takenHosts: set<string>)
    returns (r: Result<WorkspaceRec, CreateError>)
    ensures r.Success? ==> r.value.id == id && r.value.identifier !in taken
    ensures r.Success? && r.value.hostname.Some? ==> r.value.hostname.value !in takenHosts
    ensures data.identifier.Some? && Text.Truthy(data.identifier.value) ==>
      (r.Success? <==> IndexCheck(NewWorkspaceDoc(id, data, ""), taken, takenHosts).None?)
    ensures data.identifier.Some? && Text.Truthy(data.identifier.value) && r.Success? ==>
      r.value == NewWorkspaceDoc(id, data, "")
    ensures data.identifier.Some? && Text.Truthy(data.identifier.value) && WorkspaceIdentifier(data.identifier, "") in taken ==>
      r == Failure(IdentifierTaken(WorkspaceIdentifier(data.identifier, "")))
    ensures r.Success? && !(data.identifier.Some? && Text.Truthy(data.identifier.value)) ==>
      exists i :: 0 <= i < |candidates| && candidates[i] !in taken &&
        r.value == NewWorkspaceDoc(id, data, candidates[i])
    ensures r == Failure(NoFreeSlug) <==>
      !(data.identifier.Some? && Text.Truthy(data.identifier.value)) && (forall i :: 0 <= i < |candidates| ==> candidates[i] in taken)
    ensures r.Failure? && !(data.identifier.Some? && Text.Truthy(data.identifier.value)) && !r.error.NoFreeSlug? ==>
      exists i :: 0 <= i < |candidates| && candidates[i] !in taken && (forall j :: 0 <= j < i ==> candidates[j] in taken) &&
        Some(r.error) == IndexCheck(NewWorkspaceDoc(id, data, candidates[i]), taken, takenHosts)
    ensures r.Failure? && r.error.IdentifierTaken? ==> r.error.identifier in taken
    ensures r.Failure? && r.error.HostnameTaken? ==> r.error.hostname in takenHosts && data.hostname == Some(r.error.hostname)
  {
    var slug := "";
    if !(data.identifier.Some? && Text.Truthy(data.identifier.value)) {
      var found := FreshSlug(candidates, taken);
      if found.None? {
        return Failure(NoFreeSlug);
      }
      slug := found.value;
    }
    var w := NewWorkspaceDoc(id, data, slug);
    var refused := IndexCheck(w, taken, takenHosts);
    if refused.Some? {
      return Failure(refused.value);
    }
    return Success(w);
  }

  /** A given identifier without whitespace is stored verbatim, and its database name keeps every
      character that is not a hyphen. */
  lemma GivenIdentifierKept(id: ObjectId, data: NewWorkspace, slug: string)
    requires data.identifier.Some? && Text.Truthy(data.identifier.value)
    requires forall i :: 0 <= i < |data.identifier.value| ==> !Text.IsSpace(data.identifier.value[i])
    ensures NewWorkspaceDoc(id, data, slug).identifier == data.identifier.value
  {
  }

  /** One stored membership document. */
  datatype MembershipRec = MembershipRec(
    workspace: ObjectId,
    user: ObjectId,
    password: Option<string>,
    roles: seq<ObjectId>,
    options: map<string, Json>,
    tabBarPins: seq<string>,
    homePath: Option<string>)

  /** The `roles` argument of `addMember`: absent, one role, or an array of roles (by id). */
  datatype RolesArg = NoRoles | OneRole(role: ObjectId) | ManyRoles(roles: seq<ObjectId>)

  /** The third argument of `addMember`. */
  datatype MemberArgs = MemberArgs(
    password: Option<string>,
    options: map<string, Json>,
    tabBarPins: Option<seq<string>>,
    homePath: Option<string>)

  function DefaultMemberOptions(): map<string, Json> {
    map[
      "darkMode" := Bool(false),
      "theme" := Str("default"),
      "background" := Str("linear-gradient(to bottom, #24c6dc, #514a9d)"),
      "displayLanguage" := Str("fa"),
      "timeZone" := Str("Asia/Tehran"),
      "showWalkthrough" := Bool(true)]
  }

  /** `workspace.addMember(user, roles, args)`: the membership document it saves. Given options
      override the defaults key by key; pins and home path are kept only when given (and truthy). */
  function AddMember(ws: ObjectId, user: ObjectId, roles: RolesArg, args: MemberArgs): (r: MembershipRec)
    ensures r.workspace == ws && r.user == user && r.password == args.password
    ensures roles.NoRoles? ==> r.roles == []
    ensures roles.OneRole? ==> r.roles == [roles.role]
    ensures roles.ManyRoles? ==> r.roles == roles.roles
    ensures r.options.Keys == DefaultMemberOptions().Keys + args.options.Keys
    ensures forall k :: k in args.options ==> r.options[k] == args.options[k]
    ensures forall k :: k in DefaultMemberOptions() && k !in args.options ==> r.options[k] == DefaultMemberOptions()[k]
    ensures r.tabBarPins == args.tabBarPins.GetOr([])
    ensures r.homePath.Some? <==> args.homePath.Some? && Text.Truthy(args.homePath.value)
    ensures r.homePath.Some? ==> r.homePath == args.homePath
  {
    MembershipRec(
      ws, user, args.password,
      match roles
      case NoRoles => []
      case OneRole(id) => [id]
      case ManyRoles(ids) => ids,
      DefaultMemberOptions() + args.options,
      args.tabBarPins.GetOr([]),
      if args.homePath.Some? && Text.Truthy(args.homePath.value) then args.homePath else None)
  }

  /** `workspace.membership(user)` and `user.membership(workspace)`: the first stored membership
      of that user in that workspace. */
  function MembershipOf(ms: seq<MembershipRec>, ws: ObjectId, user: ObjectId): (r: Option<MembershipRec>)
    ensures r.Some? ==> r.value in ms && r.value.workspace == ws && r.value.user == user
    ensures r.None? <==> forall i :: 0 <= i < |ms| ==> !(ms[i].workspace == ws && ms[i].user == user)
  {
    if |ms| == 0 then None
    else if ms[0].workspace == ws && ms[0].user == user then Some(ms[0])
    else
      assert forall i :: 1 <= i < |ms| ==> ms[i] == ms[1..][i - 1];
      MembershipOf(ms[1..], ws, user)
  }

  /** `workspace.memberships()`: every membership of the workspace, in stored order. */
  function MembershipsOf(ms: seq<MembershipRec>, ws: ObjectId): (r: seq<MembershipRec>)
    ensures Seqs.Subseq(r, ms)
    ensures forall i :: 0 <= i < |r| ==> r[i].workspace == ws
    ensures forall i :: 0 <= i < |ms| && ms[i].workspace == ws ==> ms[i] in r
  {
    Seqs.Filter(ms, (m: MembershipRec) => m.workspace == ws)
  }

  /** `user.memberships()`: every membership of the user, in stored order. */
  function MembershipsOfUser(ms: seq<MembershipRec>, user: ObjectId): (r: seq<MembershipRec>)
    ensures Seqs.Subseq(r, ms)
    ensures forall i :: 0 <= i < |r| ==> r[i].user == user
    ensures forall i :: 0 <= i < |ms| && ms[i].user == user ==> ms[i] in r
  {
    Seqs.Filter(ms, (m: MembershipRec) => m.user == user)
  }

  /** `workspace.hasMember(user)`: the `{ user }`-filtered membership list is non-empty. */
  function HasMember(ms: seq<MembershipRec>, ws: ObjectId, user: ObjectId): (r: bool)
    ensures r <==> MembershipOf(ms, ws, user).Some?
  {
    var found := Seqs.Filter(ms, (m: MembershipRec) => m.workspace == ws && m.user == user);
    if |found| > 0 then
      Seqs.SubseqMembers(found, ms);
      assert found[0] in ms;
      true
    else false
  }

  /** A stored storage plan: only its capacity matters here. */
  datatype StoragePlan = StoragePlan(id: ObjectId, capacity: int)

  /** The storage plan a subscription names (`Doc.resolve` of the subscribed id). */
  function PlanOf(plans: seq<StoragePlan>, id: ObjectId): (r: Option<StoragePlan>)
    ensures r.Some? ==> r.value in plans && r.value.id == id
    ensures r.None? <==> forall i :: 0 <= i < |plans| ==> plans[i].id != id
  {
    Seqs.FindBy(plans, (p: StoragePlan) => p.id, id)
  }


  /** `getStorageCapacity()`: the summed capacity of the plans the given current storage-plan
      subscriptions point at. A subscription whose plan is gone populates to `null`, and reading
      its capacity throws. */
  function StorageCapacity(plans: seq<StoragePlan>, subs: seq<Ledger.Subscription>): (r: Result<int, ObjectId>)
    ensures r.Failure? <==> exists i :: 0 <= i < |subs| && PlanOf(plans, subs[i].subscribed).None?
    ensures r.Failure? ==> PlanOf(plans, r.error).None?
    ensures |subs| == 0 ==> r == Success(0)
  {
    if |subs| == 0 then Success(0)
    else
      var rest := StorageCapacity(plans, subs[1..]);
      assert forall i :: 1 <= i < |subs| ==> subs[i] == subs[1..][i - 1];
      match PlanOf(plans, subs[0].subscribed)
      case None => Failure(subs[0].subscribed)
      case Some(p) =>
        if rest.Failure? then rest
        else Success(p.capacity + rest.value)
  }

  /** Capacities add up over a split of the subscriptions. */
  lemma {:induction false} StorageCapacityAppend(plans: seq<StoragePlan>, a: seq<Ledger.Subscription>, b: seq<Ledger.Subscription>)
    requires StorageCapacity(plans, a).Success? && StorageCapacity(plans, b).Success?
    ensures StorageCapacity(plans, a + b) == Success(StorageCapacity(plans, a).value + StorageCapacity(plans, b).value)
    decreases |a|
  {
    if |a| == 0 {
      assert a + b == b;
    } else {
      var ab := a + b;
      assert ab[0] == a[0] && ab[1..] == a[1..] + b;
      StorageCapacityCons(plans, a);
      var p := PlanOf(plans, a[0].subscribed).value.capacity;
      var x, y := StorageCapacity(plans, a[1..]).value, StorageCapacity(plans, b).value;
      StorageCapacityAppend(plans, a[1..], b);
      assert StorageCapacity(plans, ab[1..]) == Success(x + y);
      StorageCapacityCons(plans, ab);
      assert StorageCapacity(plans, ab).value == p + (x + y);
    }
  }

  /** One step of the sum: a non-empty list's capacity is its first plan's plus the rest's. */
  lemma StorageCapacityCons(plans: seq<StoragePlan>, s: seq<Ledger.Subscription>)
    requires |s| > 0
    ensures StorageCapacity(plans, s).Success? <==>
      PlanOf(plans, s[0].subscribed).Some? && StorageCapacity(plans, s[1..]).Success?
    ensures StorageCapacity(plans, s).Success? ==>
      StorageCapacity(plans, s).value == PlanOf(plans, s[0].subscribed).value.capacity + StorageCapacity(plans, s[1..]).value
  {
  }

  /** The storage quotes: capacity, used space (measured on disk by the caller), and the
      difference, which goes negative when the workspace is over quota. */
  datatype Quotes = Quotes(capacity: int, used: int, free: int)

  function StorageQuotes(capacity: int, used: int): (r: Quotes)
    ensures r.capacity == capacity && r.used == used
    ensures r.free + r.used == r.capacity
    ensures r.free < 0 <==> used > capacity
  {
    Quotes(capacity, used, capacity - used)
  }
}

=== FILE: wrappers.dfy ===
/** Failure-compatible result types shared by every other module of the model. */
module Wrappers {

  /** A value that may be absent: the model's rendering of `null` / `undefined`. */
  datatype Option<+T> = None | Some(value: T) {

    /** The carried value, or `default` when absent. */
    function GetOr(default: T): T {
      match this
      case Some(v) => v
      case None => default
    }
  }

  /** The outcome of an operation that can throw: `Failure` stands for a rejected promise. */
  datatype Result<+R, +E> = Success(value: R) | Failure(error: E) {

    predicate IsFailure() {
      Failure?
    }

    function PropagateFailure<U>(): Result<U, E>
      requires Failure?
    {
      Failure(error)
    }

    function Extract(): R
      requires Success?
    {
      value
    }
  }
}

/** Document identity shared by every collection of the model. */
module Ids {

  /** A Mongo `ObjectId`; only its identity matters. */
  type ObjectId = nat

  /** A clock reading (`new Date()`), supplied by the caller. */
  type Instant = int
}
